=== FILE: README.md ===
# Legal document assistant — a Dafny model

This project models the core of a legal-document assistant. It has a Spring
back end and a Next.js client.

On the back end, a user uploads a PDF or Word file. The server validates it,
stores the bytes under a UUID name and saves a `Document` row. It extracts the
text (Tika) and saves the row again as `COMPLETED` or `FAILED`. The AI service
builds prompts from the extracted text and calls the Gemini model. It records
summaries, answers and generated templates as `DocumentAnalysis` rows, and
parses extracted clauses into `ExtractedClause` rows. The controllers expose
all of this per user, behind a bearer-token filter.

On the client, the model covers:
- the axios interceptors and query building of `lib/api.ts`;
- the helpers of `lib/utils.ts`;
- the module-level toast store;
- the upload page (screening, the sequential upload loop, the progress map);
- the dashboard (listing query, status captions, pagination, search);
- the template generator page (validation, the result panel, the download name).

Everything is modelled as pure functions over immutable datatypes:
- The database is one sequence per table, in insertion order, with IDENTITY
  counters and a clock (`Repository.Db`). `ORDER BY createdAt DESC` is
  therefore the reverse of a filtered table.
- The services take the database in and hand the new database back.
- Java `null` is `Option`. Exceptions are `Exception(message: Option<string>)`.
- Whatever lies outside the code is a parameter:
  - the model endpoint, `readTree` and the regex fallback (`GeminiAi.Gateway`);
  - Tika's outcome (`DocumentProcessing.Extraction`);
  - the UUID text;
  - the password encoder;
  - the JWT utilities and the user-details lookup (`TokenFilter.Jwt`);
  - the outcome of each client upload call (`upload: (nat, ClientFile) -> Outcome`).

Modules:
- Back end: `Entities`, `Repository`, `DocumentProcessing`, `GeminiAi`, `AiApi`,
  `DocumentApi`, `Auth`, `TokenFilter`.
- Client: `ClientUtils`, `ClientApi`, `Toaster`, `UploadPage`, `DashboardPage`,
  `TemplatesPage`.
- Support: `Wrappers`, `Text` (Java and JavaScript string semantics), `Seqs`,
  `Json` (Jackson's tree navigation) and `Web` (HTTP replies).

Several behaviours follow the code as written:
- An analysis is never `RUNNING`. It is saved once, as `COMPLETED` or `FAILED`.
- There is no per-document locking and no check that the document's text was
  extracted.
- Clause extraction records no analysis row. Re-extraction appends clauses; it
  never replaces the earlier batch (`GeminiAi.ExtractionKeepsExistingClauses`).
- A failed summary, answer or template is a 200 reply that carries a `FAILED`
  row. It is not an error (`TemplatesPage.FailedGenerationReportsSuccess`),
  assuming no bean validation at persist time (see "## Left out"). A
  failed clause extraction is an empty list.
- Prompts embed the whole extracted text, with no truncation.
- The document search matches the original name OR the extracted text,
  case-insensitively.
- Clauses are listed by importance NAME, descending (`MEDIUM`, `LOW`, `HIGH`,
  `CRITICAL`), not by declared severity (`Repository.CriticalClausesLast`).

## Model

Source paths are relative to the repository root.

| member | source | states |
|---|---|---|
| Entities.ProcessingStatusName | src/main/java/com/kimi/legaleraseai/entity/Document.java:192-194 | the stored name of each status is read back by `valueOf` as the same constant |
| Entities.NewDocument | src/main/java/com/kimi/legaleraseai/entity/Document.java:71-77 | the five-argument constructor copies its arguments; the field initialiser leaves the document PENDING, with no text, error, path, id or timestamps |
| Entities.AnalysisTypeName | src/main/java/com/kimi/legaleraseai/entity/DocumentAnalysis.java:130-132 | each analysis type's name is read back as that type |
| Entities.AnalysisStatusName | src/main/java/com/kimi/legaleraseai/entity/DocumentAnalysis.java:134-136 | each analysis status's name is read back as that status |
| Entities.BlankAnalysis | src/main/java/com/kimi/legaleraseai/entity/DocumentAnalysis.java:48 | the no-argument constructor leaves every field null except the PENDING status |
| Entities.CompletedAnalysis | src/main/java/com/kimi/legaleraseai/entity/DocumentAnalysis.java:50-55 | the three-argument constructor sets type, result and document and marks the row COMPLETED, nothing else |
| Entities.ImportanceName | src/main/java/com/kimi/legaleraseai/entity/ExtractedClause.java:140-142 | each importance level's name is read back as that level |
| Entities.NewClause | src/main/java/com/kimi/legaleraseai/entity/ExtractedClause.java:53-57 | the three-argument constructor copies type, text and document; the field initialiser makes the clause MEDIUM with nothing else set |
| Repository.InsertUser | src/main/java/com/kimi/legaleraseai/controller/AuthController.java:76 | saving a new user assigns the next id and the current tick, appends exactly that row, touches no other table and keeps the database invariant |
| Repository.InsertDocument | src/main/java/com/kimi/legaleraseai/service/DocumentProcessingService.java:70 | saving a new document assigns the next id and sets both timestamps to now; the row is appended, with an id above every earlier one |
| Repository.UpdateDocument | src/main/java/com/kimi/legaleraseai/service/DocumentProcessingService.java:87 | saving a document that has an id rewrites only the row with that id; `createdAt` is kept, `updatedAt` becomes now |
| Repository.InsertAnalysis | src/main/java/com/kimi/legaleraseai/service/GeminiAiService.java:63 | saving an analysis appends it with the next id and the current tick |
| Repository.InsertClauses | src/main/java/com/kimi/legaleraseai/service/GeminiAiService.java:85 | `saveAll` appends the clauses in list order, each with the next id, and returns them in the same order |
| Repository.DeleteDocument | src/main/java/com/kimi/legaleraseai/entity/Document.java:63-67 | deleting a document removes it and, by cascade, exactly its analyses and clauses; users stay |
| Repository.FindUser | src/main/java/com/kimi/legaleraseai/controller/AiController.java:277-278 | `findById` finds a user exactly when one with that id is stored |
| Repository.FindByIdAndUser | src/main/java/com/kimi/legaleraseai/repository/DocumentRepository.java:21 | present exactly when a document with that id belongs to that user |
| Repository.FindByIdAndUserUnique | src/main/java/com/kimi/legaleraseai/repository/DocumentRepository.java:21 | in a valid database the stored row with the id is the one found, and only for its owner |
| Repository.OwnerListing | src/main/java/com/kimi/legaleraseai/repository/DocumentRepository.java:19 | exactly the user's documents, newest first |
| Repository.CountByUser | src/main/java/com/kimi/legaleraseai/repository/DocumentRepository.java:30 | the count equals the length of the user's listing |
| Repository.SearchResults | src/main/java/com/kimi/legaleraseai/repository/DocumentRepository.java:23-28 | a user's document is a hit exactly when its original name or its extracted text contains the term, ignoring case |
| Repository.SearchWithinListing | src/main/java/com/kimi/legaleraseai/repository/DocumentRepository.java:23-25 | every search hit is one of the user's listed documents |
| Repository.SearchNullTextMatchesByName | src/main/java/com/kimi/legaleraseai/repository/DocumentRepository.java:24-25 | a document without extracted text matches only through its original name |
| Repository.PageOf | src/main/java/com/kimi/legaleraseai/controller/DocumentController.java:61 | a page holds the window [page·size, (page+1)·size) of the rows, clipped at the end |
| Repository.PageCovers | src/main/java/com/kimi/legaleraseai/controller/DocumentController.java:61 | every row appears on page i / size at offset i % size |
| Repository.TotalPages | src/main/java/com/kimi/legaleraseai/controller/DocumentController.java:61-67 | the page count is the least number of pages of the given size that hold all rows |
| Repository.PageNonEmptyIff | src/main/java/com/kimi/legaleraseai/controller/DocumentController.java:61-67 | a page is non-empty exactly when its number is below the page count |
| Repository.Paged | src/main/java/com/kimi/legaleraseai/controller/DocumentController.java:61 | a negative page or a size below one throws Spring's message; otherwise the page's rows with its number, size, total and page count |
| Repository.AnalysesOf | src/main/java/com/kimi/legaleraseai/repository/DocumentAnalysisRepository.java:13 | exactly the document's analyses, newest first |
| Repository.AnalysesOfType | src/main/java/com/kimi/legaleraseai/repository/DocumentAnalysisRepository.java:18-19 | exactly the document's analyses of that type, newest first |
| Repository.FindAnalysisOfType | src/main/java/com/kimi/legaleraseai/repository/DocumentAnalysisRepository.java:15-16 | no row, the single row, or a non-unique-result failure, according to how many rows match |
| Repository.DocumentlessAnalysesNeverListed | src/main/java/com/kimi/legaleraseai/repository/DocumentAnalysisRepository.java:13-19 | an analysis without a document (a template) is in no per-document result |
| Repository.ClausesOfLevel | src/main/java/com/kimi/legaleraseai/repository/ExtractedClauseRepository.java:16-17 | exactly the document's clauses of that level, newest first |
| Repository.ClausesOfType | src/main/java/com/kimi/legaleraseai/repository/ExtractedClauseRepository.java:14 | exactly the document's clauses of that clause type, newest first |
| Repository.NameRankOrdersNames | src/main/java/com/kimi/legaleraseai/entity/ExtractedClause.java:34-36 | the group order MEDIUM, LOW, HIGH, CRITICAL is the descending string order of the stored names |
| Repository.ClauseListing | src/main/java/com/kimi/legaleraseai/repository/ExtractedClauseRepository.java:12 | the listing is a permutation of the document's clauses, sorted by level name descending, then newest first |
| Repository.GroupsArePartition | src/main/java/com/kimi/legaleraseai/repository/ExtractedClauseRepository.java:12 | the four level groups together hold each of the document's clauses exactly once |
| Repository.GroupsAreSorted | src/main/java/com/kimi/legaleraseai/repository/ExtractedClauseRepository.java:12 | the groups, one after another, are sorted by the ORDER BY clause |
| Repository.LevelsPartition | src/main/java/com/kimi/legaleraseai/repository/ExtractedClauseRepository.java:12 | as multisets, the document's clauses are the sum of its four level filters |
| Repository.CriticalClausesLast | src/main/java/com/kimi/legaleraseai/repository/ExtractedClauseRepository.java:12 | every CRITICAL clause is listed after every clause of another level |
| Repository.LevelsCoverClauses | src/main/java/com/kimi/legaleraseai/repository/ExtractedClauseRepository.java:16-17 | a clause belongs to the document exactly when one of the four level queries returns it |
| DocumentProcessing.ValidateFile | src/main/java/com/kimi/legaleraseai/service/DocumentProcessingService.java:92-113 | a file passes exactly when it is non-empty, at most 50 MB and of one of the three MIME types; otherwise the message of the failing check |
| DocumentProcessing.ValidationOrder | src/main/java/com/kimi/legaleraseai/service/DocumentProcessingService.java:92-105 | emptiness is reported before size, and size before type |
| DocumentProcessing.SizeBoundIsInclusive | src/main/java/com/kimi/legaleraseai/service/DocumentProcessingService.java:97-99 | a PDF of exactly 52,428,800 bytes passes; one byte more is too large |
| DocumentProcessing.FileExtension | src/main/java/com/kimi/legaleraseai/service/DocumentProcessingService.java:115-120 | "" for a null or dot-free name, otherwise the suffix from the last '.', which holds no other '.' |
| DocumentProcessing.UniqueFilename | src/main/java/com/kimi/legaleraseai/service/DocumentProcessingService.java:47-50 | the stored name is the UUID followed by the original's extension, and has that same extension |
| DocumentProcessing.ExtensionOfAppended | src/main/java/com/kimi/legaleraseai/service/DocumentProcessingService.java:115-120 | a dot-free prefix does not change the extension of an extension |
| DocumentProcessing.ExtractText | src/main/java/com/kimi/legaleraseai/service/DocumentProcessingService.java:122-143 | the trimmed text; "" when Tika yields null; a failure whose message is the fixed prefix plus Tika's message |
| DocumentProcessing.StagedDocument | src/main/java/com/kimi/legaleraseai/service/DocumentProcessingService.java:59-67 | the first row copies the upload's fields, records the stored path and is PROCESSING |
| DocumentProcessing.Finished | src/main/java/com/kimi/legaleraseai/service/DocumentProcessingService.java:75-85 | extraction success sets the text and COMPLETED; failure sets FAILED and the error message |
| DocumentProcessing.ProcessDocument | src/main/java/com/kimi/legaleraseai/service/DocumentProcessingService.java:33-90 | a failed validation throws its message and changes nothing; otherwise the bytes land under uuid+extension and one row is added; it is COMPLETED with the trimmed text exactly when extraction succeeded, else FAILED with the error |
| DocumentProcessing.StagedDocumentConstraints | src/main/java/com/kimi/legaleraseai/entity/Document.java:22-28 | the row the first save persists meets the `@NotBlank` name constraints exactly when the upload's original file name is neither null nor blank; the stored UUID name always meets them |
| DocumentProcessing.SecondSaveReplacesLast | src/main/java/com/kimi/legaleraseai/service/DocumentProcessingService.java:87 | the second save rewrites only the row the first save appended |
| DocumentProcessing.DeleteStoredDocument | src/main/java/com/kimi/legaleraseai/service/DocumentProcessingService.java:145-158 | the file goes only when the path is set and a file exists there; the row (with its cascade) always goes |
| GeminiAi.SummaryPrompt | src/main/java/com/kimi/legaleraseai/service/GeminiAiService.java:51-53 | the summary prompt is the fixed instruction followed by the whole extracted text ("null" when absent) |
| GeminiAi.ClausePrompt | src/main/java/com/kimi/legaleraseai/service/GeminiAiService.java:76-80 | the clause prompt is the fixed instruction followed by the whole extracted text |
| GeminiAi.QuestionPrompt | src/main/java/com/kimi/legaleraseai/service/GeminiAiService.java:93-96 | the question appears verbatim after the lead, then the instruction; the prompt ends with the whole text |
| GeminiAi.TemplatePrompt | src/main/java/com/kimi/legaleraseai/service/GeminiAiService.java:120-124 | the template type and the requirements appear verbatim at their positions; the prompt ends with the fixed instruction |
| GeminiAi.RequestBodyShape | src/main/java/com/kimi/legaleraseai/service/GeminiAiService.java:159-175 | the prompt sits at contents[0].parts[0].text; the generation config holds temperature 0.1 and 2048 output tokens |
| GeminiAi.RequestBody | src/main/java/com/kimi/legaleraseai/service/GeminiAiService.java:159-175 | one content with one part carrying the prompt, and the generation config with temperature 0.1 and 2048 output tokens |
| GeminiAi.ParseGeminiResponse | src/main/java/com/kimi/legaleraseai/service/GeminiAiService.java:177-191 | fails with "Invalid response format" exactly when candidates or parts is not a non-empty array; otherwise the text of the first part |
| GeminiAi.ParseReplyWith | src/main/java/com/kimi/legaleraseai/service/GeminiAiService.java:177-191 | round trip: the text of a well-formed reply is recovered |
| GeminiAi.EmptyCandidatesRejected | src/main/java/com/kimi/legaleraseai/service/GeminiAiService.java:181 | a reply with an empty candidates array is rejected |
| GeminiAi.CallGemini | src/main/java/com/kimi/legaleraseai/service/GeminiAiService.java:146-157 | a transport failure is passed on; otherwise the reply is read as a tree and unwrapped |
| GeminiAi.ClauseFromJson | src/main/java/com/kimi/legaleraseai/service/GeminiAiService.java:216-233 | the element is dropped exactly when its importance names no level (case-insensitive); otherwise its texts, that level and confidence 0.8 |
| GeminiAi.MissingImportanceIsMedium | src/main/java/com/kimi/legaleraseai/service/GeminiAiService.java:221 | an absent or null importance gives a MEDIUM clause |
| GeminiAi.LowerCaseImportanceAccepted | src/main/java/com/kimi/legaleraseai/service/GeminiAiService.java:225 | a lower-case level name is accepted as that level |
| GeminiAi.NonObjectElementGivesBlankClause | src/main/java/com/kimi/legaleraseai/service/GeminiAiService.java:218-226 | an element that is not an object is kept as a blank MEDIUM clause |
| GeminiAi.JsonClauses | src/main/java/com/kimi/legaleraseai/service/GeminiAiService.java:199-205 | one clause per kept element, in array order; all kept when all levels are valid, none when none are |
| GeminiAi.JsonClausesAppend | src/main/java/com/kimi/legaleraseai/service/GeminiAiService.java:200-205 | the JSON branch works element by element: it distributes over concatenation |
| GeminiAi.RegexClauses | src/main/java/com/kimi/legaleraseai/service/GeminiAiService.java:235-254 | one MEDIUM clause with confidence 0.6 per match, with both groups trimmed |
| GeminiAi.ParseClauses | src/main/java/com/kimi/legaleraseai/service/GeminiAiService.java:193-214 | an array gives its JSON clauses; any other tree gives none; only a parse exception falls back to the regex |
| GeminiAi.FailedAnalysis | src/main/java/com/kimi/legaleraseai/service/GeminiAiService.java:66-71 | the catch-block row: FAILED, its type, document and error message, no result |
| GeminiAi.SummarizeDocument | src/main/java/com/kimi/legaleraseai/service/GeminiAiService.java:50-73 | one row is appended: COMPLETED with the reply exactly when the call succeeded, else FAILED with the message; the prompt is kept on success only |
| GeminiAi.AnswerQuestion | src/main/java/com/kimi/legaleraseai/service/GeminiAiService.java:92-117 | one row is appended, COMPLETED or FAILED as the call went; the question itself is the stored prompt on both paths |
| GeminiAi.GenerateTemplate | src/main/java/com/kimi/legaleraseai/service/GeminiAiService.java:119-144 | one row without a document is appended; the full prompt is stored on both paths |
| GeminiAi.ExtractClauses | src/main/java/com/kimi/legaleraseai/service/GeminiAiService.java:75-90 | on any failure nothing is saved and the list is empty; otherwise the parsed clauses are appended with fresh ids |
| GeminiAi.ExtractionKeepsExistingClauses | src/main/java/com/kimi/legaleraseai/service/GeminiAiService.java:85 | re-extraction appends: every clause stored before is still stored after |
| GeminiAi.SuccessfulDocumentAnalysesHaveRequiredColumns | src/main/java/com/kimi/legaleraseai/entity/DocumentAnalysis.java:18-46 | a successful summary or answer fills the non-null type, result and document columns |
| GeminiAi.FailedAnalysesLackResult | src/main/java/com/kimi/legaleraseai/service/GeminiAiService.java:64-72 | every failure path saves a row with a null result, against the declared column |
| GeminiAi.TemplatesNeverHaveDocument | src/main/java/com/kimi/legaleraseai/service/GeminiAiService.java:128-132 | a template row never has a document, so it never meets the non-null columns |
| Web.ErrorText | src/main/java/com/kimi/legaleraseai/controller/AiController.java:112-113 | a catch-block message is the prefix followed by the exception's message ("null" when absent) |
| AiApi.DocumentForUser | src/main/java/com/kimi/legaleraseai/controller/AiController.java:272-283 | fails with "User not found" exactly when the principal's user is gone; otherwise the document if, and only if, that user owns it |
| AiApi.AnalysisResponseOf | src/main/java/com/kimi/legaleraseai/controller/AiController.java:337-346 | the view copies the fields and renders type and status by name; a null type fails |
| AiApi.AnalysisResponses | src/main/java/com/kimi/legaleraseai/controller/AiController.java:226-228 | mapping a list succeeds exactly when every row has a type, element by element |
| AiApi.ClauseResponseOf | src/main/java/com/kimi/legaleraseai/controller/AiController.java:393-401 | the view copies the fields and renders the level by name |
| AiApi.ClauseResponses | src/main/java/com/kimi/legaleraseai/controller/AiController.java:139-141 | the list is converted element by element |
| AiApi.Summarize | src/main/java/com/kimi/legaleraseai/controller/AiController.java:97-115 | 400 without a user, 404 (nothing saved) for a document that is not the caller's; otherwise 200 with the row the service recorded |
| AiApi.ExtractClausesEndpoint | src/main/java/com/kimi/legaleraseai/controller/AiController.java:125-148 | the same guards; 200 with the saved clauses in parse order |
| AiApi.Ask | src/main/java/com/kimi/legaleraseai/controller/AiController.java:161-179 | the same guards; 200 with the recorded answer |
| AiApi.Template | src/main/java/com/kimi/legaleraseai/controller/AiController.java:189-203 | always 200, with the recorded TEMPLATE_GENERATION row, COMPLETED or FAILED |
| AiApi.Analyses | src/main/java/com/kimi/legaleraseai/controller/AiController.java:213-231 | a missing user is a 500 (no try block), a foreign document a 404; the reply is 200 exactly when the caller owns the document and every stored analysis of it has a type, and then carries the document's analyses, newest first; an analysis without a type is a 500 |
| AiApi.Clauses | src/main/java/com/kimi/legaleraseai/controller/AiController.java:241-260 | the same guards; otherwise the clause listing in level-name order |
| AiApi.OtherUsersDocumentsAreHidden | src/main/java/com/kimi/legaleraseai/controller/AiController.java:280-282 | for another user's document every endpoint answers 404 and saves nothing |
| AiApi.NewestAnalysisFirst | src/main/java/com/kimi/legaleraseai/controller/AiController.java:223 | a newly appended analysis heads its document's listing |
| AiApi.ResponsesAfterAppend | src/main/java/com/kimi/legaleraseai/controller/AiController.java:223-228 | after such an append, the listing's first response is the new row's |
| AiApi.SummaryHeadsListing | src/main/java/com/kimi/legaleraseai/controller/AiController.java:108-109 | a summary just produced is the first entry of the document's analysis listing |
| AiApi.ClauseNamesDescend | src/main/java/com/kimi/legaleraseai/controller/AiController.java:251-257 | on the wire, a later clause never carries a level name that sorts after an earlier one's |
| DocumentApi.DocumentResponseOf | src/main/java/com/kimi/legaleraseai/controller/DocumentController.java:121-132 | the view copies the fields; `hasExtractedText` holds exactly when the text is present and not blank |
| DocumentApi.MapPage | src/main/java/com/kimi/legaleraseai/controller/DocumentController.java:70 | the page metadata is kept and each row is converted in place |
| DocumentApi.Caller | src/main/java/com/kimi/legaleraseai/controller/DocumentController.java:38-40 | the principal's user, or "User not found" exactly when it is gone |
| DocumentApi.Upload | src/main/java/com/kimi/legaleraseai/controller/DocumentController.java:34-48 | a missing user or failed validation is a 400 carrying the message and changes nothing; otherwise 200 with the processed document's view |
| DocumentApi.ListingRows | src/main/java/com/kimi/legaleraseai/controller/DocumentController.java:64-68 | a non-blank search term is trimmed and searched, and the rows are the hits in whatever order the database returned them, each hit exactly as often as it matches; otherwise all of the caller's documents, newest first; every row is the caller's |
| DocumentApi.SearchOrder | src/main/java/com/kimi/legaleraseai/repository/DocumentRepository.java:23-28 | the query has no ORDER BY: the database may return the hits in any arrangement of the matching rows |
| DocumentApi.List | src/main/java/com/kimi/legaleraseai/controller/DocumentController.java:50-72 | a missing user or a rejected page request is a 500; otherwise the requested page (defaults 0 and 10) of those rows, for any order the database gives the search hits |
| DocumentApi.Get | src/main/java/com/kimi/legaleraseai/controller/DocumentController.java:74-86 | 500 without a user; 200 exactly when the caller owns the document, else 404 |
| DocumentApi.Delete | src/main/java/com/kimi/legaleraseai/controller/DocumentController.java:88-106 | 400 without a user, 404 for a foreign document; otherwise the stored file and the row with its cascade go |
| DocumentApi.UploadThenGet | src/main/java/com/kimi/legaleraseai/controller/DocumentController.java:42-43 | a document just uploaded is fetched back by its new id with the same view |
| DocumentApi.DeleteThenGet | src/main/java/com/kimi/legaleraseai/controller/DocumentController.java:100-101 | after a delete the document is 404 for its owner and has no analyses or clauses |
| DocumentApi.BlankExtractionCompletesWithoutText | src/main/java/com/kimi/legaleraseai/controller/DocumentController.java:131 | a document whose extracted text is blank is COMPLETED yet reports no extracted text |
| DocumentApi.ListingShowsOnlyOwnDocuments | src/main/java/com/kimi/legaleraseai/controller/DocumentController.java:57-71 | entry i of any listing is the view of row page·size + i of the rows paged through, one of the caller's own documents: a search hit at that place in the database's order, or else the caller's (page·size + i)-th newest document |
| DocumentApi.BlankSearchListsEverything | src/main/java/com/kimi/legaleraseai/controller/DocumentController.java:64 | a whitespace-only search lists the same rows as no search |
| Auth.NewAccount | src/main/java/com/kimi/legaleraseai/controller/AuthController.java:68-74 | the account carries the encoded password, the request's names and role USER |
| Auth.Signup | src/main/java/com/kimi/legaleraseai/controller/AuthController.java:53-79 | a taken username is reported before a taken email; otherwise exactly one user is stored |
| Repository.ExistsByUsername | src/main/java/com/kimi/legaleraseai/controller/AuthController.java:55 | some stored user has that username |
| Repository.ExistsByEmail | src/main/java/com/kimi/legaleraseai/controller/AuthController.java:61 | some stored user has that email |
| Auth.Me | src/main/java/com/kimi/legaleraseai/controller/AuthController.java:81-100 | 400 without a principal, 500 when its user is gone; otherwise that user's profile without the password |
| Auth.SignupTwiceRejected | src/main/java/com/kimi/legaleraseai/controller/AuthController.java:55-65 | registering the same username or email again is refused with the matching message |
| Auth.SignupThenMe | src/main/java/com/kimi/legaleraseai/controller/AuthController.java:76-99 | the account just registered is the profile `/me` reports for its new id |
| TokenFilter.ParseJwt | src/main/java/com/kimi/legaleraseai/security/AuthTokenFilter.java:80-88 | a token exactly when the header starts with "Bearer "; the header is the prefix followed by the token |
| TokenFilter.BearerHeaderHasText | src/main/java/com/kimi/legaleraseai/security/AuthTokenFilter.java:83 | the `hasText` test is implied by the prefix test |
| TokenFilter.ParseJwtRoundTrip | src/main/java/com/kimi/legaleraseai/security/AuthTokenFilter.java:83-84 | round trip: "Bearer " + token reads back as the token, even an empty one |
| TokenFilter.OtherSchemesCarryNoToken | src/main/java/com/kimi/legaleraseai/security/AuthTokenFilter.java:87 | any other header, or none, carries no token |
| TokenFilter.DoFilter | src/main/java/com/kimi/legaleraseai/security/AuthTokenFilter.java:29-78 | the chain always runs; the context changes only for a valid token whose user loads, and then to that user |
| TokenFilter.InvalidTokenNeverAuthenticates | src/main/java/com/kimi/legaleraseai/security/AuthTokenFilter.java:44-69 | a token that fails validation leaves the context as it was |
| TokenFilter.ValidTokenAuthenticatesItsUser | src/main/java/com/kimi/legaleraseai/security/AuthTokenFilter.java:47-62 | a valid token whose user loads authenticates exactly that user |
| ClientUtils.TruncateText | frontend/src/lib/utils.ts:29-32 | text that fits is unchanged; longer text keeps its first maxLength characters followed by "..." |
| ClientUtils.TruncateTextIdempotent | frontend/src/lib/utils.ts:29-32 | truncating twice is truncating once |
| ClientUtils.FileIcon | frontend/src/lib/utils.ts:34-38 | the memo icon exactly when the type does not mention "pdf" but mentions "word" or "document"; otherwise the page icon |
| ClientUtils.PdfIcon | frontend/src/lib/utils.ts:35 | the PDF MIME type gets the page icon |
| ClientUtils.MsWordIcon | frontend/src/lib/utils.ts:36 | the Word MIME type gets the memo icon |
| ClientUtils.ImportanceColor | frontend/src/lib/utils.ts:40-53 | each of the four lower-cased level names gets its own colour, and anything else gets grey |
| ClientUtils.LevelColor | frontend/src/lib/utils.ts:40-53 | the colour of each server importance level: red, orange, yellow and green |
| ClientUtils.ImportanceColorIgnoresCase | frontend/src/lib/utils.ts:41 | names that lower-case alike get the same colour |
| ClientUtils.ServerLevelsHaveColours | frontend/src/lib/utils.ts:41-49 | every level name the server sends gets its level's colour, never grey |
| ClientApi.BearerValue | frontend/src/lib/api.ts:25 | the header value is "Bearer " followed by the token |
| ClientApi.Intercept | frontend/src/lib/api.ts:14-49 | a truthy token sets Authorization; a truthy non-form body without Content-Type gets JSON; a form body loses Content-Type; every other header is unchanged |
| ClientApi.InterceptIdempotent | frontend/src/lib/api.ts:14-49 | running the interceptor again changes nothing more |
| ClientApi.ServerReadsClientToken | frontend/src/lib/api.ts:24-25 | the server's token filter reads back exactly the token the interceptor sent |
| ClientApi.OnResponseError | frontend/src/lib/api.ts:64-90 | a 401 whose message mentions "JWT" drops the cookie and goes to the login page; any other error leaves the session; the error is always passed on |
| ClientApi.IsJwtFailure | frontend/src/lib/api.ts:73-79 | a 401 whose response message contains "JWT" |
| ClientApi.SecondJwtFailureChangesNothing | frontend/src/lib/api.ts:79-82 | after a JWT failure, handling any further error changes nothing more |
| ClientApi.IntText | frontend/src/lib/api.ts:162-163 | an integer's decimal text, with a leading "-" for negatives |
| ClientApi.ParseIntText | src/main/java/com/kimi/legaleraseai/controller/DocumentController.java:52-53 | decimal text, optionally negative, binds to its value exactly when that value fits a Java `int`; other text does not bind |
| ClientApi.ParseIntTextRoundTrip | frontend/src/lib/api.ts:161-164 | round trip: the server reads the client's integer text back as the integer exactly when it fits an `int`, and rejects it otherwise |
| ClientApi.DocumentsQuery | frontend/src/lib/api.ts:160-165 | page and size (defaults 0 and 10) are always sent; search only when it is a non-empty string |
| ClientApi.QueryValue | src/main/java/com/kimi/legaleraseai/controller/DocumentController.java:52-54 | the value of the first pair with that name, no earlier pair carrying it; none exactly when no parameter has that name |
| ClientApi.DocumentsQueryRoundTrip | frontend/src/lib/api.ts:160-168 | the server reads back the page and the size whenever they fit an `int` (and rejects them otherwise), and the search term exactly when it is non-empty |
| ClientApi.UploadRequest | frontend/src/lib/api.ts:119-149 | without a truthy token it throws "Authentication required" before any request; otherwise a form POST carrying only the Authorization header |
| ClientApi.UploadCarriesTokenNoContentType | frontend/src/lib/api.ts:138-149 | an upload that is sent has no Content-Type, and its Authorization header reads back as the token |
| Toaster.Publish | frontend/src/components/ui/Toaster.tsx:34 | every registered listener is handed the new list |
| Toaster.InitialStoreValid | frontend/src/components/ui/Toaster.tsx:13-15 | the empty store meets the invariant, and all views agree |
| Toaster.DismissDelay | frontend/src/components/ui/Toaster.tsx:27 | an absent or zero duration falls back to 5000 ms |
| Toaster.Notify | frontend/src/components/ui/Toaster.tsx:17-28 | the counter goes up by one; the new toast's id is its decimal text; the toast is appended and every listener gets the new list |
| Toaster.Valid | frontend/src/components/ui/Toaster.tsx:13-20 | every visible toast's id is a number the counter has already issued, and the list is in strictly increasing id order |
| Toaster.FindIndex | frontend/src/components/ui/Toaster.tsx:31 | the position of the first toast with the id, or -1 when none has it |
| Toaster.RemoveToast | frontend/src/components/ui/Toaster.tsx:30-36 | the first toast with the id is removed and the listeners are told; an unknown id changes nothing, views included |
| Toaster.Mount | frontend/src/components/ui/Toaster.tsx:48-49 | a mounting Toaster registers a listener that starts from an empty list |
| Toaster.Unmount | frontend/src/components/ui/Toaster.tsx:50-55 | an unmounting Toaster unregisters its listener; the toasts stay |
| Toaster.NotifyPreservesValid | frontend/src/components/ui/Toaster.tsx:17-20 | notify keeps every id issued and the list ordered by id number |
| Toaster.RemovePreservesValid | frontend/src/components/ui/Toaster.tsx:30-36 | removal keeps the invariant |
| Toaster.IdsUnique | frontend/src/components/ui/Toaster.tsx:18 | in a valid store no two visible toasts share an id |
| Toaster.NewIdIsFresh | frontend/src/components/ui/Toaster.tsx:18 | the id notify issues is not the id of any visible toast |
| Toaster.NotifyThenRemove | frontend/src/components/ui/Toaster.tsx:25-27 | the new toast's timer firing restores the previous list |
| Toaster.RemoveTwiceIsRemoveOnce | frontend/src/components/ui/Toaster.tsx:31-32 | a timer firing for a toast already dismissed changes nothing |
| UploadPage.RejectionNote | frontend/src/app/dashboard/upload/page.tsx:54-72 | no toast exactly when the file is accepted; the type is checked before the size |
| UploadPage.Screen | frontend/src/app/dashboard/upload/page.tsx:54-72 | the accepted files are kept in order, with one error toast per rejected file, in order |
| UploadPage.IsAcceptedType | frontend/src/app/dashboard/upload/page.tsx:55-57 | the three MIME types the page accepts: PDF, Word and Word Open XML |
| UploadPage.IsAcceptedSize | frontend/src/app/dashboard/upload/page.tsx:59 | at most 50 MiB, inclusive |
| UploadPage.AddFiles | frontend/src/app/dashboard/upload/page.tsx:53-75 | the accepted new files are appended after the current list, duplicates and all |
| UploadPage.AddFilesKeepsList | frontend/src/app/dashboard/upload/page.tsx:74 | adding files keeps the listed files as a prefix and adds only accepted new files |
| UploadPage.ScreeningMatchesServer | frontend/src/app/dashboard/upload/page.tsx:55-59 | for a non-empty file, the page accepts it exactly when the server's validation would |
| UploadPage.EmptyFileReachesServer | frontend/src/app/dashboard/upload/page.tsx:59 | an empty PDF passes the page's filter but the server answers "File is empty" |
| UploadPage.RemoveFile | frontend/src/app/dashboard/upload/page.tsx:77-79 | the file at a valid index is removed and the rest keep their order; another index changes nothing |
| UploadPage.FailureText | frontend/src/app/dashboard/upload/page.tsx:106 | the server's message when truthy, otherwise "Upload failed" |
| UploadPage.ProgressCode | frontend/src/app/dashboard/upload/page.tsx:97-102 | 100 exactly for a success and -1 exactly for a failure |
| UploadPage.OutcomeNote | frontend/src/app/dashboard/upload/page.tsx:100-109 | a success toast naming the file, or an error toast naming it with the failure text |
| UploadPage.UploadFiles | frontend/src/app/dashboard/upload/page.tsx:81-121 | no files: only an error toast; otherwise each file in order is at 0 when its request goes out, each result and toast matches its call, and the page moves on exactly when some upload succeeded |
| UploadPage.RunUploads | frontend/src/app/dashboard/upload/page.tsx:90-111 | the loop sends every file in order and builds the snapshots, progress, results and toasts of its reference definitions |
| UploadPage.SnapshotsIndex | frontend/src/app/dashboard/upload/page.tsx:93 | as the k-th request goes out, that file's progress is 0 |
| UploadPage.ReportsIndex | frontend/src/app/dashboard/upload/page.tsx:98-109 | the k-th result and toast are those of the k-th call's outcome |
| UploadPage.AnyUploadedIff | frontend/src/app/dashboard/upload/page.tsx:116 | the success flag is set exactly when some call succeeded |
| UploadPage.FinalProgress | frontend/src/app/dashboard/upload/page.tsx:93-102 | when no later file shares its name, a file's final progress entry is the code of its own upload |
| UploadPage.Row | frontend/src/app/dashboard/upload/page.tsx:184-187 | the row shows a tick at 100, a cross at -1, and a spinner while uploading with a non-negative entry |
| UploadPage.RowAfterUpload | frontend/src/app/dashboard/upload/page.tsx:184-187 | after the run, a file whose name no later file shares shows a tick exactly when it succeeded and a cross exactly when it failed |
| UploadPage.SameNameFilesShareProgress | frontend/src/app/dashboard/upload/page.tsx:97-102 | two files with the same name share one entry: a failed first upload shows a tick after a successful second |
| UploadPage.MissingTokenShowsGenericFailure | frontend/src/app/dashboard/upload/page.tsx:101-109 | whenever the token guard refuses the upload, the toast reads "Failed to upload <name>: Upload failed" and the results entry records "Upload failed": the guard's own message never reaches the page |
| UploadPage.UploadAttempt | frontend/src/lib/api.ts:128-133 | a request the token guard refuses ends as a failure without a server message; a sent request ends as the server's answer made it |
| DashboardPage.ListingQuery | frontend/src/app/dashboard/page.tsx:35-36 | the page and size 10 are always sent, and the term only when the box is not empty |
| DashboardPage.ServerSeesDashboardQuery | frontend/src/app/dashboard/page.tsx:36 | the server reads the dashboard's page whenever it fits an `int`, size 10, and the term exactly when the box is not empty |
| DashboardPage.StatusText | frontend/src/app/dashboard/page.tsx:95-108 | each of the four statuses has its caption, and "Unknown" exactly for a name that is not a status |
| DashboardPage.StatusTextOfServerStatus | frontend/src/app/dashboard/page.tsx:95-108 | every status the server sends has its own caption, distinct from the others' |
| DashboardPage.ViewIffReady | frontend/src/app/dashboard/page.tsx:224-231 | the View link is offered exactly when the caption reads "Ready" |
| DashboardPage.FailedDocumentHasNoView | frontend/src/app/dashboard/page.tsx:224 | a document whose extraction failed is listed without a View link |
| DashboardPage.OffersView | frontend/src/app/dashboard/page.tsx:224 | a row carries the View link when the status name is "COMPLETED" |
| DashboardPage.Panel | frontend/src/app/dashboard/page.tsx:156-249 | the spinner exactly while loading, then the error panel, then "No documents" exactly for a loaded empty page; otherwise the page's rows, with the bar exactly when a loaded page has more than one page in all |
| DashboardPage.ShowsPagination | frontend/src/app/dashboard/page.tsx:249 | the bar is on screen when the rows branch is rendered and there is more than one page |
| DashboardPage.ShowsPaginationIff | frontend/src/app/dashboard/page.tsx:156-249 | the bar is on screen exactly when nothing is loading, no error is shown, and the loaded page has rows and more than one page in all |
| DashboardPage.PastLastPageShowsNothing | frontend/src/app/dashboard/page.tsx:169-184 | a page index at or past the server's page count gets an empty page, shown as "No documents" with no rows and no pagination controls |
| DashboardPage.PageLabel | frontend/src/app/dashboard/page.tsx:252 | the label counts pages from one |
| DashboardPage.PreviousDisabled | frontend/src/app/dashboard/page.tsx:259 | Previous is disabled on page 0 |
| DashboardPage.NextDisabled | frontend/src/app/dashboard/page.tsx:267 | Next is disabled from the last page on |
| DashboardPage.ClickPrevious | frontend/src/app/dashboard/page.tsx:258-259 | Previous goes back one page unless it is disabled on page 0 |
| DashboardPage.ClickNext | frontend/src/app/dashboard/page.tsx:266-267 | Next goes forward one page unless it is disabled on the last page |
| DashboardPage.ClicksStayInRange | frontend/src/app/dashboard/page.tsx:258-267 | clicks keep the page index in [0, totalPages - 1] |
| DashboardPage.SomeButtonEnabled | frontend/src/app/dashboard/page.tsx:249-267 | while the bar is on screen, at least one button is enabled |
| DashboardPage.NextMeansMoreDocuments | frontend/src/app/dashboard/page.tsx:266-267 | Next is enabled exactly when the server has a further non-empty page |
| DashboardPage.TypeSearch | frontend/src/app/dashboard/page.tsx:143 | typing changes the term and keeps the page |
| DashboardPage.SubmitSearch | frontend/src/app/dashboard/page.tsx:60-64 | submitting goes back to the first page with the current term |
| DashboardPage.SubmittedSearchAsksFirstPage | frontend/src/app/dashboard/page.tsx:60-64 | a submitted search asks for page 0 and disables Previous |
| TemplatesPage.SelectTemplate | frontend/src/app/dashboard/templates/page.tsx:129-131 | a card click selects its type and shows the form |
| TemplatesPage.Submit | frontend/src/app/dashboard/templates/page.tsx:75-86 | refused with the fixed toast exactly when no type is selected or the requirements are blank; otherwise the type and the trimmed requirements are sent |
| TemplatesPage.GenerateDisabled | frontend/src/app/dashboard/templates/page.tsx:232 | Generate is disabled while the trimmed requirements are empty or a request is in flight |
| TemplatesPage.ShowsTemplate | frontend/src/app/dashboard/templates/page.tsx:242 | the generated-template panel is shown for a truthy template |
| TemplatesPage.SentRequirementsAreTrimmed | frontend/src/app/dashboard/templates/page.tsx:84 | sent requirements are non-empty and have nothing left to trim |
| TemplatesPage.EnabledButtonSends | frontend/src/app/dashboard/templates/page.tsx:232 | once a card is picked, an enabled Generate button always sends |
| TemplatesPage.OnSuccess | frontend/src/app/dashboard/templates/page.tsx:65-68 | the answer's result becomes the shown template and a success toast is raised |
| TemplatesPage.FailedGenerationReportsSuccess | frontend/src/app/dashboard/templates/page.tsx:65-68 | a failed generation still raises the success toast, with no template to show |
| TemplatesPage.Back | frontend/src/app/dashboard/templates/page.tsx:193-196 | Back hides the form and clears the three text fields |
| TemplatesPage.BackClearsForm | frontend/src/app/dashboard/templates/page.tsx:193-196 | after Back nothing can be sent and no template is shown |
| TemplatesPage.CollapseWhitespace | frontend/src/app/dashboard/templates/page.tsx:263 | the result has no whitespace, is no longer than the input, and whitespace-free input is unchanged |
| TemplatesPage.CollapseAfterWord | frontend/src/app/dashboard/templates/page.tsx:263 | text without whitespace is copied through, whatever follows it |
| TemplatesPage.CollapseRun | frontend/src/app/dashboard/templates/page.tsx:263 | a run of whitespace before a non-whitespace character becomes a single hyphen |
| TemplatesPage.FindTemplate | frontend/src/app/dashboard/templates/page.tsx:263 | the first type with the id, or none exactly when no type has it |
| TemplatesPage.DownloadFilename | frontend/src/app/dashboard/templates/page.tsx:261-263 | with the ".txt" that `downloadTemplate` appends (line 97): among the page's cards, the name is the selected card's name, lower-cased with whitespace runs hyphenated, then ".txt"; an unknown type gives "template.txt"; the name never holds whitespace |
| TemplatesPage.KnownTemplateFilename | frontend/src/app/dashboard/templates/page.tsx:16-53 | for each of the six cards the download is named after that card, never the fallback |

## Left out

- File-system effects are data: the disk is a set of directories and a map from path to bytes. I/O errors while writing are not modelled.
- Tika's text extraction is an input (`Extraction`). The UUID is an input that must look like `UUID.toString()`.
- The HTTP call to the model endpoint (WebClient, the URL and API key), Jackson's `readTree`, and the regex fallback's matching are `Gateway` parameters. The regex semantics are not modelled; only what the code does with the matches is.
- JPA auditing timestamps are ticks of one clock. `LocalDateTime` is not modelled.
- SQL `LIKE` wildcards inside the search term (`%`, `_`) are not modelled: the term is matched as a plain substring.
- The model assumes a deployment without persist-time bean validation. The `@NotNull`/`@NotBlank` annotations and the NOT NULL columns are predicates (`AnalysisColumnsNonNull`, `DocumentConstraints`), not enforced by the store; the lemmas `GeminiAi.TemplatesNeverHaveDocument`, `GeminiAi.FailedAnalysesLackResult` and `DocumentProcessing.StagedDocumentConstraints` say which saves such validation would reject. It likewise assumes no column length limit: `prompt` and `errorMessage` (src/main/java/com/kimi/legaleraseai/entity/DocumentAnalysis.java:26-37), `processingError` (src/main/java/com/kimi/legaleraseai/entity/Document.java:47-48) and `clauseType` (src/main/java/com/kimi/legaleraseai/entity/ExtractedClause.java:18-19) are plain `@Column` strings without `@Lob`, which a generated schema makes VARCHAR(255). `GeminiAi.SummaryPrompt` and `GeminiAi.QuestionPrompt` embed the whole extracted text, so under such a schema nearly every summary or answer save would fail, and so would a save with a long error message; the model stores every string whole.
- AiApi.Template: always answers 200. With a bean-validation provider on the class path, both saves of `generateTemplate` throw (a template row has no document), and the controller's catch answers 400 "Error generating template: …"; that reply is not modelled.
- GeminiAi.GenerateTemplate: both paths save a row without a document and return it; under persist-time validation both saves would throw instead.
- DocumentProcessing.ProcessDocument: the first save always succeeds. Under persist-time validation it throws when the original file name is null or blank, after the bytes have already been written (`DocumentProcessing.StagedDocumentConstraints`).
- Sign-in (`AuthController.authenticateUser`), `JwtUtils`, the password encoder and `loadUserByUsername` are parameters or left out. They are not part of this model.
- The diagnostic endpoints `/test-db`, `/test-db-no-auth` and `/test-auth` are left out: they only report counts or the principal's name.
- Concurrency, the `setTimeout` auto-dismiss of toasts and the two-second redirect delay are left out. The model shows the timer's delay and what firing it does (`Toaster.NotifyThenRemove`).
- Logging (`logger.*`, `console.*`) is left out.
- Rendering, icons per status, `formatFileSize`, `formatDate` and `cn` are left out: they are display only.
- The other request wrappers in `lib/api.ts` (auth, single document, delete, the AI calls) are plain axios calls and are left out. So are the dashboard's delete handler and the upload page's drag state.
- ClientUtils.FileIcon: the Docx MIME type is covered by the general `Contains` contract only; there is no concrete lemma for it.
- Text.Lower: JavaScript `toLowerCase`, Java `toUpperCase` and the SQL `LOWER` of the document search (`Repository.SearchResults`) are modelled for ASCII (plus the few non-ASCII letters that could complete a level name). Full Unicode case mapping is left out (the database's `LOWER` also folds non-ASCII letters, so a search may match rows the model does not), and so is the default locale of `toUpperCase()`: under a Turkish locale "medium" upper-cases to "MEDİUM", `valueOf` throws and the clause is dropped, whereas the model accepts it.
- JavaScript counts string length in UTF-16 units; the model counts code points. This matters only for `truncateText` on text outside the Basic Multilingual Plane.
- axios header names are case-insensitive; the model compares them exactly. A header set to `undefined` is modelled as absent.
- URL encoding of the query string is left out: parameters are (name, value) pairs.
- ClientApi.IntText: prints every integer in plain decimal; JavaScript switches to exponent form from 1e21 on. Both texts are outside the `int` range, so the server rejects either.
- DocumentApi.List: takes `page` and `size` as already-bound Java ints. Query text that does not bind (`ClientApi.ParseIntText` gives none) is answered 400 by Spring before the controller runs; that reply is not modelled.
- The upload page has its own `getFileIcon` (upload/page.tsx:123-127), identical to the one in `lib/utils.ts`. Both are modelled by `ClientUtils.FileIcon`.

=== FILE: ai_controller.dfy ===
/**
 * AiController: the summary, clause, question and template endpoints and the
 * two listings, each behind the ownership check of `getDocumentForUser`.
 * The caller is the authenticated principal's user id.
 */
module AiApi {
  import opened Wrappers
  import opened Text
  import opened Seqs
  import opened Entities
  import opened Repository
  import opened GeminiAi
  import opened Web

  const UserNotFoundMessage: string := "User not found"

  /**
   * `getDocumentForUser`: an exception when the principal's user is gone,
   * otherwise the document with that id if, and only if, that user owns it.
   */
  function DocumentForUser(db: Db, principal: Id, documentId: Id): (r: Result<Option<Document>, Exception>)
    ensures r.Failure? <==> FindUser(db, principal).None?
    ensures r.Failure? ==> r.error == Exception(Some(UserNotFoundMessage))
    ensures r.Success? ==> r.value == FindByIdAndUser(db, documentId, principal)
    ensures r.Success? && r.value.Some? ==>
      r.value.value in db.documents && r.value.value.id == Some(documentId) && r.value.value.user == principal
  {
    if FindUser(db, principal).None? then Failure(Exception(Some(UserNotFoundMessage)))
    else Success(FindByIdAndUser(db, documentId, principal))
  }

  // ---------------------------------------------------------------- response DTOs

  datatype AnalysisResponse = AnalysisResponse(
    id: Option<Id>, analysisType: string, result: Option<string>, prompt: Option<string>,
    confidenceScore: Option<real>, status: string, errorMessage: Option<string>, createdAt: Option<Tick>)

  /** The `AnalysisResponse` constructor; `None` is the NullPointerException a null analysis type raises. */
  function AnalysisResponseOf(a: DocumentAnalysis): (r: Option<AnalysisResponse>)
    ensures r.None? <==> a.analysisType.None?
    ensures r.Some? ==> AnalysisTypeOf(r.value.analysisType) == a.analysisType
    ensures r.Some? ==> AnalysisStatusOf(r.value.status) == Some(a.status)
    ensures r.Some? ==> (r.value.id == a.id && r.value.result == a.result && r.value.prompt == a.prompt
      && r.value.errorMessage == a.errorMessage && r.value.createdAt == a.createdAt
      && r.value.confidenceScore == a.confidenceScore)
  {
    match a.analysisType
    case None => None
    case Some(t) =>
      Some(AnalysisResponse(a.id, AnalysisTypeName(t), a.result, a.prompt, a.confidenceScore,
                            AnalysisStatusName(a.status), a.errorMessage, a.createdAt))
  }

  /** Mapping a list through the constructor: it fails as soon as one row has no type. */
  function AnalysisResponses(xs: seq<DocumentAnalysis>): (r: Option<seq<AnalysisResponse>>)
    ensures r.Some? <==> forall i | 0 <= i < |xs| :: xs[i].analysisType.Some?
    ensures r.Some? ==> |r.value| == |xs| && forall i | 0 <= i < |xs| :: Some(r.value[i]) == AnalysisResponseOf(xs[i])
  {
    if |xs| == 0 then Some([])
    else
      assert forall i | 0 < i < |xs| :: xs[1..][i - 1] == xs[i];
      match (AnalysisResponseOf(xs[0]), AnalysisResponses(xs[1..]))
      case (Some(a), Some(rest)) => Some([a] + rest)
      case _ => None
  }

  datatype ClauseResponse = ClauseResponse(
    id: Option<Id>, clauseType: string, clauseText: string, plainEnglishExplanation: Option<string>,
    importanceLevel: string, confidenceScore: Option<real>, createdAt: Option<Tick>)

  /** The `ClauseResponse` constructor: the level travels as its name. */
  function ClauseResponseOf(c: ExtractedClause): (r: ClauseResponse)
    ensures ImportanceOf(r.importanceLevel) == Some(c.importanceLevel)
    ensures r.id == c.id && r.clauseType == c.clauseType && r.clauseText == c.clauseText
    ensures r.plainEnglishExplanation == c.plainEnglishExplanation
    ensures r.confidenceScore == c.confidenceScore && r.createdAt == c.createdAt
  {
    ClauseResponse(c.id, c.clauseType, c.clauseText, c.plainEnglishExplanation,
                   ImportanceName(c.importanceLevel), c.confidenceScore, c.createdAt)
  }

  function ClauseResponses(cs: seq<ExtractedClause>): (r: seq<ClauseResponse>)
    ensures |r| == |cs| && forall i | 0 <= i < |cs| :: r[i] == ClauseResponseOf(cs[i])
  {
    seq(|cs|, i requires 0 <= i < |cs| => ClauseResponseOf(cs[i]))
  }

  // ---------------------------------------------------------------- POST endpoints

  const SummarizeErrorPrefix: string := "Error summarizing document: "
  const ExtractErrorPrefix: string := "Error extracting clauses: "
  const QuestionErrorPrefix: string := "Error answering question: "

  /**
   * `POST /documents/{id}/summarize`: 400 when the principal's user is gone,
   * 404 (nothing saved) when the document is not the caller's, otherwise 200
   * with the one analysis the service recorded.
   */
  function Summarize(db: Db, gw: Gateway, principal: Id, documentId: Id): (r: Reply<AnalysisResponse>)
    ensures FindUser(db, principal).None? ==>
      r == Reply(BadRequest(SummarizeErrorPrefix + UserNotFoundMessage), db)
    ensures FindUser(db, principal).Some? && FindByIdAndUser(db, documentId, principal).None? ==>
      r == Reply(NotFound, db)
    ensures r.response.Ok? <==> FindUser(db, principal).Some? && FindByIdAndUser(db, documentId, principal).Some?
    ensures r.response.Ok? ==>
      var s := SummarizeDocument(db, gw, FindByIdAndUser(db, documentId, principal).value);
      r.db == s.db && Some(r.response.body) == AnalysisResponseOf(s.row)
      && r.response.body.id == Some(db.nextAnalysisId)
  {
    match DocumentForUser(db, principal, documentId)
    case Failure(e) => Reply(BadRequest(ErrorText(SummarizeErrorPrefix, e)), db)
    case Success(None) => Reply(NotFound, db)
    case Success(Some(d)) =>
      var s := SummarizeDocument(db, gw, d);
      Reply(Ok(AnalysisResponseOf(s.row).value), s.db)
  }

  /** `POST /documents/{id}/extract-clauses`: the saved clauses, each with its new id, in parse order. */
  function ExtractClausesEndpoint(db: Db, gw: Gateway, principal: Id, documentId: Id): (r: Reply<seq<ClauseResponse>>)
    ensures FindUser(db, principal).None? ==>
      r == Reply(BadRequest(ExtractErrorPrefix + UserNotFoundMessage), db)
    ensures FindUser(db, principal).Some? && FindByIdAndUser(db, documentId, principal).None? ==>
      r == Reply(NotFound, db)
    ensures r.response.Ok? <==> FindUser(db, principal).Some? && FindByIdAndUser(db, documentId, principal).Some?
    ensures r.response.Ok? ==>
      var s := ExtractClauses(db, gw, FindByIdAndUser(db, documentId, principal).value);
      r.db == s.db && r.response.body == ClauseResponses(s.rows)
  {
    match DocumentForUser(db, principal, documentId)
    case Failure(e) => Reply(BadRequest(ErrorText(ExtractErrorPrefix, e)), db)
    case Success(None) => Reply(NotFound, db)
    case Success(Some(d)) =>
      var s := ExtractClauses(db, gw, d);
      Reply(Ok(ClauseResponses(s.rows)), s.db)
  }

  /** `POST /documents/{id}/question`; the request's question may be null. */
  function Ask(db: Db, gw: Gateway, principal: Id, documentId: Id, question: Option<string>): (r: Reply<AnalysisResponse>)
    ensures FindUser(db, principal).None? ==>
      r == Reply(BadRequest(QuestionErrorPrefix + UserNotFoundMessage), db)
    ensures FindUser(db, principal).Some? && FindByIdAndUser(db, documentId, principal).None? ==>
      r == Reply(NotFound, db)
    ensures r.response.Ok? <==> FindUser(db, principal).Some? && FindByIdAndUser(db, documentId, principal).Some?
    ensures r.response.Ok? ==>
      var s := AnswerQuestion(db, gw, FindByIdAndUser(db, documentId, principal).value, question);
      r.db == s.db && Some(r.response.body) == AnalysisResponseOf(s.row)
      && r.response.body.prompt == question
  {
    match DocumentForUser(db, principal, documentId)
    case Failure(e) => Reply(BadRequest(ErrorText(QuestionErrorPrefix, e)), db)
    case Success(None) => Reply(NotFound, db)
    case Success(Some(d)) =>
      var s := AnswerQuestion(db, gw, d, question);
      Reply(Ok(AnalysisResponseOf(s.row).value), s.db)
  }

  /** `POST /templates/generate`: no lookup at all, so always 200 with the recorded template. */
  function Template(db: Db, gw: Gateway, templateType: Option<string>, requirements: Option<string>): (r: Reply<AnalysisResponse>)
    ensures r.response.Ok?
    ensures var s := GenerateTemplate(db, gw, templateType, requirements);
      r.db == s.db && Some(r.response.body) == AnalysisResponseOf(s.row)
    ensures r.response.body.analysisType == "TEMPLATE_GENERATION"
    ensures r.response.body.status == "COMPLETED" || r.response.body.status == "FAILED"
  {
    var s := GenerateTemplate(db, gw, templateType, requirements);
    Reply(Ok(AnalysisResponseOf(s.row).value), s.db)
  }

  // ---------------------------------------------------------------- GET endpoints

  /**
   * `GET /documents/{id}/analyses`: outside the try block, so a missing user
   * (or a stored analysis without a type) is a 500; 404 when the document is
   * not the caller's; otherwise the document's analyses, newest first.
   */
  function Analyses(db: Db, principal: Id, documentId: Id): (r: Http<seq<AnalysisResponse>>)
    ensures FindUser(db, principal).None? ==> r == ServerError(Exception(Some(UserNotFoundMessage)))
    ensures FindUser(db, principal).Some? && FindByIdAndUser(db, documentId, principal).None? ==> r == NotFound
    ensures r.Ok? <==> (FindUser(db, principal).Some? && FindByIdAndUser(db, documentId, principal).Some?
                        && AnalysisResponses(AnalysesOf(db, documentId)).Some?)
    ensures r.Ok? ==> Some(r.body) == AnalysisResponses(AnalysesOf(db, documentId))
  {
    match DocumentForUser(db, principal, documentId)
    case Failure(e) => ServerError(e)
    case Success(None) => NotFound
    case Success(Some(d)) =>
      match AnalysisResponses(AnalysesOf(db, documentId))
      case None => ServerError(Exception(None))
      case Some(body) => Ok(body)
  }

  /** `GET /documents/{id}/clauses`: the document's clauses in stored-name order. */
  function Clauses(db: Db, principal: Id, documentId: Id): (r: Http<seq<ClauseResponse>>)
    ensures FindUser(db, principal).None? ==> r == ServerError(Exception(Some(UserNotFoundMessage)))
    ensures FindUser(db, principal).Some? && FindByIdAndUser(db, documentId, principal).None? ==> r == NotFound
    ensures r.Ok? <==> FindUser(db, principal).Some? && FindByIdAndUser(db, documentId, principal).Some?
    ensures r.Ok? ==> r.body == ClauseResponses(ClauseListing(db, documentId))
  {
    match DocumentForUser(db, principal, documentId)
    case Failure(e) => ServerError(e)
    case Success(None) => NotFound
    case Success(Some(d)) => Ok(ClauseResponses(ClauseListing(db, documentId)))
  }

  // ---------------------------------------------------------------- properties across endpoints

  /** Nobody can act on another user's document: the endpoints answer 404 and save nothing. */
  lemma OtherUsersDocumentsAreHidden(db: Db, gw: Gateway, principal: Id, d: Document, question: Option<string>)
    requires Valid(db) && d in db.documents && d.id.Some? && d.user != principal
    requires FindUser(db, principal).Some?
    ensures Summarize(db, gw, principal, d.id.value) == Reply(NotFound, db)
    ensures ExtractClausesEndpoint(db, gw, principal, d.id.value) == Reply(NotFound, db)
    ensures Ask(db, gw, principal, d.id.value, question) == Reply(NotFound, db)
    ensures Analyses(db, principal, d.id.value) == NotFound
    ensures Clauses(db, principal, d.id.value) == NotFound
  {
    FindByIdAndUserUnique(db, d.id.value, principal, d);
  }

  /** An analysis appended for a document becomes the head of that document's listing. */
  lemma NewestAnalysisFirst(db: Db, s: Saved<DocumentAnalysis>, doc: Id)
    requires s.db.analyses == db.analyses + [s.row] && s.row.document == Some(doc)
    ensures AnalysesOf(s.db, doc) == [s.row] + AnalysesOf(db, doc)
  {
    var mine := Filter(db.analyses, ForDocument(doc));
    FilterAppend(db.analyses, [s.row], ForDocument(doc));
    FilterCons([s.row], ForDocument(doc));
    assert Filter(s.db.analyses, ForDocument(doc)) == mine + [s.row];
    ReverseSnoc(mine, s.row);
  }

  /** The listing after such an append: the new row's response first, then the old listing. */
  lemma ResponsesAfterAppend(db: Db, s: Saved<DocumentAnalysis>, doc: Id)
    requires s.db.analyses == db.analyses + [s.row] && s.row.document == Some(doc) && s.row.analysisType.Some?
    requires forall a | a in db.analyses :: a.analysisType.Some?
    ensures AnalysisResponses(AnalysesOf(s.db, doc)).Some?
    ensures AnalysisResponses(AnalysesOf(s.db, doc)).value[0] == AnalysisResponseOf(s.row).value
  {
    NewestAnalysisFirst(db, s, doc);
    var xs := AnalysesOf(s.db, doc);
    assert forall i | 0 <= i < |xs| :: xs[i] in xs;
  }

  /** A summary just produced heads the document's analysis listing. */
  lemma SummaryHeadsListing(db: Db, gw: Gateway, principal: Id, documentId: Id)
    requires Summarize(db, gw, principal, documentId).response.Ok?
    requires forall a | a in db.analyses :: a.analysisType.Some?
    ensures var r := Summarize(db, gw, principal, documentId);
      var listing := Analyses(r.db, principal, documentId);
      listing.Ok? && |listing.body| > 0 && listing.body[0] == r.response.body
  {
    var d := FindByIdAndUser(db, documentId, principal).value;
    var s := SummarizeDocument(db, gw, d);
    ResponsesAfterAppend(db, s, documentId);
    assert FindUser(s.db, principal) == FindUser(db, principal);
    assert FindByIdAndUser(s.db, documentId, principal) == FindByIdAndUser(db, documentId, principal);
  }

  /**
   * On the wire the clause listing is ordered by the level's name, descending:
   * a later clause never carries a name that sorts after an earlier one's.
   */
  lemma ClauseNamesDescend(db: Db, principal: Id, documentId: Id)
    requires Valid(db)
    requires Clauses(db, principal, documentId).Ok?
    ensures var body := Clauses(db, principal, documentId).body;
      forall i, j | 0 <= i < j < |body| :: !LexLess(body[i].importanceLevel, body[j].importanceLevel)
  {
    var body := Clauses(db, principal, documentId).body;
    var cs := ClauseListing(db, documentId);
    forall i, j | 0 <= i < j < |body|
      ensures !LexLess(body[i].importanceLevel, body[j].importanceLevel)
    {
      assert ClauseBefore(cs[i], cs[j]);
      var a := cs[i].importanceLevel;
      var b := cs[j].importanceLevel;
      NameRankOrdersNames(a, b);
      NameRankOrdersNames(b, a);
      if a == b {
        LexLessIrreflexive(ImportanceName(a));
      }
    }
  }
}

=== FILE: auth_controller.dfy ===
/**
 * AuthController: registration and the current-user profile. Sign-in and
 * token issuing belong to the JWT utilities, which are not part of this model.
 */
module Auth {
  import opened Wrappers
  import opened Seqs
  import opened Entities
  import opened Repository
  import opened Web

  const UsernameTakenMessage: string := "Error: Username is already taken!"
  const EmailTakenMessage: string := "Error: Email is already in use!"
  const RegisteredMessage: string := "User registered successfully!"
  const NotAuthenticatedMessage: string := "User not authenticated"
  const UserNotFoundMessage: string := "User not found"

  datatype SignupRequest = SignupRequest(username: string, email: string, password: string,
                                         firstName: Option<string>, lastName: Option<string>)

  /** The account `/signup` builds: the encoded password, the request's names, role USER. */
  function NewAccount(req: SignupRequest, encode: string -> string): (u: User)
    ensures u.username == req.username && u.email == req.email && u.password == encode(req.password)
    ensures u.firstName == req.firstName && u.lastName == req.lastName && u.role == USER
    ensures u.id.None? && u.createdAt.None?
  {
    User(None, req.username, req.email, encode(req.password), req.firstName, req.lastName, USER, None)
  }

  /**
   * `POST /api/auth/signup`: a taken username is reported before a taken
   * email; otherwise exactly one user is stored.
   */
  function Signup(db: Db, req: SignupRequest, encode: string -> string): (r: Reply<string>)
    ensures ExistsByUsername(db, req.username) ==> r == Reply(BadRequest(UsernameTakenMessage), db)
    ensures !ExistsByUsername(db, req.username) && ExistsByEmail(db, req.email) ==>
      r == Reply(BadRequest(EmailTakenMessage), db)
    ensures r.response.Ok? <==> !ExistsByUsername(db, req.username) && !ExistsByEmail(db, req.email)
    ensures r.response.Ok? ==>
      r.response.body == RegisteredMessage && r.db == InsertUser(db, NewAccount(req, encode)).db
  {
    if ExistsByUsername(db, req.username) then Reply(BadRequest(UsernameTakenMessage), db)
    else if ExistsByEmail(db, req.email) then Reply(BadRequest(EmailTakenMessage), db)
    else Reply(Ok(RegisteredMessage), InsertUser(db, NewAccount(req, encode)).db)
  }

  datatype UserProfile = UserProfile(id: Option<Id>, username: string, email: string,
                                     firstName: Option<string>, lastName: Option<string>,
                                     role: string, createdAt: Option<Tick>)

  /**
   * `GET /api/auth/me`: 400 without an authenticated principal, 500 when the
   * principal's user is gone, otherwise that user's profile (never the password).
   */
  function Me(db: Db, principal: Option<Id>): (r: Http<UserProfile>)
    ensures principal.None? ==> r == BadRequest(NotAuthenticatedMessage)
    ensures principal.Some? && FindUser(db, principal.value).None? ==> r == ServerError(Exception(Some(UserNotFoundMessage)))
    ensures r.Ok? <==> principal.Some? && FindUser(db, principal.value).Some?
    ensures r.Ok? ==>
      var u := FindUser(db, principal.value).value;
      r.body == UserProfile(u.id, u.username, u.email, u.firstName, u.lastName, RoleName(u.role), u.createdAt)
  {
    if principal.None? then BadRequest(NotAuthenticatedMessage)
    else match FindUser(db, principal.value)
      case None => ServerError(Exception(Some(UserNotFoundMessage)))
      case Some(u) => Ok(UserProfile(u.id, u.username, u.email, u.firstName, u.lastName, RoleName(u.role), u.createdAt))
  }

  /** Registering twice is refused: the username is reported, or the email when only that repeats. */
  lemma SignupTwiceRejected(db: Db, req: SignupRequest, again: SignupRequest, encode: string -> string)
    requires Signup(db, req, encode).response.Ok?
    requires again.username == req.username || again.email == req.email
    ensures var db' := Signup(db, req, encode).db;
      Signup(db', again, encode).response.BadRequest? && Signup(db', again, encode).db == db'
    ensures again.username == req.username ==>
      Signup(Signup(db, req, encode).db, again, encode).response == BadRequest(UsernameTakenMessage)
  {
    var s := InsertUser(db, NewAccount(req, encode));
    assert s.row in s.db.users;
  }

  /** The account just registered is the one `/me` reports for its new id, with role USER. */
  lemma SignupThenMe(db: Db, req: SignupRequest, encode: string -> string)
    requires Valid(db)
    requires Signup(db, req, encode).response.Ok?
    ensures var me := Me(Signup(db, req, encode).db, Some(db.nextUserId));
      me.Ok? && me.body.username == req.username && me.body.email == req.email
      && me.body.role == "USER" && me.body.id == Some(db.nextUserId)
  {
    var s := InsertUser(db, NewAccount(req, encode));
    assert s.row in s.db.users;
    var found := FindUser(s.db, db.nextUserId).value;
    StampedKeyUnique(s.db.users, UserKey, UserCreated, s.db.nextUserId, s.db.clock, found, s.row);
  }
}

=== FILE: client_api.dfy ===
/**
 * The client's HTTP layer (`lib/api.ts`): the request interceptor's header rules,
 * the response interceptor's reaction to authentication failures, the query of
 * `getDocuments`, and the token guard of `uploadDocument`.
 */
module ClientApi {
  import opened Wrappers
  import opened Text
  import TokenFilter

  const AuthorizationHeader: string := "Authorization"
  const ContentTypeHeader: string := "Content-Type"
  const JsonContentType: string := "application/json"
  const LoginPage: string := "/auth/login"
  const AuthRequiredMessage: string := "Authentication required"
  const UploadUrl: string := "/api/documents/upload"

  /** A request body: none, a `FormData`, or anything else (which may still be falsy, like `""`). */
  datatype Payload = NoPayload | FormPayload | OtherPayload(truthy: bool)

  predicate HasData(p: Payload) {
    p.FormPayload? || (p.OtherPayload? && p.truthy)
  }

  /** The part of an axios request config the interceptor reads and writes. */
  datatype RequestConfig = RequestConfig(verb: string, url: string, headers: map<string, string>, data: Payload)

  /** A header in a condition: absent and `""` are falsy. */
  predicate HeaderSet(headers: map<string, string>, name: string) {
    name in headers && |headers[name]| > 0
  }

  /** `Bearer ${token}`. */
  function BearerValue(token: string): (r: string)
    ensures StartsWith(r, TokenFilter.BearerPrefix) && r[|TokenFilter.BearerPrefix|..] == token
  {
    var r := TokenFilter.BearerPrefix + token;
    assert r[..|TokenFilter.BearerPrefix|] == TokenFilter.BearerPrefix;
    r
  }

  /**
   * The request interceptor: a truthy token cookie sets Authorization; a truthy
   * body that is not a `FormData` gets a JSON Content-Type unless one is set; a
   * `FormData` body loses its Content-Type so the browser can add the boundary.
   */
  function Intercept(config: RequestConfig, token: Option<string>): (r: RequestConfig)
    ensures r.verb == config.verb && r.url == config.url && r.data == config.data
    ensures JsTruthy(token) ==> AuthorizationHeader in r.headers && r.headers[AuthorizationHeader] == BearerValue(token.value)
    ensures !JsTruthy(token) ==> (
      (AuthorizationHeader in r.headers <==> AuthorizationHeader in config.headers)
      && (AuthorizationHeader in r.headers ==> r.headers[AuthorizationHeader] == config.headers[AuthorizationHeader]))
    ensures config.data.FormPayload? ==> ContentTypeHeader !in r.headers
    ensures config.data.OtherPayload? && config.data.truthy && !HeaderSet(config.headers, ContentTypeHeader) ==>
      ContentTypeHeader in r.headers && r.headers[ContentTypeHeader] == JsonContentType
    ensures !config.data.FormPayload? && !(HasData(config.data) && !HeaderSet(config.headers, ContentTypeHeader)) ==> (
      (ContentTypeHeader in r.headers <==> ContentTypeHeader in config.headers)
      && (ContentTypeHeader in r.headers ==> r.headers[ContentTypeHeader] == config.headers[ContentTypeHeader]))
    ensures forall h | h != AuthorizationHeader && h != ContentTypeHeader ::
      (h in r.headers <==> h in config.headers) && (h in r.headers ==> r.headers[h] == config.headers[h])
  {
    var withAuth := if JsTruthy(token) then config.headers[AuthorizationHeader := BearerValue(token.value)] else config.headers;
    var withType :=
      if !HeaderSet(withAuth, ContentTypeHeader) && HasData(config.data) && !config.data.FormPayload?
      then withAuth[ContentTypeHeader := JsonContentType] else withAuth;
    var headers := if config.data.FormPayload? then withType - {ContentTypeHeader} else withType;
    config.(headers := headers)
  }

  /** Running the interceptor a second time (a retried config) changes nothing more. */
  lemma InterceptIdempotent(config: RequestConfig, token: Option<string>)
    ensures Intercept(Intercept(config, token), token) == Intercept(config, token)
  {
    var once := Intercept(config, token);
    var twice := Intercept(once, token);
    assert twice.headers.Keys == once.headers.Keys;
    assert forall h | h in once.headers :: twice.headers[h] == once.headers[h];
  }

  /** The server's token filter reads back exactly the token the interceptor sent. */
  lemma ServerReadsClientToken(config: RequestConfig, token: Option<string>)
    requires JsTruthy(token)
    ensures TokenFilter.ParseJwt(Some(Intercept(config, token).headers[AuthorizationHeader])) == Some(token.value)
  {
    var v := BearerValue(token.value);
    assert v == TokenFilter.BearerPrefix + v[|TokenFilter.BearerPrefix|..];
  }

  // ---------------------------------------------------------------- response errors

  /** The part of an axios error the response interceptor reads: `response.status` and `response.data.message`. */
  datatype ApiError = ApiError(status: Option<int>, message: Option<string>)

  /** The browser state the interceptor may change: the token cookie and the page location. */
  datatype Session = Session(token: Option<string>, location: string)

  /** The outcome of the error interceptor: the session afterwards and the error the promise rejects with. */
  datatype Rejection = Rejection(session: Session, error: ApiError)

  /** A 401 whose message mentions "JWT": an expired or invalid token. */
  predicate IsJwtFailure(e: ApiError) {
    e.status == Some(401) && e.message.Some? && Contains(e.message.value, "JWT")
  }

  /**
   * The response error interceptor: a JWT failure drops the cookie and sends the
   * browser to the login page; every other error leaves the session alone. The
   * original error is always passed on.
   */
  function OnResponseError(e: ApiError, session: Session): (r: Rejection)
    ensures r.error == e
    ensures IsJwtFailure(e) ==> r.session == Session(None, LoginPage)
    ensures !IsJwtFailure(e) ==> r.session == session
  {
    if e.status == Some(401) then
      if e.message.Some? && Contains(e.message.value, "JWT") then Rejection(Session(None, LoginPage), e)
      else Rejection(session, e)
    else Rejection(session, e)
  }

  /** Logging out is settled by the first failure: handling a second error changes nothing more. */
  lemma SecondJwtFailureChangesNothing(e1: ApiError, e2: ApiError, session: Session)
    requires IsJwtFailure(e1)
    ensures var s := OnResponseError(e1, session).session;
      OnResponseError(e2, s).session == s && s.token.None?
  {
  }

  // ---------------------------------------------------------------- listing query

  /** JavaScript `n.toString()` for an integer. */
  function IntText(n: int): (r: string)
    ensures n >= 0 ==> r == NatToString(n)
    ensures n < 0 ==> r == "-" + NatToString(-n)
  {
    if n >= 0 then NatToString(n) else "-" + NatToString(-n)
  }

  /** The range of a Java `int`, the type the server binds `page` and `size` to. */
  const IntMin: int := -0x8000_0000
  const IntMax: int := 0x7FFF_FFFF

  predicate IsJavaInt(n: int) {
    IntMin <= n <= IntMax
  }

  /**
   * Reads an optionally negative decimal integer as the server binds a query
   * parameter to `int`: text that is not a number, or a number outside the
   * `int` range, does not bind.
   */
  function ParseIntText(s: string): (r: Option<int>)
    ensures r.Some? ==> IsJavaInt(r.value)
    ensures |s| > 0 && s[0] == '-' ==> r == (match ParseNat(s[1..])
      case Some(n) => if IsJavaInt(-(n as int)) then Some(-(n as int)) else None
      case None => None)
    ensures !(|s| > 0 && s[0] == '-') ==> r == (match ParseNat(s)
      case Some(n) => if IsJavaInt(n as int) then Some(n as int) else None
      case None => None)
  {
    var v :=
      if |s| > 0 && s[0] == '-' then
        match ParseNat(s[1..])
        case Some(n) => Some(-(n as int))
        case None => None
      else
        match ParseNat(s)
        case Some(n) => Some(n as int)
        case None => None;
    if v.Some? && IsJavaInt(v.value) then v else None
  }

  /** The server reads back the client's text of an integer exactly when it fits an `int`. */
  lemma ParseIntTextRoundTrip(n: int)
    ensures ParseIntText(IntText(n)) == if IsJavaInt(n) then Some(n) else None
  {
    if n >= 0 {
      ParseNatToString(n);
      assert IsDigit(NatToString(n)[0]);
    } else {
      ParseNatToString(-n);
      assert IntText(n)[1..] == NatToString(-n);
    }
  }

  const DefaultPage: int := 0
  const DefaultSize: int := 10

  /**
   * `getDocuments(page = 0, size = 10, search?)`: the query parameters in order;
   * page and size are always sent, search only when it is a non-empty string.
   */
  function DocumentsQuery(page: Option<int>, size: Option<int>, search: Option<string>): (r: seq<(string, string)>)
    ensures |r| == if JsTruthy(search) then 3 else 2
    ensures r[0] == ("page", IntText(page.GetOr(DefaultPage)))
    ensures r[1] == ("size", IntText(size.GetOr(DefaultSize)))
    ensures JsTruthy(search) ==> r[2] == ("search", search.value)
  {
    var params := [("page", IntText(page.GetOr(DefaultPage))), ("size", IntText(size.GetOr(DefaultSize)))];
    if JsTruthy(search) then params + [("search", search.value)] else params
  }

  /**
   * The value the server's `@RequestParam` reads for `name`: the first pair that
   * carries it. The queries built here never repeat a name, so reading the first
   * is reading the only one.
   */
  function QueryValue(params: seq<(string, string)>, name: string): (r: Option<string>)
    ensures r.Some? ==> exists k | 0 <= k < |params| ::
      params[k] == (name, r.value) && forall j | 0 <= j < k :: params[j].0 != name
    ensures r.None? ==> forall k | 0 <= k < |params| :: params[k].0 != name
  {
    if |params| == 0 then None
    else if params[0].0 == name then Some(params[0].1)
    else
      var rest := QueryValue(params[1..], name);
      if rest.Some? then
        var k :| 0 <= k < |params[1..]| && params[1..][k] == (name, rest.value)
          && forall j | 0 <= j < k :: params[1..][j].0 != name;
        assert params[k + 1] == (name, rest.value);
        assert forall j | 0 <= j < k + 1 :: params[j].0 != name by {
          forall j | 0 <= j < k + 1 ensures params[j].0 != name {
            if j > 0 { assert params[j] == params[1..][j - 1]; }
          }
        }
        rest
      else rest
  }

  /**
   * The server reads back what the client meant: the page and size it sent (the
   * defaults when none were given) whenever they fit an `int`, and the search term
   * exactly when it was non-empty.
   */
  lemma DocumentsQueryRoundTrip(page: Option<int>, size: Option<int>, search: Option<string>)
    ensures var q := DocumentsQuery(page, size, search);
      && QueryValue(q, "page").Some?
      && ParseIntText(QueryValue(q, "page").value) == (if IsJavaInt(page.GetOr(DefaultPage)) then Some(page.GetOr(DefaultPage)) else None)
      && QueryValue(q, "size").Some?
      && ParseIntText(QueryValue(q, "size").value) == (if IsJavaInt(size.GetOr(DefaultSize)) then Some(size.GetOr(DefaultSize)) else None)
      && QueryValue(q, "search") == (if JsTruthy(search) then search else None)
  {
    var q := DocumentsQuery(page, size, search);
    assert QueryValue(q, "page") == Some(q[0].1);
    assert q[1..][0] == q[1];
    assert QueryValue(q, "size") == Some(q[1].1);
    ParseIntTextRoundTrip(page.GetOr(DefaultPage));
    ParseIntTextRoundTrip(size.GetOr(DefaultSize));
    if JsTruthy(search) {
      assert q[1..][1..][0] == q[2];
      assert QueryValue(q, "search") == Some(q[2].1);
    }
  }

  // ---------------------------------------------------------------- upload

  /**
   * `uploadDocument`: without a truthy token cookie it throws before any request;
   * otherwise it posts the file as `FormData` with its own Authorization header.
   */
  function UploadRequest(token: Option<string>): (r: Result<RequestConfig, string>)
    ensures !JsTruthy(token) <==> r == Failure(AuthRequiredMessage)
    ensures r.Success? ==> (
      r.value.verb == "POST" && r.value.url == UploadUrl && r.value.data.FormPayload?
      && r.value.headers == map[AuthorizationHeader := BearerValue(token.value)])
  {
    if !JsTruthy(token) then Failure(AuthRequiredMessage)
    else Success(RequestConfig("POST", UploadUrl, map[AuthorizationHeader := BearerValue(token.value)], FormPayload))
  }

  /** An upload that is sent carries the token and leaves Content-Type to the browser. */
  lemma UploadCarriesTokenNoContentType(token: Option<string>)
    requires JsTruthy(token)
    ensures var sent := Intercept(UploadRequest(token).value, token);
      ContentTypeHeader !in sent.headers
      && TokenFilter.ParseJwt(Some(sent.headers[AuthorizationHeader])) == Some(token.value)
  {
    ServerReadsClientToken(UploadRequest(token).value, token);
  }
}

=== FILE: client_utils.dfy ===
/**
 * The client's display helpers (`lib/utils.ts`): text truncation, the file icon
 * chosen from a MIME type, and the badge colour of a clause importance level.
 */
module ClientUtils {
  import opened Text
  import Entities
  import DocumentProcessing

  const Ellipsis: string := "..."

  /** JavaScript `substring(0, n)` clamps a negative end to 0. */
  function ClampedEnd(n: int): nat {
    if n < 0 then 0 else n
  }

  /**
   * `truncateText`: a text that fits is returned as is; a longer one is cut to
   * its first `maxLength` characters (none when `maxLength` is negative) and
   * followed by an ellipsis.
   */
  function TruncateText(text: string, maxLength: int): (r: string)
    ensures |text| <= maxLength ==> r == text
    ensures |text| > maxLength ==> (
      |r| == ClampedEnd(maxLength) + |Ellipsis| && EndsWith(r, Ellipsis)
      && StartsWith(text, r[..ClampedEnd(maxLength)]))
  {
    if |text| <= maxLength then text
    else
      var kept := text[..ClampedEnd(maxLength)];
      assert (kept + Ellipsis)[..|kept|] == kept;
      assert (kept + Ellipsis)[|kept|..] == Ellipsis;
      kept + Ellipsis
  }

  /**
   * Truncating twice with the same limit is truncating once: the ellipsis makes
   * the first result too long again, and its first `maxLength` characters are
   * the ones already kept.
   */
  lemma TruncateTextIdempotent(text: string, maxLength: int)
    ensures TruncateText(TruncateText(text, maxLength), maxLength) == TruncateText(text, maxLength)
  {
    var once := TruncateText(text, maxLength);
    if |text| > maxLength {
      var n := ClampedEnd(maxLength);
      assert once[..n] == text[..n];
      var twice := TruncateText(once, maxLength);
      assert twice == once[..n] + Ellipsis;
      assert once == text[..n] + Ellipsis;
    }
  }

  // ---------------------------------------------------------------- icons

  const DocumentIcon: string := "\U{1F4C4}"
  const MemoIcon: string := "\U{1F4DD}"

  /** `getFileIcon`: a page for PDFs and unknown types, a memo for Word documents; "pdf" is tested first. */
  function FileIcon(contentType: string): (r: string)
    ensures r == MemoIcon <==> !Contains(contentType, "pdf") && (Contains(contentType, "word") || Contains(contentType, "document"))
    ensures r == DocumentIcon <==> r != MemoIcon
  {
    if Contains(contentType, "pdf") then DocumentIcon
    else if Contains(contentType, "word") || Contains(contentType, "document") then MemoIcon
    else DocumentIcon
  }

  /** The MIME types of PDF and legacy Word files get the icons their names suggest. */
  lemma PdfIcon()
    ensures FileIcon(DocumentProcessing.Pdf) == DocumentIcon
  {
    assert DocumentProcessing.Pdf == "application/" + "pdf";
    ContainsSuffix("application/", "pdf");
  }

  lemma MsWordIcon()
    ensures FileIcon(DocumentProcessing.MsWord) == MemoIcon
  {
    assert DocumentProcessing.MsWord == "application/ms" + "word";
    ContainsSuffix("application/ms", "word");
    NoPdfIn(DocumentProcessing.MsWord);
  }

  lemma {:induction false} ContainsSuffix(a: string, b: string)
    ensures Contains(a + b, b)
    decreases |a|
  {
    if |a| > 0 {
      assert (a + b)[1..] == a[1..] + b;
      ContainsSuffix(a[1..], b);
    } else {
      assert a + b == b;
    }
  }

  /** A string without the letter 'f' does not contain "pdf". */
  lemma NoPdfIn(s: string)
    requires 'f' !in s
    ensures !Contains(s, "pdf")
  {
    ContainsIffOccurs(s, "pdf");
    if exists i :: OccursAt(s, "pdf", i) {
      var i :| OccursAt(s, "pdf", i);
      SliceChar(s, i);
    }
  }

  lemma SliceChar(s: string, i: int)
    requires 0 <= i && i + 3 <= |s|
    ensures s[i..i + 3][2] == s[i + 2]
  {
  }

  // ---------------------------------------------------------------- importance colours

  const CriticalColor: string := "bg-red-100 text-red-800 border-red-200"
  const HighColor: string := "bg-orange-100 text-orange-800 border-orange-200"
  const MediumColor: string := "bg-yellow-100 text-yellow-800 border-yellow-200"
  const LowColor: string := "bg-green-100 text-green-800 border-green-200"
  const UnknownColor: string := "bg-gray-100 text-gray-800 border-gray-200"

  /** `getImportanceColor`: compares the lower-cased level with the four level words; anything else is grey. */
  function ImportanceColor(level: string): (r: string)
    ensures r == CriticalColor <==> Lower(level) == "critical"
    ensures r == HighColor <==> Lower(level) == "high"
    ensures r == MediumColor <==> Lower(level) == "medium"
    ensures r == LowColor <==> Lower(level) == "low"
    ensures r == UnknownColor <==> Lower(level) !in {"critical", "high", "medium", "low"}
  {
    var key := Lower(level);
    if key == "critical" then CriticalColor
    else if key == "high" then HighColor
    else if key == "medium" then MediumColor
    else if key == "low" then LowColor
    else UnknownColor
  }

  /** Levels that differ only in letter case get the same colour. */
  lemma ImportanceColorIgnoresCase(a: string, b: string)
    requires Lower(a) == Lower(b)
    ensures ImportanceColor(a) == ImportanceColor(b)
  {
  }

  /** The colour a level's stored name (as the API sends it) is shown in. */
  function LevelColor(l: Entities.ImportanceLevel): string {
    match l
    case CRITICAL => CriticalColor
    case HIGH => HighColor
    case MEDIUM => MediumColor
    case LOW => LowColor
  }

  /**
   * The upper-case names the server sends are recognised: every level gets its own
   * colour and none falls through to grey.
   */
  lemma ServerLevelsHaveColours(l: Entities.ImportanceLevel)
    ensures ImportanceColor(Entities.ImportanceName(l)) == LevelColor(l)
    ensures LevelColor(l) != UnknownColor
  {
    var n := Entities.ImportanceName(l);
    match l
    case CRITICAL => assert Lower(n) == "critical";
    case HIGH => assert Lower(n) == "high";
    case MEDIUM => assert Lower(n) == "medium";
    case LOW => assert Lower(n) == "low";
  }
}

=== FILE: dashboard_page.dfy ===
/**
 * The document dashboard (`app/dashboard/page.tsx`): the listing query it sends,
 * the status captions, the View link, the pagination controls and the search box.
 */
module DashboardPage {
  import opened Wrappers
  import opened Text
  import Entities
  import Repository
  import DocumentApi
  import ClientApi

  /** Ten documents per page. */
  const PageSize: int := 10

  /** The page's state: the search box's text and the current page index. */
  datatype DashboardState = DashboardState(searchTerm: string, page: int)

  const InitialState: DashboardState := DashboardState("", 0)

  /** The request behind the document list: `getDocuments(page, 10, searchTerm)`. */
  function ListingQuery(s: DashboardState): (r: seq<(string, string)>)
    ensures |r| == if |s.searchTerm| > 0 then 3 else 2
    ensures r[0] == ("page", ClientApi.IntText(s.page)) && r[1] == ("size", ClientApi.IntText(PageSize))
    ensures |s.searchTerm| > 0 ==> r[2] == ("search", s.searchTerm)
  {
    ClientApi.DocumentsQuery(Some(s.page), Some(PageSize), Some(s.searchTerm))
  }

  /**
   * The server reads the dashboard's page whenever it fits an `int`, a size of ten,
   * and the search term only when the box is not empty.
   */
  lemma ServerSeesDashboardQuery(s: DashboardState)
    ensures var q := ListingQuery(s);
      ClientApi.QueryValue(q, "page").Some?
      && ClientApi.ParseIntText(ClientApi.QueryValue(q, "page").value) == (if ClientApi.IsJavaInt(s.page) then Some(s.page) else None)
      && ClientApi.QueryValue(q, "size").Some? && ClientApi.ParseIntText(ClientApi.QueryValue(q, "size").value) == Some(PageSize)
      && ClientApi.QueryValue(q, "search") == (if |s.searchTerm| > 0 then Some(s.searchTerm) else None)
  {
    ClientApi.DocumentsQueryRoundTrip(Some(s.page), Some(PageSize), Some(s.searchTerm));
  }

  // ---------------------------------------------------------------- status

  /** `getStatusText`: the caption for a status name; a name it does not know is "Unknown". */
  function StatusText(status: string): (r: string)
    ensures status == "PENDING" <==> r == "Pending"
    ensures status == "PROCESSING" <==> r == "Processing"
    ensures status == "COMPLETED" <==> r == "Ready"
    ensures status == "FAILED" <==> r == "Failed"
    ensures r == "Unknown" <==> Entities.ProcessingStatusOf(status).None?
  {
    if status == "PENDING" then "Pending"
    else if status == "PROCESSING" then "Processing"
    else if status == "COMPLETED" then "Ready"
    else if status == "FAILED" then "Failed"
    else "Unknown"
  }

  /** Every status the server can send has its own caption. */
  lemma StatusTextOfServerStatus(a: Entities.ProcessingStatus, b: Entities.ProcessingStatus)
    ensures StatusText(Entities.ProcessingStatusName(a)) != "Unknown"
    ensures a != b ==> StatusText(Entities.ProcessingStatusName(a)) != StatusText(Entities.ProcessingStatusName(b))
  {
  }

  /** The View link is rendered only for a document whose processing completed. */
  predicate OffersView(d: DocumentApi.DocumentResponse) {
    d.processingStatus == "COMPLETED"
  }

  /** A listed document can be opened exactly when its caption reads "Ready". */
  lemma ViewIffReady(d: DocumentApi.DocumentResponse)
    ensures OffersView(d) <==> StatusText(d.processingStatus) == "Ready"
  {
  }

  /** A document whose extraction failed is listed without a View link. */
  lemma FailedDocumentHasNoView(d: Entities.Document)
    requires d.processingStatus == Entities.ProcessingStatus.FAILED
    ensures !OffersView(DocumentApi.DocumentResponseOf(d))
  {
  }

  // ---------------------------------------------------------------- pagination

  /**
   * What the document list renders, branch by branch: the spinner while loading,
   * the error panel, the "No documents" panel for an empty page, and otherwise the
   * rows with the pagination bar when there is more than one page.
   */
  datatype ListPanel = Spinner | LoadFailed | NoDocuments | Listed(rows: seq<DocumentApi.DocumentResponse>, pagination: bool)

  /**
   * `isLoading ? … : error ? … : content.length === 0 ? … : (…)`. Before any data
   * has arrived the length test is `undefined === 0`, so the last branch renders
   * no rows and no bar.
   */
  function Panel(loading: bool, failed: bool, data: Option<Repository.Page<DocumentApi.DocumentResponse>>): (r: ListPanel)
    ensures r.Spinner? <==> loading
    ensures r.LoadFailed? <==> !loading && failed
    ensures r.NoDocuments? <==> !loading && !failed && data.Some? && |data.value.content| == 0
    ensures r.Listed? ==> r.rows == (if data.Some? then data.value.content else [])
    ensures r.Listed? ==> (r.pagination <==> data.Some? && data.value.totalPages > 1)
  {
    if loading then Spinner
    else if failed then LoadFailed
    else match data
      case None => Listed([], false)
      case Some(p) =>
        if |p.content| == 0 then NoDocuments else Listed(p.content, p.totalPages > 1)
  }

  /** The pagination bar is on screen: the rows are listed and there is more than one page. */
  predicate ShowsPagination(loading: bool, failed: bool, data: Option<Repository.Page<DocumentApi.DocumentResponse>>) {
    Panel(loading, failed, data).Listed? && Panel(loading, failed, data).pagination
  }

  /** The bar is shown exactly when the loaded page has rows and there is more than one page. */
  lemma ShowsPaginationIff(loading: bool, failed: bool, data: Option<Repository.Page<DocumentApi.DocumentResponse>>)
    ensures ShowsPagination(loading, failed, data)
      <==> !loading && !failed && data.Some? && |data.value.content| > 0 && data.value.totalPages > 1
  {
  }

  /**
   * A page index past the last page (a search submitted from a later page, say)
   * gets an empty page from the server: the list shows the "No documents" panel,
   * with neither rows nor pagination controls, however many pages there are.
   */
  lemma PastLastPageShowsNothing(rows: seq<Entities.Document>, s: DashboardState)
    requires s.page >= 0
    ensures var p := DocumentApi.MapPage(Repository.Paged(rows, s.page, PageSize).value);
      s.page >= p.totalPages ==>
        (Panel(false, false, Some(p)) == NoDocuments && !ShowsPagination(false, false, Some(p)))
  {
    Repository.PageNonEmptyIff(rows, s.page, PageSize as nat);
  }

  /** "Showing page n of m" counts from one. */
  function PageLabel(number: int): (r: int)
    ensures r - 1 == number
  {
    number + 1
  }

  predicate PreviousDisabled(s: DashboardState) {
    s.page == 0
  }

  predicate NextDisabled(s: DashboardState, totalPages: int) {
    s.page >= totalPages - 1
  }

  /** A click on Previous: `setPage(page - 1)`, unless the button is disabled. */
  function ClickPrevious(s: DashboardState): (r: DashboardState)
    ensures PreviousDisabled(s) ==> r == s
    ensures !PreviousDisabled(s) ==> r.page == s.page - 1 && r.searchTerm == s.searchTerm
  {
    if PreviousDisabled(s) then s else s.(page := s.page - 1)
  }

  /** A click on Next: `setPage(page + 1)`, unless the button is disabled. */
  function ClickNext(s: DashboardState, totalPages: int): (r: DashboardState)
    ensures NextDisabled(s, totalPages) ==> r == s
    ensures !NextDisabled(s, totalPages) ==> r.page == s.page + 1 && r.searchTerm == s.searchTerm
  {
    if NextDisabled(s, totalPages) then s else s.(page := s.page + 1)
  }

  predicate PageInRange(s: DashboardState, totalPages: int) {
    0 <= s.page <= totalPages - 1
  }

  /** Clicks on the pagination buttons keep the page index within [0, totalPages - 1]. */
  lemma ClicksStayInRange(s: DashboardState, totalPages: int)
    requires PageInRange(s, totalPages)
    ensures PageInRange(ClickPrevious(s), totalPages)
    ensures PageInRange(ClickNext(s, totalPages), totalPages)
  {
  }

  /** With the bar shown, at least one of the two buttons is enabled. */
  lemma SomeButtonEnabled(s: DashboardState, loading: bool, failed: bool, data: Option<Repository.Page<DocumentApi.DocumentResponse>>)
    requires data.Some? && ShowsPagination(loading, failed, data) && PageInRange(s, data.value.totalPages)
    ensures !PreviousDisabled(s) || !NextDisabled(s, data.value.totalPages)
  {
  }

  /**
   * Next is enabled exactly when the server has a further non-empty page for the
   * dashboard's listing.
   */
  lemma NextMeansMoreDocuments<T>(rows: seq<T>, s: DashboardState)
    requires s.page >= 0
    ensures var p := Repository.Paged(rows, s.page, PageSize).value;
      !NextDisabled(s, p.totalPages) <==> |Repository.PageOf(rows, s.page + 1, PageSize)| > 0
  {
    Repository.PageNonEmptyIff(rows, s.page + 1, PageSize as nat);
  }

  // ---------------------------------------------------------------- search

  /** Typing in the box changes the term; the page stays where it was. */
  function TypeSearch(s: DashboardState, term: string): (r: DashboardState)
    ensures r.searchTerm == term && r.page == s.page
  {
    s.(searchTerm := term)
  }

  /** `handleSearch`: back to the first page with the current term. */
  function SubmitSearch(s: DashboardState): (r: DashboardState)
    ensures r.page == 0 && r.searchTerm == s.searchTerm
  {
    s.(page := 0)
  }

  /** After a search is submitted the listing asks for the first page of the term's matches. */
  lemma SubmittedSearchAsksFirstPage(s: DashboardState)
    ensures ListingQuery(SubmitSearch(s))[0] == ("page", "0")
    ensures PreviousDisabled(SubmitSearch(s))
  {
  }
}

=== FILE: document_controller.dfy ===
/**
 * DocumentController: upload, the paged and searchable listing, fetch and
 * delete of the caller's own documents, and the `DocumentResponse` view.
 */
module DocumentApi {
  import opened Wrappers
  import opened Text
  import opened Seqs
  import opened Entities
  import opened Repository
  import opened DocumentProcessing
  import opened Web

  const UserNotFoundMessage: string := "User not found"
  const UploadErrorPrefix: string := "Error uploading document: "
  const DeleteErrorPrefix: string := "Error deleting document: "
  const DeletedMessage: string := "Document deleted successfully"
  const DefaultPage: int := 0
  const DefaultSize: int := 10

  datatype DocumentResponse = DocumentResponse(
    id: Option<Id>, fileName: string, originalName: Option<string>, fileSize: int,
    contentType: Option<string>, processingStatus: string, processingError: Option<string>,
    createdAt: Option<Tick>, updatedAt: Option<Tick>, hasExtractedText: bool)

  /** The `DocumentResponse` constructor: the text itself is not sent, only whether it has content. */
  function DocumentResponseOf(d: Document): (r: DocumentResponse)
    ensures r.hasExtractedText <==> d.extractedText.Some? && !IsJavaBlank(d.extractedText.value)
    ensures ProcessingStatusOf(r.processingStatus) == Some(d.processingStatus)
    ensures r.id == d.id && r.fileName == d.fileName && r.originalName == d.originalName
    ensures r.fileSize == d.fileSize && r.contentType == d.contentType && r.processingError == d.processingError
    ensures r.createdAt == d.createdAt && r.updatedAt == d.updatedAt
  {
    DocumentResponse(d.id, d.fileName, d.originalName, d.fileSize, d.contentType,
                     ProcessingStatusName(d.processingStatus), d.processingError,
                     d.createdAt, d.updatedAt,
                     d.extractedText.Some? && !IsJavaBlank(d.extractedText.value))
  }

  /** `Page.map(DocumentResponse::new)`: same metadata, each element converted in place. */
  function MapPage(p: Page<Document>): (r: Page<DocumentResponse>)
    ensures |r.content| == |p.content| && forall i | 0 <= i < |p.content| :: r.content[i] == DocumentResponseOf(p.content[i])
    ensures r.number == p.number && r.size == p.size && r.totalElements == p.totalElements && r.totalPages == p.totalPages
  {
    Page(seq(|p.content|, i requires 0 <= i < |p.content| => DocumentResponseOf(p.content[i])),
         p.number, p.size, p.totalElements, p.totalPages)
  }

  /** The user-lookup step every endpoint starts with. */
  function Caller(db: Db, principal: Id): (r: Result<User, Exception>)
    ensures r.Failure? <==> FindUser(db, principal).None?
    ensures r.Failure? ==> r.error == Exception(Some(UserNotFoundMessage))
    ensures r.Success? ==> r.value in db.users && r.value.id == Some(principal)
  {
    match FindUser(db, principal)
    case None => Failure(Exception(Some(UserNotFoundMessage)))
    case Some(u) => Success(u)
  }

  datatype UploadReply = UploadReply(response: Http<DocumentResponse>, db: Db, disk: Disk)

  /** `POST /api/documents/upload`: any exception, including a failed validation, is a 400 with its message. */
  function Upload(db: Db, disk: Disk, principal: Id, f: MultipartFile, uuid: string, extraction: Extraction): (r: UploadReply)
    requires IsUuidText(uuid)
    ensures FindUser(db, principal).None? ==>
      r == UploadReply(BadRequest(UploadErrorPrefix + UserNotFoundMessage), db, disk)
    ensures FindUser(db, principal).Some? && ValidateFile(f).Some? ==>
      r == UploadReply(BadRequest(UploadErrorPrefix + ValidateFile(f).value), db, disk)
    ensures r.response.Ok? <==> FindUser(db, principal).Some? && ValidateFile(f).None?
    ensures r.response.Ok? ==>
      var o := ProcessDocument(db, disk, f, principal, uuid, extraction);
      o.result.Success? && r.response.body == DocumentResponseOf(o.result.value) && r.db == o.db && r.disk == o.disk
  {
    match Caller(db, principal)
    case Failure(e) => UploadReply(BadRequest(ErrorText(UploadErrorPrefix, e)), db, disk)
    case Success(u) =>
      var o := ProcessDocument(db, disk, f, principal, uuid, extraction);
      match o.result
      case Failure(e) => UploadReply(BadRequest(ErrorText(UploadErrorPrefix, e)), db, disk)
      case Success(d) => UploadReply(Ok(DocumentResponseOf(d)), o.db, o.disk)
  }

  /** The listing uses the search query exactly when a search parameter with non-blank text is given. */
  predicate Searching(search: Option<string>) {
    search.Some? && !IsJavaBlank(search.value)
  }

  /**
   * `findByUserAndSearchTerm` has no ORDER BY, so the database may hand back its
   * hits in any order: `hits` is that order, some arrangement of the matching rows.
   * Without a search the order is irrelevant.
   */
  predicate SearchOrder(db: Db, principal: Id, search: Option<string>, hits: seq<Document>) {
    Searching(search) ==> multiset(hits) == multiset(SearchResults(db, principal, JavaTrim(search.value)))
  }

  /**
   * The rows the listing pages through: the trimmed-term search's hits in the
   * database's order, or all of the caller's documents newest first.
   */
  function ListingRows(db: Db, principal: Id, search: Option<string>, hits: seq<Document>): (r: seq<Document>)
    requires SearchOrder(db, principal, search, hits)
    ensures Searching(search) ==> r == hits
    ensures Searching(search) ==> multiset(r) == multiset(SearchResults(db, principal, JavaTrim(search.value)))
    ensures !Searching(search) ==> r == OwnerListing(db, principal)
    ensures forall d | d in r :: d in db.documents && d.user == principal
  {
    if Searching(search) then
      var term := JavaTrim(search.value);
      assert forall d | d in hits :: d in multiset(SearchResults(db, principal, term));
      hits
    else OwnerListing(db, principal)
  }

  /**
   * `GET /api/documents?page&size&search`: outside any try block, so a
   * missing user or a page request Spring rejects is a 500.
   */
  function List(db: Db, principal: Id, page: Option<int>, size: Option<int>, search: Option<string>, hits: seq<Document>): (r: Http<Page<DocumentResponse>>)
    requires SearchOrder(db, principal, search, hits)
    ensures FindUser(db, principal).None? ==> r == ServerError(Exception(Some(UserNotFoundMessage)))
    ensures FindUser(db, principal).Some? ==>
      var p := Paged(ListingRows(db, principal, search, hits), page.GetOr(DefaultPage), size.GetOr(DefaultSize));
      (p.Failure? ==> r == ServerError(p.error)) && (p.Success? ==> r == Ok(MapPage(p.value)))
  {
    match Caller(db, principal)
    case Failure(e) => ServerError(e)
    case Success(u) =>
      match Paged(ListingRows(db, principal, search, hits), page.GetOr(DefaultPage), size.GetOr(DefaultSize))
      case Failure(e) => ServerError(e)
      case Success(p) => Ok(MapPage(p))
  }

  /** `GET /api/documents/{id}`: 500 without a user, 404 unless the caller owns the document. */
  function Get(db: Db, principal: Id, id: Id): (r: Http<DocumentResponse>)
    ensures FindUser(db, principal).None? ==> r == ServerError(Exception(Some(UserNotFoundMessage)))
    ensures r.Ok? <==> FindUser(db, principal).Some? && FindByIdAndUser(db, id, principal).Some?
    ensures r.NotFound? <==> FindUser(db, principal).Some? && FindByIdAndUser(db, id, principal).None?
    ensures r.Ok? ==> r.body == DocumentResponseOf(FindByIdAndUser(db, id, principal).value)
  {
    match Caller(db, principal)
    case Failure(e) => ServerError(e)
    case Success(u) =>
      match FindByIdAndUser(db, id, principal)
      case None => NotFound
      case Some(d) => Ok(DocumentResponseOf(d))
  }

  datatype DeleteReply = DeleteReply(response: Http<string>, db: Db, disk: Disk)

  /** `DELETE /api/documents/{id}`: the file, the row and everything cascading from it go. */
  function Delete(db: Db, disk: Disk, principal: Id, id: Id): (r: DeleteReply)
    ensures FindUser(db, principal).None? ==>
      r == DeleteReply(BadRequest(DeleteErrorPrefix + UserNotFoundMessage), db, disk)
    ensures FindUser(db, principal).Some? && FindByIdAndUser(db, id, principal).None? ==>
      r == DeleteReply(NotFound, db, disk)
    ensures r.response.Ok? <==> FindUser(db, principal).Some? && FindByIdAndUser(db, id, principal).Some?
    ensures r.response.Ok? ==>
      r.response.body == DeletedMessage
      && (r.db, r.disk) == DeleteStoredDocument(db, disk, FindByIdAndUser(db, id, principal).value)
  {
    match Caller(db, principal)
    case Failure(e) => DeleteReply(BadRequest(ErrorText(DeleteErrorPrefix, e)), db, disk)
    case Success(u) =>
      match FindByIdAndUser(db, id, principal)
      case None => DeleteReply(NotFound, db, disk)
      case Some(d) =>
        var (db', disk') := DeleteStoredDocument(db, disk, d);
        DeleteReply(Ok(DeletedMessage), db', disk')
  }

  // ---------------------------------------------------------------- properties across endpoints

  /** A document just uploaded is fetched back by its new id, with the same view. */
  lemma UploadThenGet(db: Db, disk: Disk, principal: Id, f: MultipartFile, uuid: string, extraction: Extraction)
    requires Valid(db) && IsUuidText(uuid)
    requires Upload(db, disk, principal, f, uuid, extraction).response.Ok?
    ensures var r := Upload(db, disk, principal, f, uuid, extraction);
      r.response.body.id == Some(db.nextDocumentId)
      && Get(r.db, principal, db.nextDocumentId) == Ok(r.response.body)
  {
    var o := ProcessDocument(db, disk, f, principal, uuid, extraction);
    var d := o.result.value;
    assert d in o.db.documents;
    FindByIdAndUserUnique(o.db, db.nextDocumentId, principal, d);
    assert FindUser(o.db, principal) == FindUser(db, principal);
  }

  /** After a successful delete the document is gone for its owner, together with its analyses and clauses. */
  lemma DeleteThenGet(db: Db, disk: Disk, principal: Id, id: Id)
    requires Delete(db, disk, principal, id).response.Ok?
    ensures var r := Delete(db, disk, principal, id);
      Get(r.db, principal, id) == NotFound
      && AnalysesOf(r.db, id) == [] && ClauseListing(r.db, id) == []
  {
    var r := Delete(db, disk, principal, id);
    var d := FindByIdAndUser(db, id, principal).value;
    assert d.id == Some(id);
    assert FindUser(r.db, principal) == FindUser(db, principal);
  }

  /** A document that only whitespace was extracted from is COMPLETED yet reports no extracted text. */
  lemma BlankExtractionCompletesWithoutText(db: Db, disk: Disk, principal: Id, f: MultipartFile, uuid: string, text: string)
    requires IsUuidText(uuid) && IsJavaBlank(text)
    requires Upload(db, disk, principal, f, uuid, Extracted(Some(text))).response.Ok?
    ensures var body := Upload(db, disk, principal, f, uuid, Extracted(Some(text))).response.body;
      body.processingStatus == "COMPLETED" && !body.hasExtractedText
  {
    TrimIdempotent(text, IsJavaTrimmable);
  }

  /**
   * Whatever the page and search, entry `i` of a listing is the view of row
   * `page·size + i` of the rows paged through, and that row is one of the
   * caller's own documents: a search hit when searching, and otherwise the
   * caller's documents taken newest first.
   */
  lemma ListingShowsOnlyOwnDocuments(db: Db, principal: Id, page: Option<int>, size: Option<int>, search: Option<string>, hits: seq<Document>, i: nat)
    requires SearchOrder(db, principal, search, hits)
    requires List(db, principal, page, size, search, hits).Ok?
    requires i < |List(db, principal, page, size, search, hits).body.content|
    ensures var rows := ListingRows(db, principal, search, hits);
      var k := page.GetOr(DefaultPage) * size.GetOr(DefaultSize) + i;
      (0 <= k < |rows| && rows[k] in db.documents && rows[k].user == principal
       && List(db, principal, page, size, search, hits).body.content[i] == DocumentResponseOf(rows[k]))
    ensures var k := page.GetOr(DefaultPage) * size.GetOr(DefaultSize) + i;
      (Searching(search) ==> k < |hits| && hits[k] in SearchResults(db, principal, JavaTrim(search.value)))
      && (!Searching(search) ==>
            (k < |OwnerListing(db, principal)|
             && List(db, principal, page, size, search, hits).body.content[i] == DocumentResponseOf(OwnerListing(db, principal)[k])))
  {
    var rows := ListingRows(db, principal, search, hits);
    var k := page.GetOr(DefaultPage) * size.GetOr(DefaultSize) + i;
    PagedEntry(rows, page.GetOr(DefaultPage), size.GetOr(DefaultSize), i);
    assert rows[k] in rows;
    if Searching(search) {
      assert rows[k] in multiset(SearchResults(db, principal, JavaTrim(search.value)));
    }
  }

  lemma PagedEntry<T>(xs: seq<T>, page: int, size: int, i: nat)
    requires Paged(xs, page, size).Success? && i < |Paged(xs, page, size).value.content|
    ensures 0 <= page * size + i < |xs| && Paged(xs, page, size).value.content[i] == xs[page * size + i]
  {
  }

  /** A whitespace-only search is no search: the plain newest-first listing is paged. */
  lemma BlankSearchListsEverything(db: Db, principal: Id, search: string, hits: seq<Document>, others: seq<Document>)
    requires IsJavaBlank(search)
    ensures ListingRows(db, principal, Some(search), hits) == ListingRows(db, principal, None, others)
  {
  }
}

=== FILE: entities.dfy ===
/**
 * The persisted entities: Document, DocumentAnalysis, ExtractedClause and User,
 * their enums (stored by name), their constructors and their column constraints.
 * Nullable columns are `Option`s; `id` and the auditing timestamps are `None`
 * until the store saves the row.
 */
module Entities {
  import opened Wrappers
  import opened Text

  type Id = nat

  /** Auditing timestamps (`@CreatedDate`, `@LastModifiedDate`) are ticks of the store's clock. */
  type Tick = nat

  // ---------------------------------------------------------------- Document

  datatype ProcessingStatus = PENDING | PROCESSING | COMPLETED | FAILED

  /** `Enum.valueOf` for ProcessingStatus: exact, case-sensitive names. */
  function ProcessingStatusOf(name: string): Option<ProcessingStatus> {
    if name == "PENDING" then Some(ProcessingStatus.PENDING)
    else if name == "PROCESSING" then Some(ProcessingStatus.PROCESSING)
    else if name == "COMPLETED" then Some(ProcessingStatus.COMPLETED)
    else if name == "FAILED" then Some(ProcessingStatus.FAILED)
    else None
  }

  /** `Enum.name()`: the rendering is read back by `valueOf` as the same constant. */
  function ProcessingStatusName(s: ProcessingStatus): (r: string)
    ensures ProcessingStatusOf(r) == Some(s)
  {
    match s
    case PENDING => "PENDING"
    case PROCESSING => "PROCESSING"
    case COMPLETED => "COMPLETED"
    case FAILED => "FAILED"
  }

  datatype Document = Document(
    id: Option<Id>,
    fileName: string,
    originalName: Option<string>,
    filePath: Option<string>,
    fileSize: int,
    contentType: Option<string>,
    extractedText: Option<string>,
    processingStatus: ProcessingStatus,
    processingError: Option<string>,
    createdAt: Option<Tick>,
    updatedAt: Option<Tick>,
    /** The owning user's id; the code only ever builds documents for a loaded user. */
    user: Id)

  /** The five-argument constructor; the status field initialiser makes it PENDING. */
  function NewDocument(fileName: string, originalName: Option<string>, contentType: Option<string>,
                       fileSize: int, user: Id): (d: Document)
    ensures d.fileName == fileName && d.originalName == originalName && d.contentType == contentType
    ensures d.fileSize == fileSize && d.user == user
    ensures d.processingStatus == ProcessingStatus.PENDING
    ensures d.extractedText.None? && d.processingError.None? && d.filePath.None?
    ensures d.id.None? && d.createdAt.None? && d.updatedAt.None?
  {
    Document(None, fileName, originalName, None, fileSize, contentType, None,
             ProcessingStatus.PENDING, None, None, None, user)
  }

  /** Hibernate Validator's `@NotBlank`: non-null and non-empty after `trim()`. */
  predicate NotBlank(s: Option<string>) {
    s.Some? && !IsJavaBlank(s.value)
  }

  /** The declared constraints on a Document: `@NotBlank` file and original names (the user is never null here). */
  predicate DocumentConstraints(d: Document) {
    NotBlank(Some(d.fileName)) && NotBlank(d.originalName)
  }

  // ---------------------------------------------------------------- DocumentAnalysis

  /** The declared analysis types; there is no clause-extraction member. */
  datatype AnalysisType = SUMMARY | QUESTION_ANSWER | TEMPLATE_GENERATION | RISK_ANALYSIS | COMPLIANCE_CHECK

  datatype AnalysisStatus = PENDING | PROCESSING | COMPLETED | FAILED

  function AnalysisTypeOf(name: string): Option<AnalysisType> {
    if name == "SUMMARY" then Some(SUMMARY)
    else if name == "QUESTION_ANSWER" then Some(QUESTION_ANSWER)
    else if name == "TEMPLATE_GENERATION" then Some(TEMPLATE_GENERATION)
    else if name == "RISK_ANALYSIS" then Some(RISK_ANALYSIS)
    else if name == "COMPLIANCE_CHECK" then Some(COMPLIANCE_CHECK)
    else None
  }

  function AnalysisTypeName(t: AnalysisType): (r: string)
    ensures AnalysisTypeOf(r) == Some(t)
  {
    match t
    case SUMMARY => "SUMMARY"
    case QUESTION_ANSWER => "QUESTION_ANSWER"
    case TEMPLATE_GENERATION => "TEMPLATE_GENERATION"
    case RISK_ANALYSIS => "RISK_ANALYSIS"
    case COMPLIANCE_CHECK => "COMPLIANCE_CHECK"
  }

  function AnalysisStatusOf(name: string): Option<AnalysisStatus> {
    if name == "PENDING" then Some(AnalysisStatus.PENDING)
    else if name == "PROCESSING" then Some(AnalysisStatus.PROCESSING)
    else if name == "COMPLETED" then Some(AnalysisStatus.COMPLETED)
    else if name == "FAILED" then Some(AnalysisStatus.FAILED)
    else None
  }

  function AnalysisStatusName(s: AnalysisStatus): (r: string)
    ensures AnalysisStatusOf(r) == Some(s)
  {
    match s
    case PENDING => "PENDING"
    case PROCESSING => "PROCESSING"
    case COMPLETED => "COMPLETED"
    case FAILED => "FAILED"
  }

  datatype DocumentAnalysis = DocumentAnalysis(
    id: Option<Id>,
    analysisType: Option<AnalysisType>,
    result: Option<string>,
    prompt: Option<string>,
    confidenceScore: Option<real>,
    status: AnalysisStatus,
    errorMessage: Option<string>,
    createdAt: Option<Tick>,
    /** The analysed document's id; `None` for template generations. */
    document: Option<Id>)

  /** The no-argument constructor: everything null except the PENDING status initialiser. */
  function BlankAnalysis(): (a: DocumentAnalysis)
    ensures a.status == AnalysisStatus.PENDING
    ensures a.analysisType.None? && a.result.None? && a.prompt.None? && a.confidenceScore.None?
    ensures a.errorMessage.None? && a.document.None? && a.id.None? && a.createdAt.None?
  {
    DocumentAnalysis(None, None, None, None, None, AnalysisStatus.PENDING, None, None, None)
  }

  /** The three-argument constructor: the given type, result and document, and status COMPLETED. */
  function CompletedAnalysis(t: AnalysisType, result: string, document: Option<Id>): (a: DocumentAnalysis)
    ensures a.status == AnalysisStatus.COMPLETED
    ensures a.analysisType == Some(t) && a.result == Some(result) && a.document == document
    ensures a.prompt.None? && a.confidenceScore.None? && a.errorMessage.None?
    ensures a.id.None? && a.createdAt.None?
  {
    DocumentAnalysis(None, Some(t), Some(result), None, None, AnalysisStatus.COMPLETED, None, None, document)
  }

  /** The columns declared non-null: `analysis_type`, `result` and `document_id`. */
  predicate AnalysisColumnsNonNull(a: DocumentAnalysis) {
    a.analysisType.Some? && a.result.Some? && a.document.Some?
  }

  // ---------------------------------------------------------------- ExtractedClause

  /** Declared LOW < MEDIUM < HIGH < CRITICAL, but persisted (and so ordered) by name. */
  datatype ImportanceLevel = LOW | MEDIUM | HIGH | CRITICAL

  /** `ImportanceLevel.valueOf`: exact, case-sensitive names; anything else throws. */
  function ImportanceOf(name: string): Option<ImportanceLevel> {
    if name == "LOW" then Some(LOW)
    else if name == "MEDIUM" then Some(MEDIUM)
    else if name == "HIGH" then Some(HIGH)
    else if name == "CRITICAL" then Some(CRITICAL)
    else None
  }

  function ImportanceName(l: ImportanceLevel): (r: string)
    ensures ImportanceOf(r) == Some(l)
  {
    match l
    case LOW => "LOW"
    case MEDIUM => "MEDIUM"
    case HIGH => "HIGH"
    case CRITICAL => "CRITICAL"
  }

  /** The declaration position, `ordinal()`. */
  function Ordinal(l: ImportanceLevel): nat {
    match l
    case LOW => 0
    case MEDIUM => 1
    case HIGH => 2
    case CRITICAL => 3
  }

  datatype ExtractedClause = ExtractedClause(
    id: Option<Id>,
    clauseType: string,
    clauseText: string,
    startPosition: Option<int>,
    endPosition: Option<int>,
    confidenceScore: Option<real>,
    importanceLevel: ImportanceLevel,
    plainEnglishExplanation: Option<string>,
    createdAt: Option<Tick>,
    document: Id)

  /** The three-argument constructor; the importance field initialiser makes it MEDIUM. */
  function NewClause(clauseType: string, clauseText: string, document: Id): (c: ExtractedClause)
    ensures c.clauseType == clauseType && c.clauseText == clauseText && c.document == document
    ensures c.importanceLevel == MEDIUM
    ensures c.plainEnglishExplanation.None? && c.confidenceScore.None?
    ensures c.startPosition.None? && c.endPosition.None? && c.id.None? && c.createdAt.None?
  {
    ExtractedClause(None, clauseType, clauseText, None, None, None, MEDIUM, None, None, document)
  }

  // ---------------------------------------------------------------- User

  /** The role the code assigns; other members of `User.Role` are not part of this model. */
  datatype Role = USER

  function RoleName(r: Role): string {
    "USER"
  }

  datatype User = User(
    id: Option<Id>,
    username: string,
    email: string,
    password: string,
    firstName: Option<string>,
    lastName: Option<string>,
    role: Role,
    createdAt: Option<Tick>)
}

=== FILE: gemini.dfy ===
/**
 * GeminiAiService: the prompts, the request body, the unwrapping of the
 * model's reply, the parsing of clause lists, and the one analysis row each
 * summary, question or template call records. The HTTP call, Jackson's
 * `readTree` and the regex fallback's matcher are supplied as a `Gateway`.
 */
module GeminiAi {
  import opened Wrappers
  import opened Text
  import opened Json
  import opened Entities
  import opened Repository

  /** What the service reaches outside itself. */
  datatype Gateway = Gateway(
    /** POST of a request body to the model endpoint: the response text, or what was thrown. */
    http: Json -> Result<string, Exception>,
    /** `objectMapper.readTree`: a tree (possibly missing, for blank input), or a parse exception. */
    readTree: string -> Result<Node, Exception>,
    /** The successive matches of the fallback pattern: groups 2 (type) and 4 (text), untrimmed. */
    regexMatches: string -> seq<(string, string)>)

  // ---------------------------------------------------------------- prompts

  const SummaryInstruction: string :=
    "Please provide a comprehensive summary of the following legal document in plain English. "
    + "Focus on the main purpose, key parties, important terms, and significant obligations or rights. "
    + "Make it accessible to someone without legal training:\n\n"

  const ClauseInstruction: string :=
    "Analyze the following legal document and extract key clauses. "
    + "For each clause, provide: 1) Clause type (e.g., 'Payment Terms', 'Termination', 'Liability', etc.), "
    + "2) The exact text of the clause, 3) A plain English explanation, 4) Importance level (LOW/MEDIUM/HIGH/CRITICAL). "
    + "Format as JSON array with fields: clauseType, clauseText, explanation, importance.\n\n"

  const QuestionLead: string := "Based on the following legal document, please answer this question: "

  const QuestionInstruction: string :=
    "\n\nProvide a clear, accurate answer based only on the information in the document. "
    + "If the answer is not found in the document, please state that clearly.\n\n"
    + "Document content:\n"

  const TemplateLead: string := "Generate a simple legal "
  const TemplateMiddle: string := " template based on these requirements: "
  const TemplateInstruction: string :=
    "\n\n"
    + "Please provide a basic template with placeholder fields marked in [BRACKETS]. "
    + "Include standard clauses appropriate for this type of document. "
    + "Add a disclaimer that this is a basic template and legal review is recommended."

  const InvalidResponseMessage: string := "Invalid response format from Gemini API"

  /** The summary prompt ends with the document's whole extracted text ("null" when there is none), untruncated. */
  function SummaryPrompt(d: Document): (p: string)
    ensures StartsWith(p, SummaryInstruction) && EndsWith(p, JavaStr(d.extractedText))
    ensures |p| == |SummaryInstruction| + |JavaStr(d.extractedText)|
  {
    Pieces2(SummaryInstruction, JavaStr(d.extractedText));
    SummaryInstruction + JavaStr(d.extractedText)
  }

  function ClausePrompt(d: Document): (p: string)
    ensures StartsWith(p, ClauseInstruction) && EndsWith(p, JavaStr(d.extractedText))
    ensures |p| == |ClauseInstruction| + |JavaStr(d.extractedText)|
  {
    Pieces2(ClauseInstruction, JavaStr(d.extractedText));
    ClauseInstruction + JavaStr(d.extractedText)
  }

  /** The question appears verbatim right after the lead, and the prompt ends with the whole text. */
  function QuestionPrompt(d: Document, question: Option<string>): (p: string)
    ensures StartsWith(p, QuestionLead)
    ensures OccursAt(p, JavaStr(question), |QuestionLead|)
    ensures EndsWith(p, JavaStr(d.extractedText))
    ensures OccursAt(p, QuestionInstruction, |QuestionLead| + |JavaStr(question)|)
  {
    var q := JavaStr(question);
    var t := JavaStr(d.extractedText);
    Pieces4(QuestionLead, q, QuestionInstruction, t);
    QuestionLead + q + QuestionInstruction + t
  }

  function TemplatePrompt(templateType: Option<string>, requirements: Option<string>): (p: string)
    ensures StartsWith(p, TemplateLead)
    ensures OccursAt(p, JavaStr(templateType), |TemplateLead|)
    ensures OccursAt(p, JavaStr(requirements), |TemplateLead| + |JavaStr(templateType)| + |TemplateMiddle|)
    ensures EndsWith(p, TemplateInstruction)
  {
    var ty := JavaStr(templateType);
    var req := JavaStr(requirements);
    Pieces5(TemplateLead, ty, TemplateMiddle, req, TemplateInstruction);
    TemplateLead + ty + TemplateMiddle + req + TemplateInstruction
  }

  // ---------------------------------------------------------------- request and response

  /**
   * `createGeminiRequestBody`: `contents` holds one content whose `parts` hold
   * one part carrying the prompt; `generationConfig` sets temperature 0.1 and
   * at most 2048 output tokens.
   */
  function RequestBody(prompt: string): Json {
    var part := Obj1("text", JString(prompt));
    var content := Obj1("parts", JArray([part]));
    var config := JObject(map["temperature" := JNumber("0.1"), "maxOutputTokens" := JNumber("2048")]);
    JObject(map["contents" := JArray([content]), "generationConfig" := config])
  }

  /** What a reader of the request body finds where the model endpoint looks. */
  lemma RequestBodyShape(prompt: string)
    ensures var body := Some(RequestBody(prompt));
      IsArray(Path(body, "contents")) && |Path(body, "contents").value.items| == 1
    ensures var parts := Path(First(Path(Some(RequestBody(prompt)), "contents")), "parts");
      IsArray(parts) && |parts.value.items| == 1 && AsText(Path(First(parts), "text")) == prompt
    ensures AsText(Path(Path(Some(RequestBody(prompt)), "generationConfig"), "maxOutputTokens")) == "2048"
    ensures AsText(Path(Path(Some(RequestBody(prompt)), "generationConfig"), "temperature")) == "0.1"
  {
  }

  /**
   * `parseGeminiResponse` after `readTree`: the text of
   * `candidates[0].content.parts[0]`, failing exactly when `candidates` or
   * `parts` is not a non-empty array.
   */
  function ParseGeminiResponse(root: Node): (r: Result<string, Exception>)
    ensures r.Failure? <==>
      !IsNonEmptyArray(Path(root, "candidates"))
      || !IsNonEmptyArray(Path(Path(First(Path(root, "candidates")), "content"), "parts"))
    ensures r.Failure? ==> r.error == Exception(Some(InvalidResponseMessage))
    ensures r.Success? ==>
      r.value == AsText(Path(First(Path(Path(First(Path(root, "candidates")), "content"), "parts")), "text"))
  {
    var candidates := Path(root, "candidates");
    if IsNonEmptyArray(candidates) then
      var parts := Path(Path(First(candidates), "content"), "parts");
      if IsNonEmptyArray(parts) then Success(AsText(Path(First(parts), "text")))
      else Failure(Exception(Some(InvalidResponseMessage)))
    else Failure(Exception(Some(InvalidResponseMessage)))
  }

  /** The shape of a model reply carrying `text`. */
  function ReplyWith(text: string): Json {
    Obj1("candidates", JArray([Obj1("content", Obj1("parts", JArray([Obj1("text", JString(text))])))]))
  }

  /** Round trip: the parser recovers the text of a well-formed reply. */
  lemma ParseReplyWith(text: string)
    ensures ParseGeminiResponse(Some(ReplyWith(text))) == Success(text)
  {
  }

  /** A reply with no candidates is rejected. */
  lemma EmptyCandidatesRejected(fields: map<string, Json>)
    requires "candidates" in fields && fields["candidates"] == JArray([])
    ensures ParseGeminiResponse(Some(JObject(fields))) == Failure(Exception(Some(InvalidResponseMessage)))
  {
  }

  /** `callGeminiApi`: POST the request body, read the reply as a tree, unwrap the text. */
  function CallGemini(gw: Gateway, prompt: string): (r: Result<string, Exception>)
    ensures gw.http(RequestBody(prompt)).Failure? ==> r == Failure(gw.http(RequestBody(prompt)).error)
    ensures gw.http(RequestBody(prompt)).Success? ==>
      var tree := gw.readTree(gw.http(RequestBody(prompt)).value);
      (tree.Failure? ==> r == Failure(tree.error))
      && (tree.Success? ==> r == ParseGeminiResponse(tree.value))
  {
    match gw.http(RequestBody(prompt))
    case Failure(e) => Failure(e)
    case Success(body) =>
      match gw.readTree(body)
      case Failure(e) => Failure(e)
      case Success(root) => ParseGeminiResponse(root)
  }

  // ---------------------------------------------------------------- clauses

  const JsonConfidence: real := 0.8
  const RegexConfidence: real := 0.6

  /** The importance a JSON element asks for: `path("importance").asText("MEDIUM").toUpperCase()` read by `valueOf`. */
  function RequestedImportance(j: Json): Option<ImportanceLevel> {
    ImportanceOf(Upper(AsTextOr(Path(Some(j), "importance"), "MEDIUM")))
  }

  /**
   * `createClauseFromJson`: the three texts read with `asText()`, the
   * importance parsed case-insensitively, confidence 0.8; `None` (the element
   * is dropped) when the importance names no level.
   */
  function ClauseFromJson(j: Json, doc: Id): (c: Option<ExtractedClause>)
    ensures c.None? <==> RequestedImportance(j).None?
    ensures c.Some? ==>
      c.value.clauseType == AsText(Path(Some(j), "clauseType"))
      && c.value.clauseText == AsText(Path(Some(j), "clauseText"))
      && c.value.plainEnglishExplanation == Some(AsText(Path(Some(j), "explanation")))
      && c.value.importanceLevel == RequestedImportance(j).value
      && c.value.confidenceScore == Some(JsonConfidence)
      && c.value.document == doc && c.value.id.None?
  {
    match RequestedImportance(j)
    case None => None
    case Some(level) =>
      Some(NewClause(AsText(Path(Some(j), "clauseType")), AsText(Path(Some(j), "clauseText")), doc)
        .(plainEnglishExplanation := Some(AsText(Path(Some(j), "explanation"))),
          importanceLevel := level,
          confidenceScore := Some(JsonConfidence)))
  }

  /** An element without an `importance` field (or with JSON null there) is kept as MEDIUM. */
  lemma MissingImportanceIsMedium(j: Json, doc: Id)
    requires Path(Some(j), "importance").None? || Path(Some(j), "importance") == Some(JNull)
    ensures ClauseFromJson(j, doc).Some? && ClauseFromJson(j, doc).value.importanceLevel == MEDIUM
  {
    assert Upper("MEDIUM") == "MEDIUM";
  }

  /** The level names are read case-insensitively: lower-case names are accepted. */
  lemma LowerCaseImportanceAccepted(fields: map<string, Json>, l: ImportanceLevel, doc: Id)
    requires "importance" in fields && fields["importance"] == JString(Lower(ImportanceName(l)))
    ensures ClauseFromJson(JObject(fields), doc).Some?
    ensures ClauseFromJson(JObject(fields), doc).value.importanceLevel == l
  {
    match l
    case LOW => assert Upper(Lower("LOW")) == "LOW";
    case MEDIUM => assert Upper(Lower("MEDIUM")) == "MEDIUM";
    case HIGH => assert Upper(Lower("HIGH")) == "HIGH";
    case CRITICAL => assert Upper(Lower("CRITICAL")) == "CRITICAL";
  }

  /** An array element that is not an object reads as empty texts and is kept as a blank MEDIUM clause. */
  lemma NonObjectElementGivesBlankClause(j: Json, doc: Id)
    requires !j.JObject?
    ensures ClauseFromJson(j, doc) == Some(NewClause("", "", doc).(plainEnglishExplanation := Some(""),
                                                                  confidenceScore := Some(JsonConfidence)))
  {
    assert Upper("MEDIUM") == "MEDIUM";
  }

  /** The JSON branch of `parseClausesFromResponse`: one clause per kept element, in array order. */
  function JsonClauses(items: seq<Json>, doc: Id): (cs: seq<ExtractedClause>)
    ensures |cs| <= |items|
    ensures forall c | c in cs :: c.confidenceScore == Some(JsonConfidence) && c.document == doc && c.id.None?
    ensures (forall i | 0 <= i < |items| :: RequestedImportance(items[i]).Some?) ==>
      |cs| == |items| && forall i | 0 <= i < |items| :: Some(cs[i]) == ClauseFromJson(items[i], doc)
    ensures (forall i | 0 <= i < |items| :: RequestedImportance(items[i]).None?) ==> cs == []
  {
    if |items| == 0 then []
    else
      var rest := JsonClauses(items[1..], doc);
      assert forall i | 0 <= i < |items[1..]| :: items[1..][i] == items[i + 1];
      match ClauseFromJson(items[0], doc)
      case Some(c) => [c] + rest
      case None => rest
  }

  /** The conversion works element by element: the clauses of two arrays joined are the clauses of each, joined. */
  lemma {:induction false} JsonClausesAppend(items: seq<Json>, more: seq<Json>, doc: Id)
    ensures JsonClauses(items + more, doc) == JsonClauses(items, doc) + JsonClauses(more, doc)
  {
    if |items| == 0 {
      assert items + more == more;
    } else {
      assert (items + more)[1..] == items[1..] + more;
      assert (items + more)[0] == items[0];
      JsonClausesAppend(items[1..], more, doc);
    }
  }

  /** `parseClausesWithRegex`: each match, its groups trimmed, as a MEDIUM clause with confidence 0.6. */
  function RegexClauses(matches: seq<(string, string)>, doc: Id): (cs: seq<ExtractedClause>)
    ensures |cs| == |matches|
    ensures forall i | 0 <= i < |matches| ::
      cs[i] == NewClause(JavaTrim(matches[i].0), JavaTrim(matches[i].1), doc).(confidenceScore := Some(RegexConfidence))
    ensures forall c | c in cs :: c.importanceLevel == MEDIUM && c.confidenceScore == Some(RegexConfidence)
    ensures forall c | c in cs :: c.document == doc && c.id.None?
  {
    seq(|matches|, i requires 0 <= i < |matches| =>
      NewClause(JavaTrim(matches[i].0), JavaTrim(matches[i].1), doc).(confidenceScore := Some(RegexConfidence)))
  }

  /**
   * `parseClausesFromResponse`: an array gives its JSON clauses, any other
   * tree gives none, and only a parse exception falls back to the regex.
   */
  function ParseClauses(gw: Gateway, response: string, doc: Id): (cs: seq<ExtractedClause>)
    ensures gw.readTree(response).Failure? ==> cs == RegexClauses(gw.regexMatches(response), doc)
    ensures gw.readTree(response).Success? && IsArray(gw.readTree(response).value) ==>
      cs == JsonClauses(gw.readTree(response).value.value.items, doc)
    ensures gw.readTree(response).Success? && !IsArray(gw.readTree(response).value) ==> cs == []
    ensures forall c | c in cs :: c.document == doc && c.id.None?
  {
    var tree := gw.readTree(response);
    if tree.Failure? then RegexClauses(gw.regexMatches(response), doc)
    else if IsArray(tree.value) then JsonClauses(tree.value.value.items, doc)
    else []
  }

  // ---------------------------------------------------------------- recorded analyses

  /** The FAILED row the catch blocks build: type, document and error message set, no result. */
  function FailedAnalysis(t: AnalysisType, document: Option<Id>, e: Exception, prompt: Option<string>): (a: DocumentAnalysis)
    ensures a.status == AnalysisStatus.FAILED && a.analysisType == Some(t) && a.document == document
    ensures a.errorMessage == e.message && a.prompt == prompt && a.result.None? && a.confidenceScore.None?
  {
    BlankAnalysis().(document := document, analysisType := Some(t), status := AnalysisStatus.FAILED,
                     errorMessage := e.message, prompt := prompt)
  }

  /**
   * The shared shape of a recorded call: one row appended; COMPLETED with the
   * reply as result exactly when the call succeeded, FAILED with the error's
   * message and no result otherwise.
   */
  predicate RecordsOne(db: Db, s: Saved<DocumentAnalysis>, call: Result<string, Exception>, t: AnalysisType, document: Option<Id>) {
    s.db.analyses == db.analyses + [s.row]
    && s.db.documents == db.documents && s.db.clauses == db.clauses && s.db.users == db.users
    && s.row.id == Some(db.nextAnalysisId)
    && s.row.analysisType == Some(t) && s.row.document == document
    && (s.row.status == AnalysisStatus.COMPLETED <==> call.Success?)
    && (call.Success? ==> s.row.result == Some(call.value) && s.row.errorMessage.None?)
    && (call.Failure? ==> s.row.status == AnalysisStatus.FAILED && s.row.result.None? && s.row.errorMessage == call.error.message)
  }

  /** `summarizeDocument`: the full prompt is stored on success only. */
  function SummarizeDocument(db: Db, gw: Gateway, d: Document): (s: Saved<DocumentAnalysis>)
    ensures RecordsOne(db, s, CallGemini(gw, SummaryPrompt(d)), SUMMARY, d.id)
    ensures s.row.prompt == if s.row.status == AnalysisStatus.COMPLETED then Some(SummaryPrompt(d)) else None
    ensures Valid(db) ==> Valid(s.db)
  {
    var prompt := SummaryPrompt(d);
    match CallGemini(gw, prompt)
    case Success(summary) => InsertAnalysis(db, CompletedAnalysis(SUMMARY, summary, d.id).(prompt := Some(prompt)))
    case Failure(e) => InsertAnalysis(db, FailedAnalysis(SUMMARY, d.id, e, None))
  }

  /** `answerQuestion`: the question itself is stored as the prompt on both paths. */
  function AnswerQuestion(db: Db, gw: Gateway, d: Document, question: Option<string>): (s: Saved<DocumentAnalysis>)
    ensures RecordsOne(db, s, CallGemini(gw, QuestionPrompt(d, question)), QUESTION_ANSWER, d.id)
    ensures s.row.prompt == question
    ensures Valid(db) ==> Valid(s.db)
  {
    var prompt := QuestionPrompt(d, question);
    match CallGemini(gw, prompt)
    case Success(answer) => InsertAnalysis(db, CompletedAnalysis(QUESTION_ANSWER, answer, d.id).(prompt := question))
    case Failure(e) => InsertAnalysis(db, FailedAnalysis(QUESTION_ANSWER, d.id, e, question))
  }

  /** `generateTemplate`: no document, and the full prompt stored on both paths. */
  function GenerateTemplate(db: Db, gw: Gateway, templateType: Option<string>, requirements: Option<string>): (s: Saved<DocumentAnalysis>)
    ensures RecordsOne(db, s, CallGemini(gw, TemplatePrompt(templateType, requirements)), TEMPLATE_GENERATION, None)
    ensures s.row.prompt == Some(TemplatePrompt(templateType, requirements))
    ensures Valid(db) ==> Valid(s.db)
  {
    var prompt := TemplatePrompt(templateType, requirements);
    match CallGemini(gw, prompt)
    case Success(template) => InsertAnalysis(db, CompletedAnalysis(TEMPLATE_GENERATION, template, None).(prompt := Some(prompt)))
    case Failure(e) => InsertAnalysis(db, FailedAnalysis(TEMPLATE_GENERATION, None, e, Some(prompt)))
  }

  /**
   * `extractClauses`: on any failure nothing is saved and the list is empty;
   * otherwise the parsed clauses are appended and no existing clause is removed.
   */
  function ExtractClauses(db: Db, gw: Gateway, d: Document): (s: SavedAll<ExtractedClause>)
    requires d.id.Some?
    ensures CallGemini(gw, ClausePrompt(d)).Failure? ==> s.rows == [] && s.db == db
    ensures CallGemini(gw, ClausePrompt(d)).Success? ==>
      var parsed := ParseClauses(gw, CallGemini(gw, ClausePrompt(d)).value, d.id.value);
      |s.rows| == |parsed|
      && (forall i | 0 <= i < |parsed| :: s.rows[i] == parsed[i].(id := Some(db.nextClauseId + i), createdAt := Some(db.clock + i)))
    ensures s.db.clauses == db.clauses + s.rows
    ensures forall i | 0 <= i < |s.rows| :: s.rows[i].id == Some(db.nextClauseId + i)
    ensures forall c | c in s.rows :: c.document == d.id.value
    ensures s.db.documents == db.documents && s.db.analyses == db.analyses && s.db.users == db.users
    ensures Valid(db) ==> Valid(s.db)
  {
    match CallGemini(gw, ClausePrompt(d))
    case Failure(_) => SavedAll([], db)
    case Success(response) =>
      var parsed := ParseClauses(gw, response, d.id.value);
      var s := InsertClauses(db, parsed);
      assert forall i | 0 <= i < |parsed| :: s.rows[i].document == parsed[i].document;
      s
  }

  /** Re-extraction appends: every clause stored before is still stored after. */
  lemma ExtractionKeepsExistingClauses(db: Db, gw: Gateway, d: Document, c: ExtractedClause)
    requires d.id.Some? && c in db.clauses
    ensures c in ExtractClauses(db, gw, d).db.clauses
  {
  }

  // ---------------------------------------------------------------- non-null columns

  /** A successful summary or answer about a stored document satisfies the non-null columns. */
  lemma SuccessfulDocumentAnalysesHaveRequiredColumns(db: Db, gw: Gateway, d: Document, question: Option<string>)
    requires d.id.Some?
    ensures CallGemini(gw, SummaryPrompt(d)).Success? ==> AnalysisColumnsNonNull(SummarizeDocument(db, gw, d).row)
    ensures CallGemini(gw, QuestionPrompt(d, question)).Success? ==> AnalysisColumnsNonNull(AnswerQuestion(db, gw, d, question).row)
  {
  }

  /** Every failure path leaves `result` null, against the declared column. */
  lemma FailedAnalysesLackResult(db: Db, gw: Gateway, d: Document, question: Option<string>,
                                 templateType: Option<string>, requirements: Option<string>)
    ensures CallGemini(gw, SummaryPrompt(d)).Failure? ==> !AnalysisColumnsNonNull(SummarizeDocument(db, gw, d).row)
    ensures CallGemini(gw, QuestionPrompt(d, question)).Failure? ==> !AnalysisColumnsNonNull(AnswerQuestion(db, gw, d, question).row)
    ensures CallGemini(gw, TemplatePrompt(templateType, requirements)).Failure? ==>
      !AnalysisColumnsNonNull(GenerateTemplate(db, gw, templateType, requirements).row)
  {
  }

  /** A template row never has a document, so it never satisfies the non-null columns. */
  lemma TemplatesNeverHaveDocument(db: Db, gw: Gateway, templateType: Option<string>, requirements: Option<string>)
    ensures GenerateTemplate(db, gw, templateType, requirements).row.document.None?
    ensures !AnalysisColumnsNonNull(GenerateTemplate(db, gw, templateType, requirements).row)
  {
  }
}

=== FILE: json.dfy ===
/**
 * A Jackson `JsonNode` tree and the navigation calls the AI service makes on it:
 * `path(name)`, `isArray()`, `size()`, `get(0)`, `asText()` and `asText(default)`.
 * A missing node (`MissingNode`) is `None`.
 */
module Json {
  import opened Wrappers

  datatype Json =
    | JNull
    | JBool(b: bool)
    /** A number, carrying the text Jackson renders for it. */
    | JNumber(text: string)
    | JString(s: string)
    | JArray(items: seq<Json>)
    | JObject(fields: map<string, Json>)

  /** A node as navigation sees it: `None` is Jackson's `MissingNode`. */
  type Node = Option<Json>

  /** `node.path(name)`: the field of an object, and a missing node for anything else. */
  function Path(n: Node, name: string): (r: Node)
    ensures r.Some? <==> n.Some? && n.value.JObject? && name in n.value.fields
    ensures r.Some? ==> r.value == n.value.fields[name]
  {
    match n
    case Some(JObject(fields)) => if name in fields then Some(fields[name]) else None
    case _ => None
  }

  predicate IsArray(n: Node) {
    n.Some? && n.value.JArray?
  }

  /** `node.isArray() && node.size() > 0`. */
  predicate IsNonEmptyArray(n: Node) {
    IsArray(n) && |n.value.items| > 0
  }

  /** `arrayNode.get(0)`. */
  function First(n: Node): Node
    requires IsNonEmptyArray(n)
  {
    Some(n.value.items[0])
  }

  /**
   * `node.asText()`: strings give their value, numbers their text, booleans
   * "true"/"false", null gives "null", and containers and missing nodes give "".
   */
  function AsText(n: Node): string {
    match n
    case None => ""
    case Some(JNull) => "null"
    case Some(JBool(b)) => if b then "true" else "false"
    case Some(JNumber(t)) => t
    case Some(JString(s)) => s
    case Some(JArray(_)) => ""
    case Some(JObject(_)) => ""
  }

  /** `node.asText(default)`: the default replaces missing nodes and JSON null; anything else is `asText()`. */
  function AsTextOr(n: Node, default: string): (r: string)
    ensures (n.None? || n == Some(JNull)) ==> r == default
    ensures !(n.None? || n == Some(JNull)) ==> r == AsText(n)
  {
    match n
    case None => default
    case Some(JNull) => default
    case _ => AsText(n)
  }

  /** An object with the given fields; a convenience for building request and response trees. */
  function Obj1(k: string, v: Json): (j: Json)
    ensures j.JObject? && j.fields.Keys == {k} && j.fields[k] == v
  {
    JObject(map[k := v])
  }
}

=== FILE: processing.dfy ===
/**
 * DocumentProcessingService: upload validation, the stored file name, the
 * PROCESSING -> COMPLETED | FAILED status flow around text extraction, and
 * document deletion. The upload directory and its files are an abstract disk;
 * Tika's extraction and the UUID are given as inputs.
 */
module DocumentProcessing {
  import opened Wrappers
  import opened Text
  import opened Entities
  import opened Repository

  const UploadDir: string := "uploads/documents"

  /** 50 MB; a file of exactly this size is accepted. */
  const MaxFileSize: int := 50 * 1024 * 1024

  const Pdf: string := "application/pdf"
  const MsWord: string := "application/msword"
  const Docx: string := "application/vnd.openxmlformats-officedocument.wordprocessingml.document"

  const EmptyFileMessage: string := "File is empty"
  const TooLargeMessage: string := "File size exceeds maximum allowed size of 50MB"
  const BadTypeMessage: string := "Invalid file type. Only PDF and Word documents are allowed."
  const ExtractionFailurePrefix: string := "Failed to extract text from file: "

  /** A multipart upload: client file name and MIME type (both may be absent) and the bytes. */
  datatype MultipartFile = MultipartFile(originalFilename: Option<string>, contentType: Option<string>, content: seq<bv8>)

  /** The upload directory tree: the directories that exist and the stored files by path. */
  datatype Disk = Disk(dirs: set<string>, files: map<string, seq<bv8>>)

  /** What Tika's `parseToString` does: returns a (possibly null) text, or throws with a (possibly null) message. */
  datatype Extraction = Extracted(text: Option<string>) | ExtractionFailed(message: Option<string>)

  /** `isValidContentType`: exactly one of the three MIME strings; null is rejected. */
  predicate IsValidContentType(contentType: Option<string>) {
    contentType == Some(Pdf) || contentType == Some(MsWord) || contentType == Some(Docx)
  }

  /**
   * `validateFile`: the message of the IOException it throws, or `None` when
   * the file passes. Emptiness is checked first, then size, then type.
   */
  function ValidateFile(f: MultipartFile): (r: Option<string>)
    ensures r.None? <==> 0 < |f.content| <= MaxFileSize && IsValidContentType(f.contentType)
    ensures |f.content| == 0 ==> r == Some(EmptyFileMessage)
    ensures |f.content| > MaxFileSize ==> r == Some(TooLargeMessage)
    ensures 0 < |f.content| <= MaxFileSize && !IsValidContentType(f.contentType) ==> r == Some(BadTypeMessage)
  {
    if |f.content| == 0 then Some(EmptyFileMessage)
    else if |f.content| > MaxFileSize then Some(TooLargeMessage)
    else if !IsValidContentType(f.contentType) then Some(BadTypeMessage)
    else None
  }

  /** The first failing check decides the error: an empty file is reported as empty whatever its type. */
  lemma ValidationOrder(f: MultipartFile)
    ensures |f.content| == 0 ==> ValidateFile(f) == Some(EmptyFileMessage)
    ensures |f.content| > MaxFileSize ==> ValidateFile(f) == Some(TooLargeMessage)
    ensures ValidateFile(f) == Some(BadTypeMessage) ==> 0 < |f.content| <= MaxFileSize
  {
  }

  /** The bound is strict: a PDF of exactly 52,428,800 bytes passes, one byte more does not. */
  lemma SizeBoundIsInclusive(f: MultipartFile)
    requires f.contentType == Some(Pdf)
    ensures |f.content| == 52428800 ==> ValidateFile(f).None?
    ensures |f.content| == 52428801 ==> ValidateFile(f) == Some(TooLargeMessage)
  {
  }

  /**
   * `getFileExtension`: "" for a null or dot-free name, otherwise the suffix
   * starting at the last '.', which holds no other '.'.
   */
  function FileExtension(filename: Option<string>): (r: string)
    ensures filename.None? ==> r == ""
    ensures filename.Some? && '.' !in filename.value ==> r == ""
    ensures filename.Some? && '.' in filename.value ==>
      EndsWith(filename.value, r) && |r| >= 1 && r[0] == '.' && '.' !in r[1..]
  {
    if filename.None? || LastIndexOf(filename.value, '.') == -1 then ""
    else
      var s := filename.value;
      var k := LastIndexOf(s, '.');
      var r := s[k..];
      assert forall j | 0 <= j < |r[1..]| :: r[1..][j] == s[k + 1 + j];
      assert s[|s| - |r|..] == r;
      r
  }

  /** The text of a UUID rendered by `UUID.toString()`: 36 characters, hyphens and lower-case hex digits. */
  predicate IsUuidText(u: string) {
    |u| == 36
    && forall k | 0 <= k < |u| ::
      if k == 8 || k == 13 || k == 18 || k == 23 then u[k] == '-'
      else IsDigit(u[k]) || 'a' <= u[k] <= 'f'
  }

  /** `uuid + extension`: the name the file is stored under. */
  function UniqueFilename(uuid: string, originalFilename: Option<string>): (r: string)
    requires IsUuidText(uuid)
    ensures StartsWith(r, uuid) && r[|uuid|..] == FileExtension(originalFilename)
    ensures FileExtension(Some(r)) == FileExtension(originalFilename)
  {
    var ext := FileExtension(originalFilename);
    var r := uuid + ext;
    assert r[|uuid|..] == ext;
    assert '.' !in uuid;
    if ext == "" then
      assert r == uuid;
      r
    else
      assert '.' in r by { assert r[|uuid|] == '.'; }
      ExtensionOfAppended(uuid, ext);
      r
  }

  lemma ExtensionOfAppended(uuid: string, ext: string)
    requires '.' !in uuid && |ext| >= 1 && ext[0] == '.' && '.' !in ext[1..]
    ensures FileExtension(Some(uuid + ext)) == ext
  {
    var s := uuid + ext;
    var k := LastIndexOf(s, '.');
    assert s[|uuid|] == '.';
    forall j | |uuid| < j < |s|
      ensures s[j] != '.'
    {
      assert s[j] == ext[1..][j - |uuid| - 1];
    }
    assert k == |uuid|;
    assert s[k..] == ext;
  }

  /**
   * `extractTextFromFile`: the trimmed text, "" when Tika yields null, or a
   * TikaException whose message is the prefix plus Tika's message ("null" if none).
   */
  function ExtractText(o: Extraction): (r: Result<string, Exception>)
    ensures o.Extracted? && o.text.None? ==> r == Success("")
    ensures o.Extracted? && o.text.Some? ==> r == Success(JavaTrim(o.text.value))
    ensures o.ExtractionFailed? ==> (r.Failure? && r.error.message.Some?
      && StartsWith(r.error.message.value, ExtractionFailurePrefix)
      && r.error.message.value[|ExtractionFailurePrefix|..] == JavaStr(o.message))
  {
    match o
    case Extracted(None) => Success("")
    case Extracted(Some(t)) => Success(JavaTrim(t))
    case ExtractionFailed(m) =>
      var msg := ExtractionFailurePrefix + JavaStr(m);
      assert msg[..|ExtractionFailurePrefix|] == ExtractionFailurePrefix;
      Failure(Exception(Some(msg)))
  }

  /** The state of an upload: the result returned or thrown, and the database and disk after it. */
  datatype Outcome = Outcome(result: Result<Document, Exception>, db: Db, disk: Disk)

  /** The path `Paths.get(UPLOAD_DIR).resolve(name).toString()`. */
  function StoredPath(name: string): string {
    UploadDir + "/" + name
  }

  /** The row inserted first: the constructor's fields plus the path, in state PROCESSING. */
  function StagedDocument(f: MultipartFile, user: Id, fileName: string): (d: Document)
    ensures d.fileName == fileName && d.originalName == f.originalFilename && d.contentType == f.contentType
    ensures d.fileSize == |f.content| && d.user == user && d.filePath == Some(StoredPath(fileName))
    ensures d.processingStatus == ProcessingStatus.PROCESSING
    ensures d.extractedText.None? && d.processingError.None?
  {
    NewDocument(fileName, f.originalFilename, f.contentType, |f.content|, user)
      .(filePath := Some(StoredPath(fileName)), processingStatus := ProcessingStatus.PROCESSING)
  }

  /** The row as the extraction leaves it before the second save. */
  function Finished(d: Document, extraction: Extraction): (r: Document)
    ensures ExtractText(extraction).Success? ==>
      r == d.(extractedText := Some(ExtractText(extraction).value), processingStatus := ProcessingStatus.COMPLETED)
    ensures ExtractText(extraction).Failure? ==>
      r == d.(processingStatus := ProcessingStatus.FAILED, processingError := ExtractText(extraction).error.message)
  {
    match ExtractText(extraction)
    case Success(text) => d.(extractedText := Some(text), processingStatus := ProcessingStatus.COMPLETED)
    case Failure(e) => d.(processingStatus := ProcessingStatus.FAILED, processingError := e.message)
  }

  /**
   * `processDocument`: validate, create the directory if missing, write the
   * bytes under `uuid + extension`, insert the row as PROCESSING, extract the
   * text and save the row again as COMPLETED or FAILED.
   */
  function ProcessDocument(db: Db, disk: Disk, f: MultipartFile, user: Id, uuid: string, extraction: Extraction): (o: Outcome)
    requires IsUuidText(uuid)
    // a failed validation throws its message and touches nothing
    ensures o.result.Failure? <==> ValidateFile(f).Some?
    ensures o.result.Failure? ==> o.result.error.message == ValidateFile(f) && o.db == db && o.disk == disk
    // the stored name and the copied fields
    ensures o.result.Success? ==>
      var d := o.result.value;
      d.fileName == uuid + FileExtension(f.originalFilename)
      && d.originalName == f.originalFilename && d.contentType == f.contentType
      && d.fileSize == |f.content| && d.user == user
      && d.filePath == Some(StoredPath(d.fileName))
      && d.id == Some(db.nextDocumentId)
    // the returned document is never PENDING or PROCESSING
    ensures o.result.Success? ==>
      var d := o.result.value;
      (d.processingStatus == ProcessingStatus.COMPLETED || d.processingStatus == ProcessingStatus.FAILED)
      && (d.processingStatus == ProcessingStatus.COMPLETED <==> extraction.Extracted?)
    ensures o.result.Success? && extraction.Extracted? ==>
      o.result.value.extractedText == Some(if extraction.text.Some? then JavaTrim(extraction.text.value) else "")
      && o.result.value.processingError.None?
    ensures o.result.Success? && extraction.ExtractionFailed? ==>
      o.result.value.extractedText.None? && o.result.value.processingError == ExtractText(extraction).error.message
    // the bytes are on disk under the stored path
    ensures o.result.Success? ==>
      UploadDir in o.disk.dirs && o.disk.files == disk.files[StoredPath(o.result.value.fileName) := f.content]
    // exactly one row is added, and it is the returned document
    ensures o.result.Success? && Valid(db) ==> Valid(o.db) && o.db.documents == db.documents + [o.result.value]
    ensures o.db.users == db.users && o.db.analyses == db.analyses && o.db.clauses == db.clauses
  {
    match ValidateFile(f)
    case Some(msg) => Outcome(Failure(Exception(Some(msg))), db, disk)
    case None =>
      var disk1 := if UploadDir in disk.dirs then disk else disk.(dirs := disk.dirs + {UploadDir});
      var name := UniqueFilename(uuid, f.originalFilename);
      var disk2 := disk1.(files := disk1.files[StoredPath(name) := f.content]);
      var s1 := InsertDocument(db, StagedDocument(f, user, name));
      var s2 := UpdateDocument(s1.db, Finished(s1.row, extraction));
      if Valid(db) then
        SecondSaveReplacesLast(db, s1, s2);
        Outcome(Success(s2.row), s2.db, disk2)
      else Outcome(Success(s2.row), s2.db, disk2)
  }

  /** The second save rewrites only the row the first save appended. */
  lemma SecondSaveReplacesLast(db: Db, s1: Saved<Document>, s2: Saved<Document>)
    requires Valid(db)
    requires s1.row.id == Some(db.nextDocumentId) && s1.row.createdAt.Some?
    requires s1.db.documents == db.documents + [s1.row] && Valid(s1.db)
    requires s1.row.id.Some?
    requires |s2.db.documents| == |s1.db.documents|
    requires s2.row.id == s1.row.id && s2.row.createdAt == s1.row.createdAt
    requires forall i | 0 <= i < |s1.db.documents| ::
      s2.db.documents[i] == if s1.db.documents[i].id == s2.row.id then s2.row.(createdAt := s1.db.documents[i].createdAt) else s1.db.documents[i]
    ensures s2.db.documents == db.documents + [s2.row]
  {
    var n := |db.documents|;
    forall i | 0 <= i < n
      ensures s2.db.documents[i] == db.documents[i]
    {
      assert s1.db.documents[i] == db.documents[i];
      assert DocumentKey(db.documents[i]) < db.nextDocumentId;
    }
    assert s2.db.documents[n] == s2.row;
  }

  /**
   * The `@NotBlank` constraints on the row `processDocument` saves: the stored name
   * begins with the UUID text and is never blank, so under persist-time bean
   * validation the first save fails exactly when the original file name is null
   * or blank, after the bytes have been written.
   */
  lemma StagedDocumentConstraints(f: MultipartFile, user: Id, uuid: string)
    requires IsUuidText(uuid)
    ensures var d := StagedDocument(f, user, UniqueFilename(uuid, f.originalFilename));
      DocumentConstraints(d) <==> NotBlank(f.originalFilename)
  {
    var name := UniqueFilename(uuid, f.originalFilename);
    assert name[0] == uuid[0];
    assert !IsJavaTrimmable(name[0]);
    assert |JavaTrim(name)| > 0;
  }

  /**
   * `deleteDocument`: removes the stored file only when the document has a
   * path and a file exists there, then always deletes the row (a document
   * without an id is not a stored row, and deleting it changes nothing).
   */
  function DeleteStoredDocument(db: Db, disk: Disk, d: Document): (r: (Db, Disk))
    ensures d.filePath.Some? && d.filePath.value in disk.files ==> r.1.files == disk.files - {d.filePath.value}
    ensures !(d.filePath.Some? && d.filePath.value in disk.files) ==> r.1 == disk
    ensures r.1.dirs == disk.dirs
    ensures d.id.Some? ==> r.0 == DeleteDocument(db, d.id.value)
    ensures d.id.None? ==> r.0 == db
  {
    var disk' := if d.filePath.Some? && d.filePath.value in disk.files
      then disk.(files := disk.files - {d.filePath.value}) else disk;
    var db' := if d.id.Some? then DeleteDocument(db, d.id.value) else db;
    (db', disk')
  }
}

=== FILE: repository.dfy ===
/**
 * The database behind the three repositories (and the user repository the
 * controllers call): one table per entity, kept in insertion order. Ids come
 * from one IDENTITY counter per table and the auditing timestamps from one
 * clock, so a table's order is its creation order and `ORDER BY createdAt DESC`
 * is the reverse of a filtered table.
 */
module Repository {
  import opened Wrappers
  import opened Text
  import opened Seqs
  import opened Entities

  datatype Db = Db(
    users: seq<User>,
    documents: seq<Document>,
    analyses: seq<DocumentAnalysis>,
    clauses: seq<ExtractedClause>,
    nextUserId: Id,
    nextDocumentId: Id,
    nextAnalysisId: Id,
    nextClauseId: Id,
    clock: Tick)

  /** A saved entity as `save` returns it, with the database after the save. */
  datatype Saved<T> = Saved(row: T, db: Db)

  // ---------------------------------------------------------------- keys and the invariant

  /** The id of a row, -1 while it has none. */
  function UserKey(u: User): int { if u.id.Some? then u.id.value else -1 }
  function DocumentKey(d: Document): int { if d.id.Some? then d.id.value else -1 }
  function AnalysisKey(a: DocumentAnalysis): int { if a.id.Some? then a.id.value else -1 }
  function ClauseKey(c: ExtractedClause): int { if c.id.Some? then c.id.value else -1 }

  /** The creation tick of a row, -1 while it has none. */
  function UserCreated(u: User): int { if u.createdAt.Some? then u.createdAt.value else -1 }
  function DocumentCreated(d: Document): int { if d.createdAt.Some? then d.createdAt.value else -1 }
  function AnalysisCreated(a: DocumentAnalysis): int { if a.createdAt.Some? then a.createdAt.value else -1 }
  function ClauseCreated(c: ExtractedClause): int { if c.createdAt.Some? then c.createdAt.value else -1 }

  /**
   * Every row of a table carries an id below the table's counter and a
   * creation tick below the clock, and both strictly increase along the table.
   */
  predicate Stamped<T>(rows: seq<T>, key: T -> int, created: T -> int, nextId: Id, clock: Tick) {
    (forall i | 0 <= i < |rows| :: 0 <= key(rows[i]) < nextId && 0 <= created(rows[i]) < clock)
    && Increasing(rows, key) && Increasing(rows, created)
  }

  /** The database invariant: every table is stamped. */
  predicate Valid(db: Db) {
    Stamped(db.users, UserKey, UserCreated, db.nextUserId, db.clock)
    && Stamped(db.documents, DocumentKey, DocumentCreated, db.nextDocumentId, db.clock)
    && Stamped(db.analyses, AnalysisKey, AnalysisCreated, db.nextAnalysisId, db.clock)
    && Stamped(db.clauses, ClauseKey, ClauseCreated, db.nextClauseId, db.clock)
  }

  function EmptyDb(): (db: Db)
    ensures Valid(db)
    ensures db.users == [] && db.documents == [] && db.analyses == [] && db.clauses == []
  {
    Db([], [], [], [], 1, 1, 1, 1, 0)
  }

  lemma StampedLater<T>(rows: seq<T>, key: T -> int, created: T -> int, n: Id, t: Tick, n': Id, t': Tick)
    requires Stamped(rows, key, created, n, t)
    requires n <= n' && t <= t'
    ensures Stamped(rows, key, created, n', t')
  {
  }

  lemma StampedFilter<T(!new)>(rows: seq<T>, p: T -> bool, key: T -> int, created: T -> int, n: Id, t: Tick)
    requires Stamped(rows, key, created, n, t)
    ensures Stamped(Filter(rows, p), key, created, n, t)
  {
    FilterIncreasing(rows, p, key);
    FilterIncreasing(rows, p, created);
  }

  /** Appending a batch stamped with the next ids and ticks, in order, keeps the table stamped. */
  lemma StampedAppend<T>(rows: seq<T>, batch: seq<T>, key: T -> int, created: T -> int, n: Id, t: Tick)
    requires Stamped(rows, key, created, n, t)
    requires forall i | 0 <= i < |batch| :: key(batch[i]) == n + i && created(batch[i]) == t + i
    ensures Stamped(rows + batch, key, created, n + |batch|, t + |batch|)
  {
    var all := rows + batch;
    forall i, j | 0 <= i < j < |all|
      ensures key(all[i]) < key(all[j]) && created(all[i]) < created(all[j])
    {
      if j < |rows| {
        assert all[i] == rows[i] && all[j] == rows[j];
      } else if i < |rows| {
        assert all[i] == rows[i] && all[j] == batch[j - |rows|];
      } else {
        assert all[i] == batch[i - |rows|] && all[j] == batch[j - |rows|];
      }
    }
    forall i | 0 <= i < |all|
      ensures 0 <= key(all[i]) < n + |batch| && 0 <= created(all[i]) < t + |batch|
    {
      if i < |rows| {
        assert all[i] == rows[i];
      } else {
        assert all[i] == batch[i - |rows|];
      }
    }
  }

  /** In a stamped table the id identifies the row. */
  lemma StampedKeyUnique<T>(rows: seq<T>, key: T -> int, created: T -> int, n: Id, t: Tick, x: T, y: T)
    requires Stamped(rows, key, created, n, t)
    requires x in rows && y in rows && key(x) == key(y)
    ensures x == y
  {
    var i :| 0 <= i < |rows| && rows[i] == x;
    var j :| 0 <= j < |rows| && rows[j] == y;
  }

  // ---------------------------------------------------------------- save

  function InsertUser(db: Db, u: User): (s: Saved<User>)
    ensures s.row == u.(id := Some(db.nextUserId), createdAt := Some(db.clock))
    ensures s.db.users == db.users + [s.row]
    ensures s.db.documents == db.documents && s.db.analyses == db.analyses && s.db.clauses == db.clauses
    ensures Valid(db) ==> Valid(s.db) && forall v | v in db.users :: UserKey(v) < UserKey(s.row)
  {
    var row := u.(id := Some(db.nextUserId), createdAt := Some(db.clock));
    var db' := db.(users := db.users + [row], nextUserId := db.nextUserId + 1, clock := db.clock + 1);
    if Valid(db) then
      StampedAppend(db.users, [row], UserKey, UserCreated, db.nextUserId, db.clock);
      StampedLater(db.documents, DocumentKey, DocumentCreated, db.nextDocumentId, db.clock, db.nextDocumentId, db.clock + 1);
      StampedLater(db.analyses, AnalysisKey, AnalysisCreated, db.nextAnalysisId, db.clock, db.nextAnalysisId, db.clock + 1);
      StampedLater(db.clauses, ClauseKey, ClauseCreated, db.nextClauseId, db.clock, db.nextClauseId, db.clock + 1);
      Saved(row, db')
    else Saved(row, db')
  }

  /** `documentRepository.save` of a new document: IDENTITY id, and `createdAt` = `updatedAt` = now. */
  function InsertDocument(db: Db, d: Document): (s: Saved<Document>)
    ensures s.row == d.(id := Some(db.nextDocumentId), createdAt := Some(db.clock), updatedAt := Some(db.clock))
    ensures s.db.documents == db.documents + [s.row]
    ensures s.db.users == db.users && s.db.analyses == db.analyses && s.db.clauses == db.clauses
    ensures Valid(db) ==> Valid(s.db) && forall e | e in db.documents :: DocumentKey(e) < DocumentKey(s.row)
  {
    var row := d.(id := Some(db.nextDocumentId), createdAt := Some(db.clock), updatedAt := Some(db.clock));
    var db' := db.(documents := db.documents + [row], nextDocumentId := db.nextDocumentId + 1, clock := db.clock + 1);
    if Valid(db) then
      StampedAppend(db.documents, [row], DocumentKey, DocumentCreated, db.nextDocumentId, db.clock);
      StampedLater(db.users, UserKey, UserCreated, db.nextUserId, db.clock, db.nextUserId, db.clock + 1);
      StampedLater(db.analyses, AnalysisKey, AnalysisCreated, db.nextAnalysisId, db.clock, db.nextAnalysisId, db.clock + 1);
      StampedLater(db.clauses, ClauseKey, ClauseCreated, db.nextClauseId, db.clock, db.nextClauseId, db.clock + 1);
      Saved(row, db')
    else Saved(row, db')
  }

  /**
   * `documentRepository.save` of a document that has an id: the stored row with
   * that id takes every field of `d` except `createdAt` (not updatable), and
   * `updatedAt` becomes now. No other row changes.
   */
  function UpdateDocument(db: Db, d: Document): (s: Saved<Document>)
    requires d.id.Some?
    ensures s.row == d.(updatedAt := Some(db.clock))
    ensures |s.db.documents| == |db.documents|
    ensures forall i | 0 <= i < |db.documents| ::
      s.db.documents[i] == if db.documents[i].id == d.id then s.row.(createdAt := db.documents[i].createdAt) else db.documents[i]
    ensures s.db.users == db.users && s.db.analyses == db.analyses && s.db.clauses == db.clauses
    ensures Valid(db) ==> Valid(s.db)
  {
    var row := d.(updatedAt := Some(db.clock));
    var docs := seq(|db.documents|, i requires 0 <= i < |db.documents| =>
      if db.documents[i].id == d.id then row.(createdAt := db.documents[i].createdAt) else db.documents[i]);
    var db' := db.(documents := docs, clock := db.clock + 1);
    assert forall i | 0 <= i < |docs| :: DocumentKey(docs[i]) == DocumentKey(db.documents[i]);
    assert forall i | 0 <= i < |docs| :: DocumentCreated(docs[i]) == DocumentCreated(db.documents[i]);
    if Valid(db) then
      StampedLater(db.users, UserKey, UserCreated, db.nextUserId, db.clock, db.nextUserId, db.clock + 1);
      StampedLater(db.analyses, AnalysisKey, AnalysisCreated, db.nextAnalysisId, db.clock, db.nextAnalysisId, db.clock + 1);
      StampedLater(db.clauses, ClauseKey, ClauseCreated, db.nextClauseId, db.clock, db.nextClauseId, db.clock + 1);
      Saved(row, db')
    else Saved(row, db')
  }

  /** `documentAnalysisRepository.save` of a new analysis. */
  function InsertAnalysis(db: Db, a: DocumentAnalysis): (s: Saved<DocumentAnalysis>)
    ensures s.row == a.(id := Some(db.nextAnalysisId), createdAt := Some(db.clock))
    ensures s.db.analyses == db.analyses + [s.row]
    ensures s.db.users == db.users && s.db.documents == db.documents && s.db.clauses == db.clauses
    ensures Valid(db) ==> Valid(s.db) && forall b | b in db.analyses :: AnalysisKey(b) < AnalysisKey(s.row)
  {
    var row := a.(id := Some(db.nextAnalysisId), createdAt := Some(db.clock));
    var db' := db.(analyses := db.analyses + [row], nextAnalysisId := db.nextAnalysisId + 1, clock := db.clock + 1);
    if Valid(db) then
      StampedAppend(db.analyses, [row], AnalysisKey, AnalysisCreated, db.nextAnalysisId, db.clock);
      StampedLater(db.users, UserKey, UserCreated, db.nextUserId, db.clock, db.nextUserId, db.clock + 1);
      StampedLater(db.documents, DocumentKey, DocumentCreated, db.nextDocumentId, db.clock, db.nextDocumentId, db.clock + 1);
      StampedLater(db.clauses, ClauseKey, ClauseCreated, db.nextClauseId, db.clock, db.nextClauseId, db.clock + 1);
      Saved(row, db')
    else Saved(row, db')
  }

  /** The result of `saveAll`: the saved entities in input order, and the database after. */
  datatype SavedAll<T> = SavedAll(rows: seq<T>, db: Db)

  /** `extractedClauseRepository.saveAll`: each clause is inserted in turn, in list order. */
  function InsertClauses(db: Db, cs: seq<ExtractedClause>): (s: SavedAll<ExtractedClause>)
    ensures |s.rows| == |cs|
    ensures forall i | 0 <= i < |cs| ::
      s.rows[i] == cs[i].(id := Some(db.nextClauseId + i), createdAt := Some(db.clock + i))
    ensures s.db.clauses == db.clauses + s.rows
    ensures s.db.users == db.users && s.db.documents == db.documents && s.db.analyses == db.analyses
    ensures Valid(db) ==> Valid(s.db)
  {
    var rows := seq(|cs|, i requires 0 <= i < |cs| =>
      cs[i].(id := Some(db.nextClauseId + i), createdAt := Some(db.clock + i)));
    var db' := db.(clauses := db.clauses + rows, nextClauseId := db.nextClauseId + |cs|, clock := db.clock + |cs|);
    if Valid(db) then
      StampedAppend(db.clauses, rows, ClauseKey, ClauseCreated, db.nextClauseId, db.clock);
      StampedLater(db.users, UserKey, UserCreated, db.nextUserId, db.clock, db.nextUserId, db.clock + |cs|);
      StampedLater(db.documents, DocumentKey, DocumentCreated, db.nextDocumentId, db.clock, db.nextDocumentId, db.clock + |cs|);
      StampedLater(db.analyses, AnalysisKey, AnalysisCreated, db.nextAnalysisId, db.clock, db.nextAnalysisId, db.clock + |cs|);
      SavedAll(rows, db')
    else SavedAll(rows, db')
  }

  // ---------------------------------------------------------------- delete

  function HasId(id: Id): Document -> bool { (d: Document) => d.id == Some(id) }
  function NotId(id: Id): Document -> bool { (d: Document) => d.id != Some(id) }
  function NotOfDocument(id: Id): DocumentAnalysis -> bool { (a: DocumentAnalysis) => a.document != Some(id) }
  function ClauseNotOfDocument(id: Id): ExtractedClause -> bool { (c: ExtractedClause) => c.document != id }

  /**
   * `documentRepository.delete`: removes the document row and, through the
   * cascade on both collections, every analysis and clause that references it.
   */
  function DeleteDocument(db: Db, id: Id): (r: Db)
    ensures forall d :: d in r.documents <==> d in db.documents && d.id != Some(id)
    ensures forall a :: a in r.analyses <==> a in db.analyses && a.document != Some(id)
    ensures forall c :: c in r.clauses <==> c in db.clauses && c.document != id
    ensures r.users == db.users
    ensures Valid(db) ==> Valid(r)
  {
    var r := db.(documents := Filter(db.documents, NotId(id)),
                 analyses := Filter(db.analyses, NotOfDocument(id)),
                 clauses := Filter(db.clauses, ClauseNotOfDocument(id)));
    if Valid(db) then
      StampedFilter(db.documents, NotId(id), DocumentKey, DocumentCreated, db.nextDocumentId, db.clock);
      StampedFilter(db.analyses, NotOfDocument(id), AnalysisKey, AnalysisCreated, db.nextAnalysisId, db.clock);
      StampedFilter(db.clauses, ClauseNotOfDocument(id), ClauseKey, ClauseCreated, db.nextClauseId, db.clock);
      r
    else r
  }

  // ---------------------------------------------------------------- users

  function UserWithId(id: Id): User -> bool { (u: User) => u.id == Some(id) }

  /** `userRepository.findById`. */
  function FindUser(db: Db, id: Id): (r: Option<User>)
    ensures r.Some? <==> exists u | u in db.users :: u.id == Some(id)
    ensures r.Some? ==> r.value in db.users && r.value.id == Some(id)
  {
    FindFirst(db.users, UserWithId(id))
  }

  predicate ExistsByUsername(db: Db, username: string) {
    exists u | u in db.users :: u.username == username
  }

  predicate ExistsByEmail(db: Db, email: string) {
    exists u | u in db.users :: u.email == email
  }

  // ---------------------------------------------------------------- documents

  function OwnedBy(user: Id): Document -> bool { (d: Document) => d.user == user }
  function IdAndOwner(id: Id, user: Id): Document -> bool { (d: Document) => d.id == Some(id) && d.user == user }

  /** `findByIdAndUser`: present iff a document with that id belongs to that user. */
  function FindByIdAndUser(db: Db, id: Id, user: Id): (r: Option<Document>)
    ensures r.Some? <==> exists d | d in db.documents :: d.id == Some(id) && d.user == user
    ensures r.Some? ==> r.value in db.documents && r.value.id == Some(id) && r.value.user == user
  {
    FindFirst(db.documents, IdAndOwner(id, user))
  }

  /** In a valid database the document found is the only row with that id. */
  lemma FindByIdAndUserUnique(db: Db, id: Id, user: Id, d: Document)
    requires Valid(db)
    requires d in db.documents && d.id == Some(id)
    ensures FindByIdAndUser(db, id, user) == if d.user == user then Some(d) else None
  {
    var r := FindByIdAndUser(db, id, user);
    if r.Some? {
      StampedKeyUnique(db.documents, DocumentKey, DocumentCreated, db.nextDocumentId, db.clock, r.value, d);
    }
  }

  /** `findByUserOrderByCreatedAtDesc(user)`: exactly the user's documents, newest first. */
  function OwnerListing(db: Db, user: Id): (r: seq<Document>)
    ensures forall d :: d in r <==> d in db.documents && d.user == user
    ensures Valid(db) ==> Decreasing(r, DocumentCreated)
  {
    var mine := Filter(db.documents, OwnedBy(user));
    if Valid(db) then
      FilterIncreasing(db.documents, OwnedBy(user), DocumentCreated);
      ReverseOfIncreasing(mine, DocumentCreated);
      Reverse(mine)
    else Reverse(mine)
  }

  /** `countByUser`. */
  function CountByUser(db: Db, user: Id): (n: nat)
    ensures n == |OwnerListing(db, user)|
    ensures n <= |db.documents|
  {
    |Filter(db.documents, OwnedBy(user))|
  }

  /** The WHERE clause of `findByUserAndSearchTerm`; `LOWER(NULL) LIKE …` is never true. */
  predicate SearchHit(d: Document, user: Id, term: string) {
    d.user == user
    && ((d.originalName.Some? && ContainsIgnoreCase(d.originalName.value, term))
        || (d.extractedText.Some? && ContainsIgnoreCase(d.extractedText.value, term)))
  }

  function SearchFilter(user: Id, term: string): Document -> bool { (d: Document) => SearchHit(d, user, term) }

  /**
   * `findByUserAndSearchTerm` before paging. The query has no ORDER BY; the
   * model returns table order, and its contract speaks only of membership.
   * The listing pages through any arrangement of these rows (`DocumentApi.SearchOrder`).
   */
  function SearchResults(db: Db, user: Id, term: string): (r: seq<Document>)
    ensures forall d :: d in r <==> (d in db.documents && d.user == user
      && ((d.originalName.Some? && ContainsIgnoreCase(d.originalName.value, term))
          || (d.extractedText.Some? && ContainsIgnoreCase(d.extractedText.value, term))))
  {
    Filter(db.documents, SearchFilter(user, term))
  }

  /** Every search hit is one of the user's listed documents. */
  lemma SearchWithinListing(db: Db, user: Id, term: string)
    ensures forall d | d in SearchResults(db, user, term) :: d in OwnerListing(db, user)
  {
  }

  /** A null extracted text can only match through the original name. */
  lemma SearchNullTextMatchesByName(db: Db, user: Id, term: string, d: Document)
    requires d in db.documents && d.user == user && d.extractedText.None?
    ensures d in SearchResults(db, user, term) <==> d.originalName.Some? && ContainsIgnoreCase(d.originalName.value, term)
  {
  }

  // ---------------------------------------------------------------- paging

  function Min(a: int, b: int): int { if a <= b then a else b }

  /** The slice `PageRequest.of(page, size)` selects: the window [page·size, (page+1)·size). */
  function PageOf<T>(xs: seq<T>, page: nat, size: nat): (r: seq<T>)
    requires size >= 1
    ensures |r| <= size
    ensures page * size >= |xs| ==> |r| == 0
    ensures page * size < |xs| ==> |r| == Min(size, |xs| - page * size)
    ensures forall i | 0 <= i < |r| :: page * size + i < |xs| && r[i] == xs[page * size + i]
  {
    var lo := Min(page * size, |xs|);
    var hi := Min(lo + size, |xs|);
    xs[lo..hi]
  }

  /** Every element lies on page `i / size` at offset `i % size`. */
  lemma PageCovers<T>(xs: seq<T>, size: nat, i: nat)
    requires size >= 1 && i < |xs|
    ensures i % size < |PageOf(xs, i / size, size)|
    ensures PageOf(xs, i / size, size)[i % size] == xs[i]
  {
    var k := i / size;
    assert k * size + i % size == i;
  }

  /** Spring's `getTotalPages()`: the number of pages needed for `n` elements. */
  function TotalPages(n: nat, size: nat): (t: nat)
    requires size >= 1
    ensures n == 0 ==> t == 0
    ensures n > 0 ==> (t - 1) * size < n <= t * size
  {
    var t := (n + size - 1) / size;
    assert t * size + (n + size - 1) % size == n + size - 1;
    t
  }

  /** A page is non-empty exactly when its number is below the page count. */
  lemma {:induction false} PageNonEmptyIff<T>(xs: seq<T>, page: nat, size: nat)
    requires size >= 1
    ensures |PageOf(xs, page, size)| > 0 <==> page < TotalPages(|xs|, size)
  {
    var t := TotalPages(|xs|, size);
    if page < t {
      MulMono(page, t - 1, size);
    } else {
      MulMono(t, page, size);
    }
  }

  lemma MulMono(a: nat, b: nat, s: nat)
    requires a <= b
    ensures a * s <= b * s
  {
  }

  /** A page of results with the metadata the dashboard reads. */
  datatype Page<T> = Page(content: seq<T>, number: nat, size: nat, totalElements: nat, totalPages: nat)

  /** `PageRequest.of(page, size)` applied to a full result list; a bad page index or size throws. */
  function Paged<T>(xs: seq<T>, page: int, size: int): (r: Result<Page<T>, Exception>)
    ensures page < 0 ==> r == Failure(Exception(Some("Page index must not be less than zero")))
    ensures page >= 0 && size < 1 ==> r == Failure(Exception(Some("Page size must not be less than one")))
    ensures page >= 0 && size >= 1 ==> (r.Success?
      && r.value.content == PageOf(xs, page, size)
      && r.value.number == page && r.value.size == size
      && r.value.totalElements == |xs| && r.value.totalPages == TotalPages(|xs|, size))
  {
    if page < 0 then Failure(Exception(Some("Page index must not be less than zero")))
    else if size < 1 then Failure(Exception(Some("Page size must not be less than one")))
    else Success(Page(PageOf(xs, page, size), page, size, |xs|, TotalPages(|xs|, size)))
  }

  // ---------------------------------------------------------------- analyses

  function ForDocument(doc: Id): DocumentAnalysis -> bool { (a: DocumentAnalysis) => a.document == Some(doc) }
  function OfType(t: AnalysisType): DocumentAnalysis -> bool { (a: DocumentAnalysis) => a.analysisType == Some(t) }
  function ForDocumentAndType(doc: Id, t: AnalysisType): DocumentAnalysis -> bool {
    (a: DocumentAnalysis) => a.document == Some(doc) && a.analysisType == Some(t)
  }

  /** `findByDocumentOrderByCreatedAtDesc`: exactly the document's analyses, newest first. */
  function AnalysesOf(db: Db, doc: Id): (r: seq<DocumentAnalysis>)
    ensures forall a :: a in r <==> a in db.analyses && a.document == Some(doc)
    ensures Valid(db) ==> Decreasing(r, AnalysisCreated)
  {
    var mine := Filter(db.analyses, ForDocument(doc));
    if Valid(db) then
      FilterIncreasing(db.analyses, ForDocument(doc), AnalysisCreated);
      ReverseOfIncreasing(mine, AnalysisCreated);
      Reverse(mine)
    else Reverse(mine)
  }

  /** `findByDocumentAndAnalysisTypeOrderByCreatedAtDesc`: the per-document listing filtered by type, order kept. */
  function AnalysesOfType(db: Db, doc: Id, t: AnalysisType): (r: seq<DocumentAnalysis>)
    ensures r == Filter(AnalysesOf(db, doc), OfType(t))
    ensures forall a :: a in r <==> a in db.analyses && a.document == Some(doc) && a.analysisType == Some(t)
  {
    FilterReverse(Filter(db.analyses, ForDocument(doc)), OfType(t));
    FilterFilter(db.analyses, ForDocument(doc), OfType(t), ForDocumentAndType(doc, t));
    Reverse(Filter(db.analyses, ForDocumentAndType(doc, t)))
  }

  /** What a query returning `Optional` yields: no row, one row, or a non-unique-result error. */
  datatype Unique<T> = NoRow | OneRow(row: T) | NotUnique(count: nat)

  /** `findByDocumentAndAnalysisType`: well defined only when at most one row matches. */
  function FindAnalysisOfType(db: Db, doc: Id, t: AnalysisType): (r: Unique<DocumentAnalysis>)
    ensures r.NoRow? <==> |AnalysesOfType(db, doc, t)| == 0
    ensures r.OneRow? <==> |AnalysesOfType(db, doc, t)| == 1
    ensures r.OneRow? ==> r.row in db.analyses && r.row.document == Some(doc) && r.row.analysisType == Some(t)
    ensures r.NotUnique? ==> r.count == |AnalysesOfType(db, doc, t)| >= 2
  {
    var m := Filter(db.analyses, ForDocumentAndType(doc, t));
    assert |AnalysesOfType(db, doc, t)| == |m|;
    if |m| == 0 then NoRow
    else if |m| == 1 then
      assert m[0] in m;
      OneRow(m[0])
    else NotUnique(|m|)
  }

  /** A template analysis (no document) never appears in a per-document result. */
  lemma DocumentlessAnalysesNeverListed(db: Db, a: DocumentAnalysis, doc: Id, t: AnalysisType)
    requires a.document.None?
    ensures a !in AnalysesOf(db, doc) && a !in AnalysesOfType(db, doc, t)
    ensures FindAnalysisOfType(db, doc, t).OneRow? ==> FindAnalysisOfType(db, doc, t).row != a
  {
  }

  // ---------------------------------------------------------------- clauses

  function ClauseForDocument(doc: Id): ExtractedClause -> bool { (c: ExtractedClause) => c.document == doc }
  function ClauseOfLevel(doc: Id, l: ImportanceLevel): ExtractedClause -> bool {
    (c: ExtractedClause) => c.document == doc && c.importanceLevel == l
  }
  function ClauseOfType(doc: Id, clauseType: string): ExtractedClause -> bool {
    (c: ExtractedClause) => c.document == doc && c.clauseType == clauseType
  }

  /** `findByDocumentAndImportanceLevelOrderByCreatedAtDesc`: exact level, newest first. */
  function ClausesOfLevel(db: Db, doc: Id, l: ImportanceLevel): (r: seq<ExtractedClause>)
    ensures forall c :: c in r <==> c in db.clauses && c.document == doc && c.importanceLevel == l
    ensures Valid(db) ==> Decreasing(r, ClauseCreated)
  {
    var mine := Filter(db.clauses, ClauseOfLevel(doc, l));
    if Valid(db) then
      FilterIncreasing(db.clauses, ClauseOfLevel(doc, l), ClauseCreated);
      ReverseOfIncreasing(mine, ClauseCreated);
      Reverse(mine)
    else Reverse(mine)
  }

  /** `findByDocumentAndClauseTypeOrderByCreatedAtDesc`: exact clause type, newest first. */
  function ClausesOfType(db: Db, doc: Id, clauseType: string): (r: seq<ExtractedClause>)
    ensures forall c :: c in r <==> c in db.clauses && c.document == doc && c.clauseType == clauseType
    ensures Valid(db) ==> Decreasing(r, ClauseCreated)
  {
    var mine := Filter(db.clauses, ClauseOfType(doc, clauseType));
    if Valid(db) then
      FilterIncreasing(db.clauses, ClauseOfType(doc, clauseType), ClauseCreated);
      ReverseOfIncreasing(mine, ClauseCreated);
      Reverse(mine)
    else Reverse(mine)
  }

  /**
   * The position of an importance name in descending string order:
   * "MEDIUM" > "LOW" > "HIGH" > "CRITICAL".
   */
  function NameRank(l: ImportanceLevel): nat {
    match l
    case MEDIUM => 0
    case LOW => 1
    case HIGH => 2
    case CRITICAL => 3
  }

  lemma NameRankOrdersNames(a: ImportanceLevel, b: ImportanceLevel)
    ensures NameRank(a) < NameRank(b) <==> LexLess(ImportanceName(b), ImportanceName(a))
  {
    if a == b {
      LexLessIrreflexive(ImportanceName(a));
    }
  }

  /**
   * `a` comes before `b` under `ORDER BY importanceLevel DESC, createdAt DESC`
   * with the level stored as its name.
   */
  predicate ClauseBefore(a: ExtractedClause, b: ExtractedClause) {
    LexLess(ImportanceName(b.importanceLevel), ImportanceName(a.importanceLevel))
    || (a.importanceLevel == b.importanceLevel && ClauseCreated(a) > ClauseCreated(b))
  }

  /** `findByDocumentOrderByImportanceLevelDescCreatedAtDesc`, as its four name groups. */
  function ClauseListing(db: Db, doc: Id): (r: seq<ExtractedClause>)
    ensures multiset(r) == multiset(Filter(db.clauses, ClauseForDocument(doc)))
    ensures forall c :: c in r <==> c in db.clauses && c.document == doc
    ensures Valid(db) ==> SortedBy(r, ClauseBefore)
  {
    GroupsArePartition(db, doc);
    if Valid(db) then
      GroupsAreSorted(db, doc);
      ClauseGroups(db, doc)
    else ClauseGroups(db, doc)
  }

  /** The MEDIUM, LOW, HIGH and CRITICAL groups, each newest first, one after the other. */
  function ClauseGroups(db: Db, doc: Id): seq<ExtractedClause> {
    ClausesOfLevel(db, doc, MEDIUM) + ClausesOfLevel(db, doc, LOW)
    + ClausesOfLevel(db, doc, HIGH) + ClausesOfLevel(db, doc, CRITICAL)
  }

  lemma GroupsArePartition(db: Db, doc: Id)
    ensures multiset(ClauseGroups(db, doc)) == multiset(Filter(db.clauses, ClauseForDocument(doc)))
    ensures forall c :: c in ClauseGroups(db, doc) <==> c in db.clauses && c.document == doc
  {
    var g0 := ClausesOfLevel(db, doc, MEDIUM);
    var g1 := ClausesOfLevel(db, doc, LOW);
    var g2 := ClausesOfLevel(db, doc, HIGH);
    var g3 := ClausesOfLevel(db, doc, CRITICAL);
    assert ClauseGroups(db, doc) == g0 + g1 + g2 + g3;
    assert multiset(g0 + g1 + g2 + g3) == multiset(g0) + multiset(g1) + multiset(g2) + multiset(g3);
    LevelsPartition(db.clauses, doc);
    forall c
      ensures c in g0 + g1 + g2 + g3 <==> c in db.clauses && c.document == doc
    {
      assert c in g0 + g1 + g2 + g3 <==> c in g0 || c in g1 || c in g2 || c in g3;
    }
  }

  lemma GroupsAreSorted(db: Db, doc: Id)
    requires Valid(db)
    ensures SortedBy(ClauseGroups(db, doc), ClauseBefore)
  {
    var g0 := ClausesOfLevel(db, doc, MEDIUM);
    var g1 := ClausesOfLevel(db, doc, LOW);
    var g2 := ClausesOfLevel(db, doc, HIGH);
    var g3 := ClausesOfLevel(db, doc, CRITICAL);
    GroupSorted(db, doc, MEDIUM);
    GroupSorted(db, doc, LOW);
    GroupSorted(db, doc, HIGH);
    GroupSorted(db, doc, CRITICAL);
    GroupsInOrder(g0, g1, MEDIUM, LOW);
    ConcatSorted(g0, g1, ClauseBefore);
    GroupsInOrder2(g0, g1, g2, MEDIUM, LOW, HIGH);
    ConcatSorted(g0 + g1, g2, ClauseBefore);
    GroupsInOrder3(g0 + g1, g2, g3, MEDIUM, LOW, HIGH, CRITICAL);
    ConcatSorted(g0 + g1 + g2, g3, ClauseBefore);
  }

  /** Each clause of the document is in exactly one level group. */
  lemma {:induction false} LevelsPartition(cs: seq<ExtractedClause>, doc: Id)
    ensures multiset(Filter(cs, ClauseForDocument(doc)))
      == multiset(Filter(cs, ClauseOfLevel(doc, MEDIUM))) + multiset(Filter(cs, ClauseOfLevel(doc, LOW)))
       + multiset(Filter(cs, ClauseOfLevel(doc, HIGH))) + multiset(Filter(cs, ClauseOfLevel(doc, CRITICAL)))
  {
    if |cs| > 0 {
      LevelsPartition(cs[1..], doc);
      FilterCons(cs, ClauseForDocument(doc));
      FilterCons(cs, ClauseOfLevel(doc, MEDIUM));
      FilterCons(cs, ClauseOfLevel(doc, LOW));
      FilterCons(cs, ClauseOfLevel(doc, HIGH));
      FilterCons(cs, ClauseOfLevel(doc, CRITICAL));
    }
  }

  lemma GroupSorted(db: Db, doc: Id, l: ImportanceLevel)
    requires Valid(db)
    ensures SortedBy(ClausesOfLevel(db, doc, l), ClauseBefore)
  {
    var g := ClausesOfLevel(db, doc, l);
    forall i, j | 0 <= i < j < |g|
      ensures ClauseBefore(g[i], g[j])
    {
      assert g[i] in g && g[j] in g;
    }
  }

  lemma GroupsInOrder(a: seq<ExtractedClause>, b: seq<ExtractedClause>, la: ImportanceLevel, lb: ImportanceLevel)
    requires forall c | c in a :: c.importanceLevel == la
    requires forall c | c in b :: c.importanceLevel == lb
    requires NameRank(la) < NameRank(lb)
    ensures forall x, y | x in a && y in b :: ClauseBefore(x, y)
  {
    NameRankOrdersNames(la, lb);
  }

  lemma GroupsInOrder2(a: seq<ExtractedClause>, b: seq<ExtractedClause>, c: seq<ExtractedClause>,
                       la: ImportanceLevel, lb: ImportanceLevel, lc: ImportanceLevel)
    requires forall x | x in a :: x.importanceLevel == la
    requires forall x | x in b :: x.importanceLevel == lb
    requires forall x | x in c :: x.importanceLevel == lc
    requires NameRank(la) < NameRank(lc) && NameRank(lb) < NameRank(lc)
    ensures forall x, y | x in a + b && y in c :: ClauseBefore(x, y)
  {
    NameRankOrdersNames(la, lc);
    NameRankOrdersNames(lb, lc);
  }

  lemma GroupsInOrder3(ab: seq<ExtractedClause>, c: seq<ExtractedClause>, d: seq<ExtractedClause>,
                       la: ImportanceLevel, lb: ImportanceLevel, lc: ImportanceLevel, ld: ImportanceLevel)
    requires forall x | x in ab :: x.importanceLevel == la || x.importanceLevel == lb
    requires forall x | x in c :: x.importanceLevel == lc
    requires forall x | x in d :: x.importanceLevel == ld
    requires NameRank(la) < NameRank(ld) && NameRank(lb) < NameRank(ld) && NameRank(lc) < NameRank(ld)
    ensures forall x, y | x in ab + c && y in d :: ClauseBefore(x, y)
  {
    NameRankOrdersNames(la, ld);
    NameRankOrdersNames(lb, ld);
    NameRankOrdersNames(lc, ld);
  }

  /** Because the order is by name, every CRITICAL clause is listed after every other clause. */
  lemma CriticalClausesLast(db: Db, doc: Id)
    requires Valid(db)
    ensures var r := ClauseListing(db, doc);
      forall i, j | 0 <= i < |r| && 0 <= j < |r| && r[i].importanceLevel == CRITICAL && r[j].importanceLevel != CRITICAL :: j < i
  {
    var r := ClauseListing(db, doc);
    forall i, j | 0 <= i < |r| && 0 <= j < |r| && r[i].importanceLevel == CRITICAL && r[j].importanceLevel != CRITICAL
      ensures j < i
    {
      CriticalAfterOthers(r, i, j);
    }
  }

  lemma CriticalAfterOthers(r: seq<ExtractedClause>, i: nat, j: nat)
    requires SortedBy(r, ClauseBefore)
    requires i < |r| && j < |r|
    requires r[i].importanceLevel == CRITICAL && r[j].importanceLevel != CRITICAL
    ensures j < i
  {
    if i < j {
      assert ClauseBefore(r[i], r[j]);
      NameRankOrdersNames(CRITICAL, r[j].importanceLevel);
      assert false;
    }
  }

  /** The four importance filters together give back the document's whole clause set. */
  lemma LevelsCoverClauses(db: Db, doc: Id, c: ExtractedClause)
    ensures c in db.clauses && c.document == doc <==>
      c in ClausesOfLevel(db, doc, LOW) || c in ClausesOfLevel(db, doc, MEDIUM)
      || c in ClausesOfLevel(db, doc, HIGH) || c in ClausesOfLevel(db, doc, CRITICAL)
  {
  }
}

=== FILE: seqs.dfy ===
/**
 * Sequence operations the repositories are built from: filtering (a `WHERE`),
 * reversal (`ORDER BY createdAt DESC` over a table kept in creation order),
 * first match, and ordering predicates.
 */
module Seqs {
  import opened Wrappers

  /** The elements of `xs` satisfying `p`, in their original order. */
  function Filter<T(!new)>(xs: seq<T>, p: T -> bool): (r: seq<T>)
    ensures |r| <= |xs|
    ensures forall x :: x in r <==> x in xs && p(x)
    ensures forall i | 0 <= i < |r| :: p(r[i])
  {
    if |xs| == 0 then []
    else if p(xs[0]) then [xs[0]] + Filter(xs[1..], p)
    else Filter(xs[1..], p)
  }

  /** `xs` back to front. */
  function Reverse<T(!new)>(xs: seq<T>): (r: seq<T>)
    ensures |r| == |xs|
    ensures forall i | 0 <= i < |xs| :: r[i] == xs[|xs| - 1 - i]
    ensures multiset(r) == multiset(xs)
    ensures forall x :: x in r <==> x in xs
  {
    if |xs| == 0 then []
    else
      assert xs == [xs[0]] + xs[1..];
      Reverse(xs[1..]) + [xs[0]]
  }

  /** The first element satisfying `p`, if any. */
  function FindFirst<T(!new)>(xs: seq<T>, p: T -> bool): (r: Option<T>)
    ensures r.Some? ==> r.value in xs && p(r.value)
    ensures r.None? <==> forall x | x in xs :: !p(x)
  {
    if |xs| == 0 then None
    else if p(xs[0]) then Some(xs[0])
    else FindFirst(xs[1..], p)
  }

  /** `key` strictly increases along `xs`. */
  predicate Increasing<T>(xs: seq<T>, key: T -> int) {
    forall i, j | 0 <= i < j < |xs| :: key(xs[i]) < key(xs[j])
  }

  /** `key` strictly decreases along `xs`. */
  predicate Decreasing<T>(xs: seq<T>, key: T -> int) {
    forall i, j | 0 <= i < j < |xs| :: key(xs[i]) > key(xs[j])
  }

  /** Every earlier element stands in relation `before` to every later one. */
  predicate SortedBy<T>(xs: seq<T>, before: (T, T) -> bool) {
    forall i, j | 0 <= i < j < |xs| :: before(xs[i], xs[j])
  }

  lemma {:induction false} FilterIncreasing<T(!new)>(xs: seq<T>, p: T -> bool, key: T -> int)
    requires Increasing(xs, key)
    ensures Increasing(Filter(xs, p), key)
  {
    if |xs| > 0 {
      var tail := xs[1..];
      assert Increasing(tail, key) by {
        forall i, j | 0 <= i < j < |tail|
          ensures key(tail[i]) < key(tail[j])
        {
          assert tail[i] == xs[i + 1] && tail[j] == xs[j + 1];
        }
      }
      FilterIncreasing(tail, p, key);
      if p(xs[0]) {
        var r := [xs[0]] + Filter(tail, p);
        forall i, j | 0 <= i < j < |r|
          ensures key(r[i]) < key(r[j])
        {
          if i == 0 {
            var y := r[j];
            assert y in Filter(tail, p);
            assert y in tail;
            var k :| 0 <= k < |tail| && tail[k] == y;
            assert xs[k + 1] == y;
          }
        }
      }
    }
  }

  lemma ReverseOfIncreasing<T(!new)>(xs: seq<T>, key: T -> int)
    requires Increasing(xs, key)
    ensures Decreasing(Reverse(xs), key)
  {
    var r := Reverse(xs);
    forall i, j | 0 <= i < j < |r|
      ensures key(r[i]) > key(r[j])
    {
      assert r[i] == xs[|xs| - 1 - i] && r[j] == xs[|xs| - 1 - j];
    }
  }

  /** Filtering twice is filtering once by the conjunction. */
  lemma {:induction false} FilterFilter<T(!new)>(xs: seq<T>, p: T -> bool, q: T -> bool, pq: T -> bool)
    requires forall x :: pq(x) == (p(x) && q(x))
    ensures Filter(Filter(xs, p), q) == Filter(xs, pq)
  {
    if |xs| > 0 {
      FilterFilter(xs[1..], p, q, pq);
      if p(xs[0]) {
        assert Filter(xs, p) == [xs[0]] + Filter(xs[1..], p);
        assert ([xs[0]] + Filter(xs[1..], p))[1..] == Filter(xs[1..], p);
      }
    }
  }

  /** Filtering commutes with reversal: a filter keeps the order of what it keeps. */
  lemma {:induction false} FilterReverse<T(!new)>(xs: seq<T>, p: T -> bool)
    ensures Filter(Reverse(xs), p) == Reverse(Filter(xs, p))
  {
    if |xs| > 0 {
      FilterReverse(xs[1..], p);
      FilterAppend(Reverse(xs[1..]), [xs[0]], p);
    }
  }

  lemma {:induction false} FilterAppend<T(!new)>(a: seq<T>, b: seq<T>, p: T -> bool)
    ensures Filter(a + b, p) == Filter(a, p) + Filter(b, p)
  {
    if |a| > 0 {
      assert (a + b)[1..] == a[1..] + b;
      FilterAppend(a[1..], b, p);
    } else {
      assert a + b == b;
    }
  }

  /** One step of a filter: the head is kept exactly when it satisfies `p`. */
  lemma FilterCons<T(!new)>(xs: seq<T>, p: T -> bool)
    requires |xs| > 0
    ensures Filter(xs, p) == (if p(xs[0]) then [xs[0]] else []) + Filter(xs[1..], p)
  {
  }

  /** Concatenating two sorted runs, each element of the first before each of the second, is sorted. */
  lemma ConcatSorted<T>(a: seq<T>, b: seq<T>, before: (T, T) -> bool)
    requires SortedBy(a, before) && SortedBy(b, before)
    requires forall x, y | x in a && y in b :: before(x, y)
    ensures SortedBy(a + b, before)
  {
    var c := a + b;
    forall i, j | 0 <= i < j < |c|
      ensures before(c[i], c[j])
    {
      if j < |a| {
        assert c[i] == a[i] && c[j] == a[j];
      } else if i >= |a| {
        assert c[i] == b[i - |a|] && c[j] == b[j - |a|];
      } else {
        assert c[i] == a[i] && c[j] == b[j - |a|];
        assert c[i] in a && c[j] in b;
      }
    }
  }

  /** The element appended last comes first once reversed. */
  lemma {:induction false} ReverseSnoc<T(!new)>(xs: seq<T>, x: T)
    ensures Reverse(xs + [x]) == [x] + Reverse(xs)
    decreases |xs|
  {
    if |xs| > 0 {
      assert (xs + [x])[1..] == xs[1..] + [x];
      ReverseSnoc(xs[1..], x);
    }
  }
}

=== FILE: templates_page.dfy ===
/**
 * The template generator page (`app/dashboard/templates/page.tsx`): choosing a
 * template type, validating and sending the requirements, showing the answer,
 * the download file name, and the Back button.
 */
module TemplatesPage {
  import opened Wrappers
  import opened Text
  import GeminiAi
  import Repository
  import AiApi
  import Toaster

  /** One card of the template picker (description and icon are display only). */
  datatype TemplateType = TemplateType(id: string, name: string)

  const TemplateTypes: seq<TemplateType> := [
    TemplateType("nda", "Non-Disclosure Agreement (NDA)"),
    TemplateType("service-agreement", "Service Agreement"),
    TemplateType("employment-contract", "Employment Contract"),
    TemplateType("rental-agreement", "Rental Agreement"),
    TemplateType("purchase-agreement", "Purchase Agreement"),
    TemplateType("partnership-agreement", "Partnership Agreement")
  ]

  const MissingInputMessage: string := "Please select a template type and provide requirements"
  const GeneratedMessage: string := "Template generated successfully!"
  const FallbackFilename: string := "template"
  const TextSuffix: string := ".txt"

  /**
   * The page's state. `generatedTemplate` holds whatever the last answer's
   * `result` was, which may be `null`; `loading` is the mutation's `isLoading`.
   */
  datatype TemplatesState = TemplatesState(
    selectedTemplate: string, requirements: string, generatedTemplate: Option<string>,
    showForm: bool, loading: bool)

  const InitialState: TemplatesState := TemplatesState("", "", Some(""), false, false)

  /** A click on a card: the type is selected and the form shown. */
  function SelectTemplate(s: TemplatesState, t: TemplateType): (r: TemplatesState)
    ensures r.selectedTemplate == t.id && r.showForm
    ensures r.requirements == s.requirements && r.generatedTemplate == s.generatedTemplate
  {
    s.(selectedTemplate := t.id, showForm := true)
  }

  /** What submitting the form does: refuse with a toast, or send the request body. */
  datatype Submission = Refused(message: string) | Sent(templateType: string, requirements: string)

  /**
   * `handleGenerateTemplate`: no request unless a type is selected and the
   * requirements are not blank; the requirements go out trimmed.
   */
  function Submit(s: TemplatesState): (r: Submission)
    ensures r.Refused? <==> |s.selectedTemplate| == 0 || |JsTrim(s.requirements)| == 0
    ensures r.Refused? ==> r.message == MissingInputMessage
    ensures r.Sent? ==> r.templateType == s.selectedTemplate && r.requirements == JsTrim(s.requirements)
  {
    if |s.selectedTemplate| == 0 || |JsTrim(s.requirements)| == 0 then Refused(MissingInputMessage)
    else Sent(s.selectedTemplate, JsTrim(s.requirements))
  }

  /** The requirements that are sent are non-empty and have nothing left to trim. */
  lemma SentRequirementsAreTrimmed(s: TemplatesState)
    requires Submit(s).Sent?
    ensures |Submit(s).requirements| > 0
    ensures JsTrim(Submit(s).requirements) == Submit(s).requirements
  {
    TrimIdempotent(s.requirements, IsJsWhitespace);
  }

  /** The Generate button is disabled while the requirements are blank or a request is in flight. */
  predicate GenerateDisabled(s: TemplatesState) {
    |JsTrim(s.requirements)| == 0 || s.loading
  }

  /** Once a card has been picked, an enabled Generate button always sends the request. */
  lemma EnabledButtonSends(s: TemplatesState, t: TemplateType)
    requires t in TemplateTypes
    ensures var picked := SelectTemplate(s, t);
      !GenerateDisabled(picked) ==> Submit(picked).Sent?
  {
  }

  /** `onSuccess`: the shown template becomes the answer's `result` and a success toast is raised. */
  function OnSuccess(s: TemplatesState, data: AiApi.AnalysisResponse): (r: (TemplatesState, Toaster.ToastType, string))
    ensures r.0.generatedTemplate == data.result
    ensures r.0.selectedTemplate == s.selectedTemplate && r.0.requirements == s.requirements
    ensures r.1 == Toaster.Success && r.2 == GeneratedMessage
  {
    (s.(generatedTemplate := data.result), Toaster.Success, GeneratedMessage)
  }

  /** The generated-template panel is rendered only for a truthy template. */
  predicate ShowsTemplate(s: TemplatesState) {
    JsTruthy(s.generatedTemplate)
  }

  /**
   * A failed generation still answers 200, so the page reports success while it
   * has no template to show.
   */
  lemma FailedGenerationReportsSuccess(db: Repository.Db, gw: GeminiAi.Gateway, s: TemplatesState, templateType: string, requirements: string)
    requires GeminiAi.CallGemini(gw, GeminiAi.TemplatePrompt(Some(templateType), Some(requirements))).Failure?
    ensures var reply := AiApi.Template(db, gw, Some(templateType), Some(requirements));
      reply.response.Ok? && reply.response.body.status == "FAILED"
      && var after := OnSuccess(s, reply.response.body);
      after.1 == Toaster.Success && !ShowsTemplate(after.0)
  {
    var reply := AiApi.Template(db, gw, Some(templateType), Some(requirements));
    var saved := GeminiAi.GenerateTemplate(db, gw, Some(templateType), Some(requirements));
    assert reply.response.body.result == saved.row.result;
  }

  /** The Back button: the form is hidden and the three text fields are cleared. */
  function Back(s: TemplatesState): (r: TemplatesState)
    ensures !r.showForm && r.selectedTemplate == "" && r.requirements == "" && r.generatedTemplate == Some("")
    ensures r.loading == s.loading
  {
    s.(showForm := false, selectedTemplate := "", requirements := "", generatedTemplate := Some(""))
  }

  /** After Back nothing can be sent until a card is picked again, and no template is shown. */
  lemma BackClearsForm(s: TemplatesState)
    ensures Submit(Back(s)).Refused? && !ShowsTemplate(Back(s))
  {
  }

  // ---------------------------------------------------------------- download name

  /** `replace(/\s+/g, '-')`: every maximal run of whitespace becomes one hyphen. */
  function CollapseWhitespace(s: string): (r: string)
    ensures forall k | 0 <= k < |r| :: !IsJsWhitespace(r[k])
    ensures |r| <= |s|
    ensures (forall k | 0 <= k < |s| :: !IsJsWhitespace(s[k])) ==> r == s
    ensures |s| > 0 ==> |r| > 0
    decreases |s|
  {
    if |s| == 0 then ""
    else if IsJsWhitespace(s[0]) then
      var n := LeadingCount(s, IsJsWhitespace);
      var rest := CollapseWhitespace(s[n..]);
      assert IsJsWhitespace(s[0]);
      "-" + rest
    else
      [s[0]] + CollapseWhitespace(s[1..])
  }

  /** The first template type with the id: `templateTypes.find(t => t.id === id)`. */
  function FindTemplate(types: seq<TemplateType>, id: string): (r: Option<TemplateType>)
    ensures r.Some? ==> r.value in types && r.value.id == id
    ensures r.None? <==> forall k | 0 <= k < |types| :: types[k].id != id
  {
    if |types| == 0 then None
    else if types[0].id == id then Some(types[0])
    else FindTemplate(types[1..], id)
  }

  /**
   * The download name among the page's cards `types` (`templateTypes`): the
   * selected type's name, lower-cased, with whitespace runs turned into hyphens,
   * or "template" when no type matches or that leaves nothing; then ".txt".
   */
  function DownloadFilename(types: seq<TemplateType>, selectedTemplate: string): (r: string)
    ensures EndsWith(r, TextSuffix)
    ensures forall k | 0 <= k < |r| :: !IsJsWhitespace(r[k])
    ensures FindTemplate(types, selectedTemplate).None? ==> r == FallbackFilename + TextSuffix
    ensures (FindTemplate(types, selectedTemplate).Some?
             && |CollapseWhitespace(Lower(FindTemplate(types, selectedTemplate).value.name))| > 0) ==>
      r == CollapseWhitespace(Lower(FindTemplate(types, selectedTemplate).value.name)) + TextSuffix
  {
    var base := match FindTemplate(types, selectedTemplate)
      case Some(t) => CollapseWhitespace(Lower(t.name))
      case None => "";
    var stem := if |base| > 0 then base else FallbackFilename;
    assert (stem + TextSuffix)[|stem|..] == TextSuffix;
    stem + TextSuffix
  }

  /**
   * For every card on the page the download is named after the card: its name,
   * lower-cased with whitespace runs hyphenated, then ".txt".
   */
  lemma KnownTemplateFilename(selectedTemplate: string)
    ensures FindTemplate(TemplateTypes, selectedTemplate).Some? ==>
      DownloadFilename(TemplateTypes, selectedTemplate)
      == CollapseWhitespace(Lower(FindTemplate(TemplateTypes, selectedTemplate).value.name)) + TextSuffix
  {
    if FindTemplate(TemplateTypes, selectedTemplate).Some? {
      var t := FindTemplate(TemplateTypes, selectedTemplate).value;
      assert forall u | u in TemplateTypes :: |u.name| > 0;
      assert |Lower(t.name)| > 0;
    }
  }

  /** `s` has no whitespace character. */
  predicate IsWord(s: string)
    decreases |s|
  {
    |s| == 0 || (!IsJsWhitespace(s[0]) && IsWord(s[1..]))
  }

  /** Text without whitespace is copied through, whatever follows it. */
  lemma {:induction false} CollapseAfterWord(a: string, t: string)
    requires IsWord(a)
    ensures CollapseWhitespace(a + t) == a + CollapseWhitespace(t)
    decreases |a|
  {
    if |a| > 0 {
      CollapseAfterWord(a[1..], t);
      var u := a[1..] + t;
      assert a + t == [a[0]] + u;
      CollapseKeepsWordChar(a[0], u);
      assert a == [a[0]] + a[1..];
    } else {
      assert a + t == t;
    }
  }

  /** One step of the collapse: a character that is not whitespace is kept. */
  lemma CollapseKeepsWordChar(c: char, u: string)
    requires !IsJsWhitespace(c)
    ensures CollapseWhitespace([c] + u) == [c] + CollapseWhitespace(u)
  {
    assert ([c] + u)[1..] == u;
  }

  /** A run of whitespace in front of a non-whitespace character becomes a single hyphen. */
  lemma CollapseRun(w: string, c: char, t: string)
    requires |w| > 0 && forall k | 0 <= k < |w| :: IsJsWhitespace(w[k])
    requires !IsJsWhitespace(c)
    ensures CollapseWhitespace(w + [c] + t) == "-" + CollapseWhitespace([c] + t)
  {
    var s := w + [c] + t;
    RunLength(w, [c] + t);
    assert s == w + ([c] + t);
    assert s[|w|..] == [c] + t;
  }

  lemma {:induction false} RunLength(w: string, u: string)
    requires forall k | 0 <= k < |w| :: IsJsWhitespace(w[k])
    requires |u| > 0 && !IsJsWhitespace(u[0])
    ensures LeadingCount(w + u, IsJsWhitespace) == |w|
    decreases |w|
  {
    if |w| > 0 {
      assert (w + u)[1..] == w[1..] + u;
      RunLength(w[1..], u);
    } else {
      assert w + u == u;
    }
  }
}

=== FILE: text.dfy ===
/**
 * String helpers with the semantics of the Java and JavaScript library calls the
 * code makes: `trim`, `StringUtils.hasText`, `startsWith`, `includes`/`LIKE`,
 * `lastIndexOf`, case mapping, and decimal rendering of numbers.
 */
module Text {
  import opened Wrappers

  /** Java's `"" + s` and `prefix + s` render a null reference as the four letters "null". */
  function JavaStr(s: Option<string>): (r: string)
    ensures s.Some? ==> r == s.value
    ensures s.None? ==> r == "null"
  {
    match s
    case Some(v) => v
    case None => "null"
  }

  // ---------------------------------------------------------------- prefixes, infixes

  predicate StartsWith(s: string, prefix: string) {
    |prefix| <= |s| && s[..|prefix|] == prefix
  }

  predicate EndsWith(s: string, suffix: string) {
    |suffix| <= |s| && s[|s| - |suffix|..] == suffix
  }

  /** `sub` occurs in `s` starting at index `i`. */
  predicate OccursAt(s: string, sub: string, i: int) {
    0 <= i && i + |sub| <= |s| && s[i..i + |sub|] == sub
  }

  /** Where the two pieces of `a + b` sit. */
  lemma Pieces2(a: string, b: string)
    ensures StartsWith(a + b, a) && EndsWith(a + b, b)
  {
    var s := a + b;
    assert s[..|a|] == a;
    assert s[|s| - |b|..] == b;
  }

  /** Where the four pieces of `a + b + c + d` sit. */
  lemma Pieces4(a: string, b: string, c: string, d: string)
    ensures StartsWith(a + b + c + d, a) && OccursAt(a + b + c + d, b, |a|)
    ensures OccursAt(a + b + c + d, c, |a| + |b|) && EndsWith(a + b + c + d, d)
  {
    var s := a + b + c + d;
    assert s[..|a|] == a;
    assert s[|a|..|a| + |b|] == b;
    assert s[|a| + |b|..|a| + |b| + |c|] == c;
    assert s[|s| - |d|..] == d;
  }

  /** Where the five pieces of `a + b + c + d + e` sit. */
  lemma Pieces5(a: string, b: string, c: string, d: string, e: string)
    ensures StartsWith(a + b + c + d + e, a) && OccursAt(a + b + c + d + e, b, |a|)
    ensures OccursAt(a + b + c + d + e, d, |a| + |b| + |c|) && EndsWith(a + b + c + d + e, e)
  {
    var s := a + b + c + d + e;
    assert s[..|a|] == a;
    assert s[|a|..|a| + |b|] == b;
    assert s[|a| + |b| + |c|..|a| + |b| + |c| + |d|] == d;
    assert s[|s| - |e|..] == e;
  }

  /** JavaScript `s.includes(sub)`, Java `s.contains(sub)`. */
  predicate Contains(s: string, sub: string)
    decreases |s|
  {
    StartsWith(s, sub) || (|s| > 0 && Contains(s[1..], sub))
  }

  lemma {:induction false} ContainsIffOccurs(s: string, sub: string)
    ensures Contains(s, sub) <==> exists i :: OccursAt(s, sub, i)
    decreases |s|
  {
    if StartsWith(s, sub) {
      assert OccursAt(s, sub, 0);
    } else if |s| > 0 {
      ContainsIffOccurs(s[1..], sub);
      if Contains(s[1..], sub) {
        var i :| OccursAt(s[1..], sub, i);
        assert s[1..][i..i + |sub|] == s[i + 1..i + 1 + |sub|];
        assert OccursAt(s, sub, i + 1);
      }
      if exists i :: OccursAt(s, sub, i) {
        var i :| OccursAt(s, sub, i);
        assert i != 0;
        assert s[1..][i - 1..i - 1 + |sub|] == s[i..i + |sub|];
        assert OccursAt(s[1..], sub, i - 1);
      }
    }
  }

  // ---------------------------------------------------------------- whitespace and trim

  /** The characters Java's `String.trim()` removes: every code point up to U+0020. */
  predicate IsJavaTrimmable(c: char) {
    c <= ' '
  }

  /** Java's `Character.isWhitespace`, used by Spring's `StringUtils.hasText`. */
  predicate IsJavaWhitespace(c: char) {
    var k := c as int;
    (0x09 <= k <= 0x0D) || (0x1C <= k <= 0x20) || k == 0x1680
    || (0x2000 <= k <= 0x2006) || (0x2008 <= k <= 0x200A)
    || k == 0x2028 || k == 0x2029 || k == 0x205F || k == 0x3000
  }

  /** ECMAScript WhiteSpace and LineTerminator: what `String.prototype.trim` and the regex class `\s` match. */
  predicate IsJsWhitespace(c: char) {
    var k := c as int;
    (0x09 <= k <= 0x0D) || k == 0x20 || k == 0xA0 || k == 0x1680
    || (0x2000 <= k <= 0x200A) || k == 0x2028 || k == 0x2029
    || k == 0x202F || k == 0x205F || k == 0x3000 || k == 0xFEFF
  }

  /** The number of leading characters of `s` that satisfy `ws`. */
  function LeadingCount(s: string, ws: char -> bool): (n: nat)
    ensures n <= |s|
    ensures forall k | 0 <= k < n :: ws(s[k])
    ensures n < |s| ==> !ws(s[n])
  {
    if |s| == 0 || !ws(s[0]) then 0 else 1 + LeadingCount(s[1..], ws)
  }

  /** The number of trailing characters of `s` that satisfy `ws`. */
  function TrailingCount(s: string, ws: char -> bool): (n: nat)
    ensures n <= |s|
    ensures forall k | |s| - n <= k < |s| :: ws(s[k])
    ensures n < |s| ==> !ws(s[|s| - n - 1])
  {
    if |s| == 0 || !ws(s[|s| - 1]) then 0 else 1 + TrailingCount(s[..|s| - 1], ws)
  }

  /**
   * Removes the longest prefix and the longest suffix made of `ws` characters.
   * The result is the window of `s` starting at `LeadingCount(s, ws)`, and every
   * character of `s` outside that window satisfies `ws`.
   */
  function Trim(s: string, ws: char -> bool): (r: string)
    ensures |r| <= |s|
    ensures LeadingCount(s, ws) + |r| <= |s|
    ensures r == s[LeadingCount(s, ws)..LeadingCount(s, ws) + |r|]
    ensures forall k | 0 <= k < |s| && !(LeadingCount(s, ws) <= k < LeadingCount(s, ws) + |r|) :: ws(s[k])
    ensures |r| > 0 ==> !ws(r[0]) && !ws(r[|r| - 1])
    ensures |r| == 0 <==> forall k | 0 <= k < |s| :: ws(s[k])
  {
    var a := LeadingCount(s, ws);
    var t := s[a..];
    var b := TrailingCount(t, ws);
    var r := t[..|t| - b];
    assert r == s[a..a + |r|];
    r
  }

  /** Java's `String.trim()`. */
  function JavaTrim(s: string): string {
    Trim(s, IsJavaTrimmable)
  }

  /** JavaScript's `String.prototype.trim()`. */
  function JsTrim(s: string): string {
    Trim(s, IsJsWhitespace)
  }

  lemma TrimIdempotent(s: string, ws: char -> bool)
    ensures Trim(Trim(s, ws), ws) == Trim(s, ws)
  {
    var r := Trim(s, ws);
    var rr := Trim(r, ws);
    if |r| > 0 {
      assert LeadingCount(r, ws) == 0;
      assert TrailingCount(r, ws) == 0;
    }
  }

  /** Java's "blank after trim": `s.trim().isEmpty()`. */
  predicate IsJavaBlank(s: string) {
    |JavaTrim(s)| == 0
  }

  /** Spring's `StringUtils.hasText`: non-null, and some character is not Java whitespace. */
  predicate HasText(s: Option<string>) {
    s.Some? && exists k | 0 <= k < |s.value| :: !IsJavaWhitespace(s.value[k])
  }

  /** A JavaScript string in a condition: `undefined`, `null` and `""` are falsy. */
  predicate JsTruthy(s: Option<string>) {
    s.Some? && |s.value| > 0
  }

  // ---------------------------------------------------------------- case mapping

  /** ASCII lower-casing; used for JavaScript `toLowerCase()` and SQL `LOWER`. */
  function LowerChar(c: char): (r: char)
    ensures 'A' <= c <= 'Z' ==> r as int == c as int + 32
    ensures !('A' <= c <= 'Z') ==> r == c
  {
    if 'A' <= c <= 'Z' then (c as int + 32) as char else c
  }

  function Lower(s: string): (r: string)
    ensures |r| == |s|
    ensures forall k | 0 <= k < |s| :: r[k] == LowerChar(s[k])
  {
    seq(|s|, k requires 0 <= k < |s| => LowerChar(s[k]))
  }

  /**
   * Java `toUpperCase()` (root locale) restricted to the characters whose upper
   * case is an ASCII letter: `a`-`z`, dotless i (U+0131) and long s (U+017F).
   */
  function UpperChar(c: char): (r: char)
    ensures 'a' <= c <= 'z' ==> r as int == c as int - 32
  {
    if 'a' <= c <= 'z' then (c as int - 32) as char
    else if c == '\U{0131}' then 'I'
    else if c == '\U{017F}' then 'S'
    else c
  }

  function Upper(s: string): (r: string)
    ensures |r| == |s|
    ensures forall k | 0 <= k < |s| :: r[k] == UpperChar(s[k])
  {
    seq(|s|, k requires 0 <= k < |s| => UpperChar(s[k]))
  }

  /** Case-insensitive substring test, as `LOWER(x) LIKE LOWER(CONCAT('%', t, '%'))`. */
  predicate ContainsIgnoreCase(s: string, term: string) {
    Contains(Lower(s), Lower(term))
  }

  /** Lexicographic order on character codes, the order of a binary collation. */
  predicate LexLess(a: string, b: string) {
    if |a| == 0 then |b| > 0
    else |b| > 0 && (a[0] < b[0] || (a[0] == b[0] && LexLess(a[1..], b[1..])))
  }

  lemma {:induction false} LexLessIrreflexive(a: string)
    ensures !LexLess(a, a)
  {
    if |a| > 0 {
      LexLessIrreflexive(a[1..]);
    }
  }

  // ---------------------------------------------------------------- indexOf

  /** Java's `s.lastIndexOf(c)`: the index of the last occurrence of `c`, or -1. */
  function LastIndexOf(s: string, c: char): (r: int)
    ensures -1 <= r < |s|
    ensures r == -1 <==> c !in s
    ensures r >= 0 ==> s[r] == c
    ensures forall k | r < k < |s| :: s[k] != c
  {
    if |s| == 0 then -1
    else if s[|s| - 1] == c then |s| - 1
    else LastIndexOf(s[..|s| - 1], c)
  }

  // ---------------------------------------------------------------- numbers

  predicate IsDigit(c: char) {
    '0' <= c <= '9'
  }

  function DigitChar(d: nat): (c: char)
    requires d < 10
    ensures IsDigit(c)
    ensures c as int - '0' as int == d
  {
    ('0' as int + d) as char
  }

  /** Decimal rendering of a natural number: Java `Long.toString`, JavaScript `String(n)` and `n.toString()`. */
  function NatToString(n: nat): (r: string)
    ensures |r| > 0
    ensures forall k | 0 <= k < |r| :: IsDigit(r[k])
    ensures |r| > 1 ==> r[0] != '0'
    decreases n
  {
    if n < 10 then [DigitChar(n)] else NatToString(n / 10) + [DigitChar(n % 10)]
  }

  /** The value of a string of decimal digits. */
  function DigitsValue(s: string): nat
    requires forall k | 0 <= k < |s| :: IsDigit(s[k])
  {
    if |s| == 0 then 0
    else
      assert IsDigit(s[|s| - 1]);
      DigitsValue(s[..|s| - 1]) * 10 + (s[|s| - 1] as int - '0' as int)
  }

  /** Reads a non-empty string of decimal digits back as a number; `None` for anything else. */
  function ParseNat(s: string): (r: Option<nat>)
    ensures r.Some? <==> |s| > 0 && forall k | 0 <= k < |s| :: IsDigit(s[k])
  {
    if |s| > 0 && forall k | 0 <= k < |s| :: IsDigit(s[k]) then Some(DigitsValue(s)) else None
  }

  lemma {:induction false} DigitsValueOfNatToString(n: nat)
    ensures DigitsValue(NatToString(n)) == n
    decreases n
  {
    if n >= 10 {
      var a := NatToString(n / 10);
      var s := a + [DigitChar(n % 10)];
      assert s[..|s| - 1] == a;
      DigitsValueOfNatToString(n / 10);
    }
  }

  /** Round trip: reading back a rendered number gives the number. */
  lemma ParseNatToString(n: nat)
    ensures ParseNat(NatToString(n)) == Some(n)
  {
    DigitsValueOfNatToString(n);
  }

  /** Distinct numbers render as distinct strings. */
  lemma NatToStringInjective(m: nat, n: nat)
    ensures NatToString(m) == NatToString(n) ==> m == n
  {
    ParseNatToString(m);
    ParseNatToString(n);
  }
}

=== FILE: toaster.dfy ===
/**
 * The client's toast store (`components/ui/Toaster.tsx`): a module-level counter,
 * the list of visible toasts and the mounted `Toaster` components that receive a
 * copy of the list after every change.
 */
module Toaster {
  import opened Wrappers
  import opened Text

  datatype ToastType = Success | Error | Warning | Info

  datatype Toast = Toast(id: string, kind: ToastType, message: string, duration: Option<int>)

  /**
   * The store: `toastCounter`, `toasts`, and for each registered listener (a mounted
   * `Toaster`, in registration order) the list it last received.
   */
  datatype Store = Store(counter: nat, toasts: seq<Toast>, views: seq<seq<Toast>>)

  const InitialStore: Store := Store(0, [], [])

  /** The default display time, used when no duration (or a zero one) is given. */
  const DefaultDuration: int := 5000

  /** The number a toast id was rendered from, or -1 for an id that is not a decimal number. */
  function IdNumber(t: Toast): int {
    match ParseNat(t.id)
    case Some(n) => n
    case None => -1
  }

  /** Every view shows the current list. */
  predicate InSync(s: Store) {
    forall v | 0 <= v < |s.views| :: s.views[v] == s.toasts
  }

  /** Every listener is handed a copy of `toasts`. */
  function Broadcast(views: seq<seq<Toast>>, toasts: seq<Toast>): (r: seq<seq<Toast>>)
    ensures |r| == |views|
    ensures forall v | 0 <= v < |r| :: r[v] == toasts
  {
    seq(|views|, v requires 0 <= v < |views| => toasts)
  }

  /** The store with a new list, handed to every listener (`listeners.forEach(l => l([...toasts]))`). */
  function Publish(s: Store, toasts: seq<Toast>): (r: Store)
    ensures r.counter == s.counter && r.toasts == toasts
    ensures |r.views| == |s.views| && InSync(r)
  {
    Store(s.counter, toasts, Broadcast(s.views, toasts))
  }

  /**
   * The store's invariant: every visible toast carries a number already issued by
   * the counter, and the list is ordered by strictly increasing number.
   */
  predicate Valid(s: Store) {
    (forall i | 0 <= i < |s.toasts| :: 1 <= IdNumber(s.toasts[i]) <= s.counter)
    && (forall i, j | 0 <= i < j < |s.toasts| :: IdNumber(s.toasts[i]) < IdNumber(s.toasts[j]))
  }

  lemma InitialStoreValid()
    ensures Valid(InitialStore) && InSync(InitialStore)
  {
  }

  /** What `notify` leaves behind: the new store, the new toast's id and the delay of its removal timer. */
  datatype Notified = Notified(store: Store, id: string, dismissAfter: int)

  /** `duration || 5000`: an absent or zero duration falls back to the default. */
  function DismissDelay(duration: Option<int>): (r: int)
    ensures duration.Some? && duration.value != 0 ==> r == duration.value
    ensures duration.None? || duration.value == 0 ==> r == DefaultDuration
  {
    match duration
    case Some(d) => if d != 0 then d else DefaultDuration
    case None => DefaultDuration
  }

  /**
   * `notify`: increments the counter, appends a toast whose id is the new counter
   * value in decimal, and hands every listener the new list.
   */
  function Notify(s: Store, kind: ToastType, message: string, duration: Option<int>): (r: Notified)
    ensures r.store.counter == s.counter + 1
    ensures r.id == NatToString(s.counter + 1)
    ensures r.store.toasts == s.toasts + [Toast(r.id, kind, message, duration)]
    ensures |r.store.views| == |s.views| && InSync(r.store)
    ensures r.dismissAfter == DismissDelay(duration)
  {
    var id := NatToString(s.counter + 1);
    var toasts := s.toasts + [Toast(id, kind, message, duration)];
    Notified(Publish(s, toasts).(counter := s.counter + 1), id, DismissDelay(duration))
  }

  /** `findIndex(toast => toast.id === id)`: the first toast with the id, or -1. */
  function FindIndex(toasts: seq<Toast>, id: string): (r: int)
    ensures -1 <= r < |toasts|
    ensures r >= 0 ==> toasts[r].id == id
    ensures forall k | 0 <= k < |toasts| && (r == -1 || k < r) :: toasts[k].id != id
  {
    if |toasts| == 0 then -1
    else if toasts[0].id == id then 0
    else
      var rest := FindIndex(toasts[1..], id);
      if rest == -1 then -1 else rest + 1
  }

  /**
   * `removeToast`: removes the first toast with the id and notifies the listeners;
   * an id that is not (or no longer) shown leaves the store, views included, as it was.
   */
  function RemoveToast(s: Store, id: string): (r: Store)
    ensures r.counter == s.counter
    ensures (forall k | 0 <= k < |s.toasts| :: s.toasts[k].id != id) ==> r == s
    ensures FindIndex(s.toasts, id) >= 0 ==> (
      var i := FindIndex(s.toasts, id);
      r.toasts == s.toasts[..i] + s.toasts[i + 1..] && |r.views| == |s.views| && InSync(r))
  {
    var i := FindIndex(s.toasts, id);
    if i > -1 then Publish(s, s.toasts[..i] + s.toasts[i + 1..])
    else s
  }

  /** A `Toaster` mounts: its listener is registered and starts from an empty list. */
  function Mount(s: Store): (r: Store)
    ensures r.views == s.views + [[]]
    ensures r.counter == s.counter && r.toasts == s.toasts
  {
    s.(views := s.views + [[]])
  }

  /** A `Toaster` unmounts: its listener is unregistered; the toasts stay. */
  function Unmount(s: Store, v: int): (r: Store)
    ensures 0 <= v < |s.views| ==> r.views == s.views[..v] + s.views[v + 1..]
    ensures !(0 <= v < |s.views|) ==> r == s
    ensures r.counter == s.counter && r.toasts == s.toasts
  {
    if 0 <= v < |s.views| then s.(views := s.views[..v] + s.views[v + 1..]) else s
  }

  // ---------------------------------------------------------------- properties

  lemma NotifyPreservesValid(s: Store, kind: ToastType, message: string, duration: Option<int>)
    requires Valid(s)
    ensures Valid(Notify(s, kind, message, duration).store)
  {
    var n := Notify(s, kind, message, duration);
    ParseNatToString(s.counter + 1);
    assert IdNumber(n.store.toasts[|s.toasts|]) == s.counter + 1;
    assert forall i | 0 <= i < |s.toasts| :: n.store.toasts[i] == s.toasts[i];
  }

  lemma RemovePreservesValid(s: Store, id: string)
    requires Valid(s)
    ensures Valid(RemoveToast(s, id))
  {
    var i := FindIndex(s.toasts, id);
    if i >= 0 {
      RemovalKeepsOrder(s.toasts, i);
    }
  }

  /** Dropping one element of a list ordered by strictly increasing number keeps it so ordered. */
  lemma RemovalKeepsOrder(t: seq<Toast>, i: int)
    requires 0 <= i < |t|
    requires forall a, b | 0 <= a < b < |t| :: IdNumber(t[a]) < IdNumber(t[b])
    ensures var u := t[..i] + t[i + 1..];
      forall a, b | 0 <= a < b < |u| :: IdNumber(u[a]) < IdNumber(u[b])
  {
    var u := t[..i] + t[i + 1..];
    forall a, b | 0 <= a < b < |u|
      ensures IdNumber(u[a]) < IdNumber(u[b])
    {
      var a', b' := if a < i then a else a + 1, if b < i then b else b + 1;
      assert u[a] == t[a'] && u[b] == t[b'];
    }
  }

  /** In a valid store no two visible toasts share an id. */
  lemma IdsUnique(s: Store, i: int, j: int)
    requires Valid(s)
    requires 0 <= i < |s.toasts| && 0 <= j < |s.toasts| && i != j
    ensures s.toasts[i].id != s.toasts[j].id
  {
    if i < j {
      assert IdNumber(s.toasts[i]) < IdNumber(s.toasts[j]);
    } else {
      assert IdNumber(s.toasts[j]) < IdNumber(s.toasts[i]);
    }
  }

  /** The id `notify` issues is never one a visible toast already has. */
  lemma NewIdIsFresh(s: Store, kind: ToastType, message: string, duration: Option<int>)
    requires Valid(s)
    ensures forall k | 0 <= k < |s.toasts| :: s.toasts[k].id != Notify(s, kind, message, duration).id
  {
    ParseNatToString(s.counter + 1);
  }

  /** Removing the toast just shown (its timer firing) restores the previous list. */
  lemma NotifyThenRemove(s: Store, kind: ToastType, message: string, duration: Option<int>)
    requires Valid(s)
    ensures var n := Notify(s, kind, message, duration);
      RemoveToast(n.store, n.id).toasts == s.toasts
  {
    var n := Notify(s, kind, message, duration);
    NewIdIsFresh(s, kind, message, duration);
    assert forall k | 0 <= k < |s.toasts| :: n.store.toasts[k] == s.toasts[k];
    assert n.store.toasts[|s.toasts|].id == n.id;
    assert FindIndex(n.store.toasts, n.id) == |s.toasts|;
    assert n.store.toasts[..|s.toasts|] == s.toasts;
  }

  /** A timer firing for a toast already dismissed changes nothing. */
  lemma RemoveTwiceIsRemoveOnce(s: Store, id: string)
    requires Valid(s)
    ensures RemoveToast(RemoveToast(s, id), id) == RemoveToast(s, id)
  {
    var i := FindIndex(s.toasts, id);
    if i >= 0 {
      var r := RemoveToast(s, id);
      forall k | 0 <= k < |r.toasts|
        ensures r.toasts[k].id != id
      {
        var m := if k < i then k else k + 1;
        assert r.toasts[k] == s.toasts[m];
        IdsUnique(s, i, m);
      }
    }
  }
}

=== FILE: token_filter.dfy ===
/**
 * AuthTokenFilter: the `Authorization: Bearer <token>` header parsing and the
 * once-per-request step that authenticates a valid token's user. Token
 * validation, the username claim and the user lookup are supplied as `Jwt`.
 */
module TokenFilter {
  import opened Wrappers
  import opened Text

  const BearerPrefix: string := "Bearer "

  /** `parseJwt`: the text after "Bearer " when the header has text and starts with it. */
  function ParseJwt(header: Option<string>): (r: Option<string>)
    ensures r.Some? <==> header.Some? && StartsWith(header.value, BearerPrefix)
    ensures r.Some? ==> header.value == BearerPrefix + r.value
  {
    BearerHeaderHasText(header);
    if HasText(header) && StartsWith(header.value, BearerPrefix) then
      assert header.value == header.value[..7] + header.value[7..];
      Some(header.value[7..])
    else None
  }

  /** The `hasText` test adds nothing: a header starting with "Bearer " always has text. */
  lemma BearerHeaderHasText(header: Option<string>)
    ensures header.Some? && StartsWith(header.value, BearerPrefix) ==> HasText(header)
  {
    if header.Some? && StartsWith(header.value, BearerPrefix) {
      assert header.value[0] == 'B';
      assert !IsJavaWhitespace(header.value[0]);
    }
  }

  /** Round trip: a token sent as `Bearer <token>` is read back exactly, even an empty one. */
  lemma ParseJwtRoundTrip(token: string)
    ensures ParseJwt(Some(BearerPrefix + token)) == Some(token)
  {
    var h := BearerPrefix + token;
    assert h[..|BearerPrefix|] == BearerPrefix;
    assert (BearerPrefix + token)[7..] == token;
  }

  /** Any other scheme, or no header, carries no token. */
  lemma OtherSchemesCarryNoToken(header: string)
    requires |header| < 7 || header[..7] != BearerPrefix
    ensures ParseJwt(Some(header)) == None && ParseJwt(None) == None
  {
  }

  /** What the filter reaches outside itself. */
  datatype Jwt<P> = Jwt(
    /** `validateJwtToken`: signature and expiry check, never throwing. */
    validate: string -> bool,
    /** `getUserNameFromJwtToken`: the subject, or what it throws. */
    username: string -> Result<string, Exception>,
    /** `loadUserByUsername`: the user's details, or what it throws. */
    loadUser: string -> Result<P, Exception>)

  datatype FilterOutcome<P> = FilterOutcome(authentication: Option<P>, chainCalled: bool)

  /** Whether the header authenticates someone, and whom. */
  function Authenticates<P>(jwt: Jwt<P>, header: Option<string>): Option<P> {
    match ParseJwt(header)
    case None => None
    case Some(token) =>
      if !jwt.validate(token) then None
      else match jwt.username(token)
        case Failure(_) => None
        case Success(name) =>
          match jwt.loadUser(name)
          case Failure(_) => None
          case Success(p) => Some(p)
  }

  /**
   * `doFilterInternal`: every failure is swallowed, the security context is
   * set only for a valid token whose user loads, and the chain always runs.
   */
  function DoFilter<P>(jwt: Jwt<P>, header: Option<string>, context: Option<P>): (r: FilterOutcome<P>)
    ensures r.chainCalled
    ensures ParseJwt(header).None? ==> r.authentication == context
    ensures r.authentication != context ==> (ParseJwt(header).Some? && r.authentication.Some?
      && var token := ParseJwt(header).value;
      jwt.validate(token) && jwt.username(token).Success?
      && jwt.loadUser(jwt.username(token).value) == Success(r.authentication.value))
  {
    match Authenticates(jwt, header)
    case None => FilterOutcome(context, true)
    case Some(p) => FilterOutcome(Some(p), true)
  }

  /** A token that fails validation never changes who is authenticated. */
  lemma InvalidTokenNeverAuthenticates<P>(jwt: Jwt<P>, token: string, context: Option<P>)
    requires !jwt.validate(token)
    ensures DoFilter(jwt, Some(BearerPrefix + token), context).authentication == context
  {
    ParseJwtRoundTrip(token);
  }

  /** A valid token whose user loads authenticates exactly that user. */
  lemma ValidTokenAuthenticatesItsUser<P>(jwt: Jwt<P>, token: string, context: Option<P>)
    requires jwt.validate(token) && jwt.username(token).Success?
    requires jwt.loadUser(jwt.username(token).value).Success?
    ensures DoFilter(jwt, Some(BearerPrefix + token), context).authentication
         == Some(jwt.loadUser(jwt.username(token).value).value)
  {
    ParseJwtRoundTrip(token);
  }
}

=== FILE: upload_page.dfy ===
/**
 * The upload page (`app/dashboard/upload/page.tsx`): screening of picked or
 * dropped files, removal from the list, and the sequential upload loop with its
 * per-file progress map.
 */
module UploadPage {
  import opened Wrappers
  import opened Text
  import Seqs
  import DocumentProcessing
  import Toaster
  import ClientApi

  /** A browser `File`: its name, MIME type (`""` when the browser does not know it) and size in bytes. */
  datatype ClientFile = ClientFile(name: string, mime: string, size: nat)

  const TypeRejectedSuffix: string := ": Only PDF and Word documents are supported"
  const SizeRejectedSuffix: string := ": File size must be less than 50MB"
  const NothingSelectedMessage: string := "Please select files to upload"
  const UploadedSuffix: string := " uploaded successfully"
  const FailedPrefix: string := "Failed to upload "
  const GenericFailure: string := "Upload failed"

  /** A toast the page raises: its kind and message. */
  type Note = (Toaster.ToastType, string)

  predicate IsAcceptedType(mime: string) {
    mime == DocumentProcessing.Pdf || mime == DocumentProcessing.MsWord || mime == DocumentProcessing.Docx
  }

  /** The client's limit is the server's 50 MiB, inclusive. */
  predicate IsAcceptedSize(size: nat) {
    size <= 50 * 1024 * 1024
  }

  predicate Accepted(f: ClientFile) {
    IsAcceptedType(f.mime) && IsAcceptedSize(f.size)
  }

  /** The error toast for a file the filter drops; the type is checked before the size. */
  function RejectionNote(f: ClientFile): (r: Option<string>)
    ensures r.None? <==> Accepted(f)
    ensures !IsAcceptedType(f.mime) ==> r == Some(f.name + TypeRejectedSuffix)
    ensures IsAcceptedType(f.mime) && !IsAcceptedSize(f.size) ==> r == Some(f.name + SizeRejectedSuffix)
  {
    if !IsAcceptedType(f.mime) then Some(f.name + TypeRejectedSuffix)
    else if !IsAcceptedSize(f.size) then Some(f.name + SizeRejectedSuffix)
    else None
  }

  /** The files kept and the error toasts raised for the others, in input order. */
  datatype Screening = Screening(kept: seq<ClientFile>, errors: seq<string>)

  function Rejected(xs: seq<ClientFile>): seq<ClientFile> {
    Seqs.Filter(xs, (f: ClientFile) => !Accepted(f))
  }

  /** The `filter` callback of `addFiles` run over the new files. */
  function Screen(newFiles: seq<ClientFile>): (r: Screening)
    ensures r.kept == Seqs.Filter(newFiles, Accepted)
    ensures |r.errors| == |Rejected(newFiles)|
    ensures forall k | 0 <= k < |r.errors| :: Some(r.errors[k]) == RejectionNote(Rejected(newFiles)[k])
  {
    if |newFiles| == 0 then Screening([], [])
    else
      var rest := Screen(newFiles[1..]);
      Seqs.FilterCons(newFiles, Accepted);
      Seqs.FilterCons(newFiles, (f: ClientFile) => !Accepted(f));
      match RejectionNote(newFiles[0])
      case None => Screening([newFiles[0]] + rest.kept, rest.errors)
      case Some(e) =>
        assert Rejected(newFiles) == [newFiles[0]] + Rejected(newFiles[1..]);
        Screening(rest.kept, [e] + rest.errors)
  }

  /** `addFiles`: the accepted new files are appended after the current list, duplicates and all. */
  function AddFiles(files: seq<ClientFile>, newFiles: seq<ClientFile>): (r: Screening)
    ensures r.kept == files + Seqs.Filter(newFiles, Accepted)
    ensures r.errors == Screen(newFiles).errors
  {
    var s := Screen(newFiles);
    Screening(files + s.kept, s.errors)
  }

  /** Adding files never touches the files already listed. */
  lemma AddFilesKeepsList(files: seq<ClientFile>, newFiles: seq<ClientFile>)
    ensures var r := AddFiles(files, newFiles).kept;
      |r| >= |files| && r[..|files|] == files
      && (forall f | f in r[|files|..] :: f in newFiles && Accepted(f))
  {
    var r := AddFiles(files, newFiles).kept;
    assert r[..|files|] == files;
    assert r[|files|..] == Seqs.Filter(newFiles, Accepted);
  }

  /**
   * The page and the server agree on non-empty files: a file the page keeps passes
   * the server's validation, and one it drops would fail it.
   */
  lemma ScreeningMatchesServer(f: ClientFile, content: seq<bv8>)
    requires |content| == f.size > 0
    ensures Accepted(f) <==> DocumentProcessing.ValidateFile(DocumentProcessing.MultipartFile(Some(f.name), Some(f.mime), content)).None?
  {
  }

  /** An empty file passes the page's filter but not the server, which answers "File is empty". */
  lemma EmptyFileReachesServer(name: string)
    ensures Accepted(ClientFile(name, DocumentProcessing.Pdf, 0))
    ensures DocumentProcessing.ValidateFile(DocumentProcessing.MultipartFile(Some(name), Some(DocumentProcessing.Pdf), []))
      == Some(DocumentProcessing.EmptyFileMessage)
  {
  }

  /** `removeFile(index)`: keeps the files whose position differs from `index`. */
  function RemoveFile(files: seq<ClientFile>, index: int): (r: seq<ClientFile>)
    ensures 0 <= index < |files| ==> r == files[..index] + files[index + 1..]
    ensures !(0 <= index < |files|) ==> r == files
  {
    if |files| == 0 then []
    else if index == 0 then
      assert files[1..] == files[..0] + files[1..];
      RemoveFile(files[1..], index - 1)
    else if 0 < index < |files| then
      SliceAfterHead(files, index);
      [files[0]] + RemoveFile(files[1..], index - 1)
    else
      [files[0]] + RemoveFile(files[1..], index - 1)
  }

  lemma SliceAfterHead(files: seq<ClientFile>, index: int)
    requires 0 < index < |files|
    ensures [files[0]] + (files[1..][..index - 1] + files[1..][index..]) == files[..index] + files[index + 1..]
  {
    assert files[1..][..index - 1] == files[1..index];
    assert files[1..][index..] == files[index + 1..];
    assert files[..index] == [files[0]] + files[1..index];
  }

  // ---------------------------------------------------------------- the upload loop

  /** How one `uploadDocument` call ended: it resolved, or it threw with an optional server message. */
  datatype Outcome = Uploaded | UploadFailed(message: Option<string>)

  /** An entry of `results`. */
  datatype UploadResult = UploadResult(file: string, success: bool, error: Option<string>)

  /** `error.response?.data?.message || 'Upload failed'`. */
  function FailureText(message: Option<string>): (r: string)
    ensures JsTruthy(message) ==> r == message.value
    ensures !JsTruthy(message) ==> r == GenericFailure
  {
    if JsTruthy(message) then message.value else GenericFailure
  }

  /** The progress value a finished upload leaves: 100 for success, -1 for failure. */
  function ProgressCode(o: Outcome): (r: int)
    ensures r == 100 <==> o.Uploaded?
    ensures r == -1 <==> o.UploadFailed?
  {
    if o.Uploaded? then 100 else -1
  }

  /** The toast for one finished upload. */
  function OutcomeNote(f: ClientFile, o: Outcome): (r: Note)
    ensures o.Uploaded? ==> r == (Toaster.Success, f.name + UploadedSuffix)
    ensures o.UploadFailed? ==> r == (Toaster.Error, FailedPrefix + f.name + ": " + FailureText(o.message))
  {
    match o
    case Uploaded => (Toaster.Success, f.name + UploadedSuffix)
    case UploadFailed(m) => (Toaster.Error, FailedPrefix + f.name + ": " + FailureText(m))
  }

  function ResultOf(f: ClientFile, o: Outcome): UploadResult {
    match o
    case Uploaded => UploadResult(f.name, true, None)
    case UploadFailed(m) => UploadResult(f.name, false, Some(FailureText(m)))
  }

  /** The progress map after the first `n` uploads: one entry per file name, the later upload winning. */
  function ProgressAfter(files: seq<ClientFile>, upload: (nat, ClientFile) -> Outcome, start: map<string, int>, n: nat): map<string, int>
    requires n <= |files|
  {
    if n == 0 then start
    else ProgressAfter(files, upload, start, n - 1)[files[n - 1].name := ProgressCode(upload(n - 1, files[n - 1]))]
  }

  /**
   * `uploadFiles`: with no files it only raises an error toast. Otherwise it sends
   * the files one at a time in list order; the `i`-th call ends as `upload(i, file)`.
   * Before each call the file's progress is 0 (the snapshot taken as the request
   * goes out); afterwards it is 100 or -1, and a toast reports the outcome. The
   * page moves on to the dashboard exactly when some upload succeeded.
   */
  method UploadFiles(files: seq<ClientFile>, start: map<string, int>, upload: (nat, ClientFile) -> Outcome)
    returns (sent: seq<ClientFile>, snapshots: seq<map<string, int>>, progress: map<string, int>,
             results: seq<UploadResult>, notes: seq<Note>, redirect: bool)
    ensures |files| == 0 ==> (
      sent == [] && progress == start && results == [] && !redirect
      && notes == [(Toaster.Error, NothingSelectedMessage)])
    ensures |files| > 0 ==> sent == files
    ensures |snapshots| == |sent|
    ensures forall i | 0 <= i < |sent| :: sent[i].name in snapshots[i] && snapshots[i][sent[i].name] == 0
    ensures |files| > 0 ==> (
      |results| == |files| && |notes| == |files|
      && (forall i | 0 <= i < |files| :: results[i] == ResultOf(files[i], upload(i, files[i])))
      && (forall i | 0 <= i < |files| :: notes[i] == OutcomeNote(files[i], upload(i, files[i]))))
    ensures progress == ProgressAfter(files, upload, start, |files|)
    ensures redirect <==> exists i | 0 <= i < |files| :: upload(i, files[i]).Uploaded?
  {
    if |files| == 0 {
      return [], [], start, [], [(Toaster.Error, NothingSelectedMessage)], false;
    }
    sent, snapshots, progress, results, notes, redirect := RunUploads(files, start, upload);
    SnapshotsIndex(files, upload, start, |files|);
    ReportsIndex(files, upload, |files|);
    AnyUploadedIff(files, upload, |files|);
  }

  /** The loop of `uploadFiles` over a non-empty list. */
  method RunUploads(files: seq<ClientFile>, start: map<string, int>, upload: (nat, ClientFile) -> Outcome)
    returns (sent: seq<ClientFile>, snapshots: seq<map<string, int>>, progress: map<string, int>,
             results: seq<UploadResult>, notes: seq<Note>, redirect: bool)
    ensures sent == files
    ensures snapshots == Snapshots(files, upload, start, |files|)
    ensures progress == ProgressAfter(files, upload, start, |files|)
    ensures results == ResultsAfter(files, upload, |files|)
    ensures notes == NotesAfter(files, upload, |files|)
    ensures redirect == AnyUploaded(files, upload, |files|)
  {
    sent, snapshots, progress, results, notes, redirect := [], [], start, [], [], false;
    var i := 0;
    while i < |files|
      invariant 0 <= i <= |files|
      invariant sent == files[..i]
      invariant snapshots == Snapshots(files, upload, start, i)
      invariant progress == ProgressAfter(files, upload, start, i)
      invariant results == ResultsAfter(files, upload, i)
      invariant notes == NotesAfter(files, upload, i)
      invariant redirect == AnyUploaded(files, upload, i)
    {
      var file := files[i];
      var pending := progress[file.name := 0];
      snapshots := snapshots + [pending];
      assert files[..i + 1] == files[..i] + [file];
      sent := sent + [file];
      var outcome := upload(i, file);
      progress := progress[file.name := ProgressCode(outcome)];
      results := results + [ResultOf(file, outcome)];
      notes := notes + [OutcomeNote(file, outcome)];
      redirect := redirect || outcome.Uploaded?;
      i := i + 1;
    }
    assert sent == files;
  }

  /** The progress map as each of the first `n` requests goes out. */
  function Snapshots(files: seq<ClientFile>, upload: (nat, ClientFile) -> Outcome, start: map<string, int>, n: nat): seq<map<string, int>>
    requires n <= |files|
  {
    if n == 0 then []
    else Snapshots(files, upload, start, n - 1) + [ProgressAfter(files, upload, start, n - 1)[files[n - 1].name := 0]]
  }

  lemma {:induction false} SnapshotsIndex(files: seq<ClientFile>, upload: (nat, ClientFile) -> Outcome, start: map<string, int>, n: nat)
    requires n <= |files|
    ensures |Snapshots(files, upload, start, n)| == n
    ensures forall k | 0 <= k < n ::
      (files[k].name in Snapshots(files, upload, start, n)[k] && Snapshots(files, upload, start, n)[k][files[k].name] == 0)
  {
    if n > 0 {
      SnapshotsIndex(files, upload, start, n - 1);
    }
  }

  /** Whether one of the first `n` uploads succeeded. */
  function AnyUploaded(files: seq<ClientFile>, upload: (nat, ClientFile) -> Outcome, n: nat): bool
    requires n <= |files|
  {
    n > 0 && (AnyUploaded(files, upload, n - 1) || upload(n - 1, files[n - 1]).Uploaded?)
  }

  lemma {:induction false} AnyUploadedIff(files: seq<ClientFile>, upload: (nat, ClientFile) -> Outcome, n: nat)
    requires n <= |files|
    ensures AnyUploaded(files, upload, n) <==> exists k | 0 <= k < n :: upload(k, files[k]).Uploaded?
  {
    if n > 0 {
      AnyUploadedIff(files, upload, n - 1);
      if upload(n - 1, files[n - 1]).Uploaded? {
        assert exists k | 0 <= k < n :: upload(k, files[k]).Uploaded?;
      }
    }
  }

  /** The `results` entries of the first `n` uploads, in order. */
  function ResultsAfter(files: seq<ClientFile>, upload: (nat, ClientFile) -> Outcome, n: nat): seq<UploadResult>
    requires n <= |files|
  {
    if n == 0 then [] else ResultsAfter(files, upload, n - 1) + [ResultOf(files[n - 1], upload(n - 1, files[n - 1]))]
  }

  /** The toasts of the first `n` uploads, in order. */
  function NotesAfter(files: seq<ClientFile>, upload: (nat, ClientFile) -> Outcome, n: nat): seq<Note>
    requires n <= |files|
  {
    if n == 0 then [] else NotesAfter(files, upload, n - 1) + [OutcomeNote(files[n - 1], upload(n - 1, files[n - 1]))]
  }

  lemma {:induction false} ReportsIndex(files: seq<ClientFile>, upload: (nat, ClientFile) -> Outcome, n: nat)
    requires n <= |files|
    ensures |ResultsAfter(files, upload, n)| == n && |NotesAfter(files, upload, n)| == n
    ensures forall k | 0 <= k < n :: ResultsAfter(files, upload, n)[k] == ResultOf(files[k], upload(k, files[k]))
    ensures forall k | 0 <= k < n :: NotesAfter(files, upload, n)[k] == OutcomeNote(files[k], upload(k, files[k]))
  {
    if n > 0 {
      ReportsIndex(files, upload, n - 1);
    }
  }

  /** A file's progress after the run is set by the last upload of a file with the same name. */
  lemma {:induction false} FinalProgress(files: seq<ClientFile>, upload: (nat, ClientFile) -> Outcome, start: map<string, int>, n: nat, k: nat)
    requires k < n <= |files|
    requires forall j | k < j < n :: files[j].name != files[k].name
    ensures files[k].name in ProgressAfter(files, upload, start, n)
    ensures ProgressAfter(files, upload, start, n)[files[k].name] == ProgressCode(upload(k, files[k]))
    decreases n
  {
    if k < n - 1 {
      FinalProgress(files, upload, start, n - 1, k);
    }
  }

  // ---------------------------------------------------------------- row flags

  /** What a listed file's row shows: spinner, tick or cross. */
  datatype RowFlags = RowFlags(uploading: bool, completed: bool, failed: bool)

  /** The row of a file, from the page's `uploading` flag and the progress entry under its name. */
  function Row(uploading: bool, progress: map<string, int>, name: string): (r: RowFlags)
    ensures r.completed <==> name in progress && progress[name] == 100
    ensures r.failed <==> name in progress && progress[name] == -1
    ensures r.uploading <==> uploading && name in progress && progress[name] >= 0
  {
    var p := if name in progress then Some(progress[name]) else None;
    RowFlags(uploading && p.Some? && p.value >= 0, p == Some(100), p == Some(-1))
  }

  /**
   * After a run, a file whose name no later file shares shows a tick exactly when
   * its upload succeeded and a cross exactly when it failed.
   */
  lemma RowAfterUpload(files: seq<ClientFile>, upload: (nat, ClientFile) -> Outcome, start: map<string, int>, k: nat)
    requires k < |files|
    requires forall j | k < j < |files| :: files[j].name != files[k].name
    ensures var row := Row(false, ProgressAfter(files, upload, start, |files|), files[k].name);
      (row.completed <==> upload(k, files[k]).Uploaded?) && (row.failed <==> upload(k, files[k]).UploadFailed?)
      && !row.uploading
  {
    FinalProgress(files, upload, start, |files|, k);
  }

  /**
   * Progress is keyed by file name, so two files with the same name share a row
   * state: when the first upload fails and the second succeeds, both rows show a tick.
   */
  lemma SameNameFilesShareProgress(a: ClientFile, b: ClientFile)
    requires a.name == b.name
    ensures var upload := (i: nat, f: ClientFile) => if i == 0 then UploadFailed(None) else Uploaded;
      var p := ProgressAfter([a, b], upload, map[], 2);
      Row(false, p, a.name).completed && !Row(false, p, a.name).failed
  {
  }

  /**
   * How `uploadDocument` ends for a given cookie: the guard's `new Error` carries no
   * `response`, so a refused request reaches the page as a failure without a server
   * message; a request that is sent ends as `sent`, whatever the server answered.
   */
  function UploadAttempt(token: Option<string>, sent: Outcome): (r: Outcome)
    ensures ClientApi.UploadRequest(token).Failure? ==> r == UploadFailed(None)
    ensures ClientApi.UploadRequest(token).Success? ==> r == sent
  {
    match ClientApi.UploadRequest(token)
    case Failure(_) => UploadFailed(None)
    case Success(_) => sent
  }

  /**
   * An upload stopped by the client's own token guard shows the generic failure
   * text: the guard's "Authentication required" message does not reach the toast
   * or the results entry.
   */
  lemma MissingTokenShowsGenericFailure(f: ClientFile, token: Option<string>, sent: Outcome)
    ensures ClientApi.UploadRequest(token).Failure? ==>
      (OutcomeNote(f, UploadAttempt(token, sent)) == (Toaster.Error, FailedPrefix + f.name + ": " + GenericFailure)
       && ResultOf(f, UploadAttempt(token, sent)) == UploadResult(f.name, false, Some(GenericFailure)))
  {
  }
}

=== FILE: web.dfy ===
/**
 * What the REST controllers answer: a status with its body, and the database
 * after the request.
 */
module Web {
  import opened Wrappers
  import opened Text
  import opened Repository

  /**
   * The responses the controllers build: 200 with a body, 404 without one,
   * 400 with a `MessageResponse`, and 500 for an exception the controller does
   * not catch (Spring's default error handling).
   */
  datatype Http<T> = Ok(body: T) | NotFound | BadRequest(message: string) | ServerError(error: Exception)

  datatype Reply<T> = Reply(response: Http<T>, db: Db)

  /** The catch-block text `prefix + e.getMessage()`; a null message prints as "null". */
  function ErrorText(prefix: string, e: Exception): (s: string)
    ensures StartsWith(s, prefix) && EndsWith(s, JavaStr(e.message))
    ensures |s| == |prefix| + |JavaStr(e.message)|
  {
    var s := prefix + JavaStr(e.message);
    assert s[..|prefix|] == prefix;
    assert s[|prefix|..] == JavaStr(e.message);
    s
  }
}

=== FILE: wrappers.dfy ===
/** Option and Result, used for Java's nullable references and thrown exceptions. */
module Wrappers {

  /** A nullable value: `None` stands for Java's or JavaScript's null/undefined. */
  datatype Option<+T> = None | Some(value: T) {

    /** Returns the wrapped value, or `default` when there is none. */
    function GetOr(default: T): T {
      match this
      case Some(v) => v
      case None => default
    }
  }

  /** The outcome of a call that may throw: `Failure` carries the thrown value. */
  datatype Result<+R, +E> = Success(value: R) | Failure(error: E)

  /** A thrown Java exception, reduced to what the code reads of it: `getMessage()`, which may be null. */
  datatype Exception = Exception(message: Option<string>)
}
